=== FILE: README.md ===
# paperhands backtesting core in Dafny

This project models the deterministic core of the paperhands backtester and
proves properties about it:

- the domain records: orders, positions, bars and fill events;
- the portfolio ledger with its five-way fill booking;
- the backtest broker's OHLC fill rules and order bookkeeping;
- the engine's per-timestamp loop;
- the performance analytics computed from the finished ledger.

All state is immutable. Each operation is a pure function from the old state
to the new one, and prices, cash and P&L are exact `real`s.

| file | module | models |
|---|---|---|
| `wrappers.dfy` | `Wrappers` | `Option` and `Result` |
| `types.dfy` | `Types` | `src/core/types.py`: enums, `Bar`, `Order` (with its constructor check), `Position`, `FillEvent` |
| `dict.dfy` | `Dicts` | Python's insertion-ordered `dict` as a list of key/value pairs with unique keys |
| `ledger.dfy` | `Ledger` | `src/portfolio/portfolio.py` |
| `broker.dfy` | `Execution` | `src/execution/backtest_broker.py` |
| `engine.dfy` | `Backtest` | `paperhands/backtest/engine.py`: `load_data` and `run` |
| `analytics.dfy` | `Analytics` | `src/backtest/analytics.py`: every metric except the Sharpe and Sortino ratios |

Modelling choices:

- Order ids are drawn from a counter (`nextId`) rather than `uuid4`. The
  submission time is a parameter: the engine passes the current bar's
  timestamp in place of `datetime.now()`.
- A strategy is `Passive`, meaning it never trades, or `Reactive(decide)`,
  where `decide` maps the broker's state and each bar to the orders to
  submit. `on_start`, `on_fill` and `on_stop` submit nothing. The engine's
  result records every callback in a call trace (`OnStart`, `BrokerBar`, `OnBar`, `MarkToMarket`, `OnFill`,
  `OnStop`), and the ordering properties are stated over that trace. The
  same ordering is also stated on the broker states themselves: a bar's
  fills are booked before the strategy answers it, the strategy's orders
  join the open list after the ones the bar left open, and each timestamp
  is marked to market before any of its bars is processed.
- The broker keeps its orders in a map from id to order. The open list
  `open_orders` is a list of ids, so an order is one record, not an object
  shared by three containers.
- The broker books each triggered fill in the ledger inside its loop over
  `open_orders`. The model books all of them, in the same order, after the
  matching pass (`ApplyFills`). The two are equivalent because booking never
  changes whether another order triggers or at what price.
- `_get_trade_pnls` replays the trade log with one book per symbol, in the
  same way as the source. A sell counts only while the symbol is held long.
- `_calculate_max_drawdown` divides by the running maximum. When that
  maximum is 0, pandas yields NaN (for 0/0) or −∞ (for a negative sample
  over 0), and `Series.min` skips NaN. The model states this with a
  three-way `Float`: `Num(x)`, `NegInf` or `NaN`. The maximum drawdown is
  `NegInf` exactly when some sample is negative under a zero running
  maximum, `NaN` exactly when every drawdown is NaN, and otherwise the
  smallest of the defined drawdowns. A positive equity curve always gives a
  `Num`.

## Model

| member | source | states |
|---|---|---|
| `Types.Bar.TypicalPrice` | src/core/types.py:77-80 | the typical price is the point whose signed distances to high, low and close sum to zero, and it lies inside the bar when the close does |
| `Types.Bar.Range` | src/core/types.py:82-85 | the range added to the low gives the high; it is non-negative exactly when low ≤ high, and it covers both open − low and high − close on a consistent bar |
| `Types.Order.IsActive` | src/core/types.py:116-124 | an active order is never filled; an order is inactive exactly when filled, canceled or rejected |
| `Types.NewOrder` | src/core/types.py:88-114 | construction fails exactly when a limit order lacks its limit price, a stop order its stop price, or a stop-limit order either one, with the matching error; market orders never fail; a built order is pending, unfilled, active and carries the given fields |
| `Types.Position.UnrealizedPnl` | src/core/types.py:135-148 | unrealized P&L is quantity × (current − entry); a long gains exactly when the price rose, a short exactly when it fell |
| `Types.Position.UnrealizedPnlPercent` | src/core/types.py:150-155 | 0 when the cost basis is 0, otherwise the relative price move from the entry price, in percent |
| `Types.Position.IsShort` | src/core/types.py:157-165 | long and short exclude each other, and a position is neither exactly when it is flat |
| `Ledger.NewPortfolio` | src/portfolio/portfolio.py:18-36 | a new ledger holds only its initial cash, is valid, and is worth its initial cash |
| `Ledger.PositionsValue` | src/portfolio/portfolio.py:49-57 | the positions are worth their cost basis plus their unrealized P&L; nothing without positions |
| `Ledger.PortfolioValue` | src/portfolio/portfolio.py:38-47 | the cash alone when no position is held |
| `Ledger.ValueOnBooks` | src/portfolio/portfolio.py:38-47 | on a ledger that keeps the bookkeeping law, the portfolio value is the initial cash plus realized and unrealized P&L less the commissions paid |
| `Ledger.TotalPnl` | src/portfolio/portfolio.py:59-68 | on a ledger that keeps the bookkeeping law, realized plus unrealized P&L is the value gained over the initial cash plus the commissions paid |
| `Ledger.SumUnrealized` | src/portfolio/portfolio.py:59-68 | summed over the positions, unrealized P&L is market value minus cost basis |
| `Ledger.TotalPnlPercent` | src/portfolio/portfolio.py:70-80 | 0 without initial cash, otherwise the total P&L as a percentage of it |
| `Ledger.GetPosition` | src/portfolio/portfolio.py:82-92 | present exactly when the symbol is a key, and then the position stored under it |
| `Ledger.HasPosition` | src/portfolio/portfolio.py:94-104 | true only for a held symbol; since flat positions are never kept, true exactly when the symbol is a key |
| `Ledger.GetPositionSize` | src/portfolio/portfolio.py:234-246 | the held quantity, 0 for an unheld symbol, non-zero exactly when a position is held |
| `Ledger.GetAllPositions` | src/portfolio/portfolio.py:248-255 | exactly the non-flat positions of the map; all of them when none is flat |
| `Ledger.GetBuyingPower` | src/portfolio/portfolio.py:207-217 | the buying power is the portfolio value less what the positions are worth; on a ledger that keeps its books, the initial cash plus realized P&L less commissions and less what the open positions cost |
| `Ledger.CanAfford` | src/portfolio/portfolio.py:219-232 | affordable exactly when the cash covers quantity × price |
| `Ledger.AffordableLeavesCash` | src/portfolio/portfolio.py:219-232 | a buy is affordable exactly when filling it at that price, without commission, leaves non-negative cash |
| `Ledger.UpdatePositionPrices` | src/portfolio/portfolio.py:106-120 | only the current prices of the symbols present in the price map change; cash, quantities, entry prices, realized P&L and the trade log are untouched; one equity sample equal to the repriced portfolio value is appended exactly when a timestamp is given; validity is kept |
| `Ledger.RepriceKeepsCostBasis` | src/portfolio/portfolio.py:114-116 | repricing leaves the total cost basis unchanged |
| `Ledger.FillPosition` | src/portfolio/portfolio.py:139-187 | a non-zero fill on a non-flat or absent position never leaves a flat position behind |
| `Ledger.Store` | src/portfolio/portfolio.py:150-187 | writing or deleting one symbol's position changes only that key and shifts the total cost basis by the difference of the two positions' costs |
| `Ledger.StoreKeepsNonFlat` | src/portfolio/portfolio.py:151-157 | storing a non-flat position, or deleting, keeps every kept position non-flat |
| `Ledger.CashAfterFill` | src/portfolio/portfolio.py:189-193 | a buy lowers cash by price × quantity plus commission; a sell raises it by price × quantity minus commission |
| `Ledger.ProcessFill` | src/portfolio/portfolio.py:122-205 | only the filled symbol's position changes, as the five-way booking prescribes; realized P&L grows by what the booking realizes; cash follows the fill; exactly one trade record is appended, carrying the new cash and portfolio value |
| `Ledger.FillOpens` | src/portfolio/portfolio.py:180-187 | a fill on an unheld symbol opens a position at the fill price and realizes nothing |
| `Ledger.AddingKeepsTotalCost` | src/portfolio/portfolio.py:145-150 | adding in the same direction averages the entry price so that the new quantity × new average equals the old cost plus the new shares' cost |
| `Ledger.AverageBetween` | src/portfolio/portfolio.py:145-150 | the new average entry price lies between the old average and the fill price |
| `Ledger.FillAdds` | src/portfolio/portfolio.py:145-150 | adding grows the quantity by the fill, grows the cost basis by the shares' cost, marks at the fill price, and realizes nothing |
| `Ledger.FillCloses` | src/portfolio/portfolio.py:151-157 | an exact close deletes the position and realizes quantity × (fill − entry), which is negated for a short |
| `Ledger.FillReducesPartially` | src/portfolio/portfolio.py:159-166 | a partial close keeps the entry price and the side, reduces the quantity, and realizes P&L on the closed shares only |
| `Ledger.FillReverses` | src/portfolio/portfolio.py:167-177 | a reversal realizes P&L on the whole old quantity and opens the remainder on the other side at the fill price |
| `Ledger.FillBalances` | src/portfolio/portfolio.py:139-187 | in all five cases, the change in the symbol's cost basis is the realized P&L plus the signed traded amount |
| `Ledger.FillCostBasis` | src/portfolio/portfolio.py:139-187 | over the whole ledger, a fill changes the total cost basis by the realized P&L plus the signed traded amount |
| `Ledger.FillCommission` | src/portfolio/portfolio.py:195-205 | a fill adds its commission to the total commission of the trade log |
| `Ledger.FillCash` | src/portfolio/portfolio.py:133-193 | a fill moves cash by minus the signed traded amount, minus the commission |
| `Ledger.ProcessFillKeepsBooks` | src/portfolio/portfolio.py:122-205 | every fill of positive size keeps cash + Σ cost basis = initial cash + realized P&L − Σ commissions |
| `Ledger.ProcessFillKeepsValid` | src/portfolio/portfolio.py:122-205 | every fill of positive size keeps keys unique, leaves no flat position, and keeps the bookkeeping law |
| `Ledger.BuyOpens` | src/portfolio/portfolio.py:180-193 | a buy of an unheld symbol opens a long at the fill price and pays price × quantity plus commission |
| `Ledger.SellCloses` | src/portfolio/portfolio.py:151-193 | selling a whole long deletes it, realizes quantity × (price − entry), and credits price × quantity minus commission |
| `Ledger.RoundTrip` | src/portfolio/portfolio.py:122-205 | buying and then selling the same quantity leaves no position, realizes quantity × (sell − buy) and moves cash by the same amount less both commissions |
| `Execution.NewBroker` | src/execution/backtest_broker.py:20-39 | a new broker has no orders, no open orders and no queued fills, and is valid |
| `Execution.SubmitOrder` | src/execution/backtest_broker.py:41-52 | the order keeps its instructions, gets a fresh id, becomes submitted at the given time, is stored under that id and joins the end of the open list; nothing else changes and validity is kept |
| `Execution.SubmitThenGet` | src/execution/backtest_broker.py:44-50 | a submitted order can be looked up by its new id and is open |
| `Execution.TriggerPrice` | src/execution/backtest_broker.py:77-104 | market orders trigger at the open; a buy limit triggers exactly when low ≤ limit, at the lower of limit and open; a sell limit triggers exactly when high ≥ limit, at the higher of the two; a buy stop triggers exactly when high ≥ stop, at the higher of stop and open; a sell stop triggers exactly when low ≤ stop, at the lower of the two; stop-limit orders never trigger; the price lies within a consistent bar |
| `Execution.Slip` | src/execution/backtest_broker.py:106-113 | with positive slippage, buys pay price × pct / 100 more and sells receive that much less; otherwise the price is unchanged |
| `Execution.Fire` | src/execution/backtest_broker.py:70-135 | an order fires exactly when it is for the bar's symbol and triggers; the event carries the order marked filled in full at the slipped price and bar time, with quantity × per-share commission |
| `Execution.FillOrders` | src/execution/backtest_broker.py:70-122 | the matching pass yields the events and fired ids in open-list order; it updates exactly the open orders and keeps every other order |
| `Execution.EventsMatchFired` | src/execution/backtest_broker.py:127-138 | the k-th event is the one the k-th fired order produces |
| `Execution.FiredMembers` | src/execution/backtest_broker.py:137-138 | an order fires exactly when it is open and its fill rule triggers |
| `Execution.EventsPositive` | src/execution/backtest_broker.py:128-134 | every event of the pass is for an order of positive size |
| `Execution.Without` | src/execution/backtest_broker.py:140-142 | removing the filled ids keeps exactly the others, in their original order, and keeps the list free of duplicates |
| `Execution.Book` | src/execution/backtest_broker.py:124-125 | booking a fill appends exactly one trade record, which records the event |
| `Execution.ApplyFills` | src/execution/backtest_broker.py:124-125 | booking the events keeps earlier records and appends one record per event, in order |
| `Execution.ApplyFillsKeepsValid` | src/execution/backtest_broker.py:124-125 | booking fills of positive size keeps the ledger valid |
| `Execution.ProcessBar` | src/execution/backtest_broker.py:54-142 | the bar's events are queued in open-list order and booked in the ledger; exactly the open orders are updated; an order stays open exactly when it was open and did not fire, and the orders left open keep their relative order; validity is kept |
| `Execution.MarketOrderFills` | src/execution/backtest_broker.py:77-80 | an open market order for the bar's symbol fills at the slipped open and leaves the open list |
| `Execution.StopLimitWaits` | src/execution/backtest_broker.py:77-106 | an open stop-limit order stays open and unchanged |
| `Execution.OtherSymbolsWait` | src/execution/backtest_broker.py:70-72 | an open order for another symbol stays open and unchanged |
| `Execution.EventsLeaveOpen` | src/execution/backtest_broker.py:137-142 | no event of a pass belongs to an order that stays open |
| `Execution.QueuedFillsLeftOpenList` | src/execution/backtest_broker.py:135-142 | every newly queued fill's order has left the open list |
| `Execution.ProcessBarKeepsBooks` | src/execution/backtest_broker.py:124-125 | processing a bar keeps the ledger valid |
| `Execution.RemoveFirst` | src/execution/backtest_broker.py:154-155 | removing an id from a duplicate-free list drops exactly that id and nothing else |
| `Execution.RemoveFirstAt` | src/execution/backtest_broker.py:154-155 | `list.remove` cuts out the first occurrence: the ids before it and the ids after it, each in their order |
| `Execution.CancelOrder` | src/execution/backtest_broker.py:144-157 | succeeds exactly for a known submitted or pending order, which becomes canceled and is cut out of the open list at its position, the other open ids keeping their order; the ledger, fill queue, id counter and cost model are kept; otherwise nothing changes |
| `Execution.CancelKeepsValid` | src/execution/backtest_broker.py:153-155 | canceling keeps the broker valid: the open list holds exactly the submitted orders, each once |
| `Execution.CancelTwice` | src/execution/backtest_broker.py:150-153 | a second cancel of the same order fails |
| `Execution.GetOrder` | src/execution/backtest_broker.py:159-161 | the stored order for a known id, nothing otherwise |
| `Execution.GetOpenOrders` | src/execution/backtest_broker.py:163-165 | the open orders in open-list order; on a valid broker each is submitted and carries its id |
| `Execution.GetFillEvents` | src/execution/backtest_broker.py:175-184 | returns the queued events in order and empties the queue, changing nothing else |
| `Execution.DrainOnce` | src/execution/backtest_broker.py:182-184 | an immediate second drain returns nothing |
| `Execution.GetPositions` | src/execution/backtest_broker.py:167-169 | the ledger's non-flat positions |
| `Execution.GetPosition` | src/execution/backtest_broker.py:171-173 | present exactly when the ledger holds the symbol, and then the position stored under it |
| `Backtest.LastAt` | paperhands/backtest/engine.py:98-102 | the bar a symbol's list leaves at a timestamp, where a later bar overwrites an earlier one; nothing exactly when no bar has that timestamp |
| `Backtest.AddBar` | paperhands/backtest/engine.py:100-102 | filing one bar sets exactly its (timestamp, symbol) slot and adds its timestamp if missing |
| `Backtest.AddBars` | paperhands/backtest/engine.py:99-102 | filing a symbol's bars sets each of its slots to the last bar with that timestamp and leaves the other slots alone |
| `Backtest.LoadAll` | paperhands/backtest/engine.py:98-102 | filing every symbol's bars sets exactly the slots of the loaded bars |
| `Backtest.LoadData` | paperhands/backtest/engine.py:85-102 | every slot holds the loaded bar for that timestamp and symbol and no other, its symbols in the order the provider returned them; the grouping is empty exactly when no bars were loaded |
| `Backtest.AddBarSlotKeys` | paperhands/backtest/engine.py:100-102 | filing a bar appends its symbol to its timestamp's slot unless already there; every other slot keeps its symbols |
| `Backtest.AddBarsSlotKeys` | paperhands/backtest/engine.py:99-102 | filing a symbol's bars appends that symbol once, at the end, to each slot it has a bar in |
| `Backtest.LoadAllSlotKeys` | paperhands/backtest/engine.py:98-102 | filing every symbol's bars appends to each slot the symbols with a bar there, in dictionary order |
| `Backtest.SomethingLoaded` | paperhands/backtest/engine.py:119-120 | if any symbol has a bar, the grouping is not empty |
| `Backtest.Insert` | paperhands/backtest/engine.py:126 | inserting a new timestamp into an increasing list keeps it increasing and adds exactly that element |
| `Backtest.SortTimes` | paperhands/backtest/engine.py:126 | the sorted timestamps are strictly increasing and are exactly the input's |
| `Backtest.Timeline` | paperhands/backtest/engine.py:126 | the visited timestamps are strictly increasing and are exactly the grouping's keys |
| `Backtest.Closes` | paperhands/backtest/engine.py:137 | the price map gives each symbol of the timestamp its bar's close, and no other symbol |
| `Backtest.SubmitAll` | paperhands/backtest/engine.py:152-153 | the strategy's orders join the end of the open list; the ledger and fill queue are untouched, the id counter never goes back, and validity is kept |
| `Backtest.SubmitAllKeeps` | paperhands/backtest/engine.py:152-153 | submitting leaves every earlier order stored as it was |
| `Backtest.SubmitAllPlaces` | paperhands/backtest/engine.py:152-153 | the i-th submitted order sits at open-list slot (old length + i), under a fresh id, with the instructions asked for and stamped with the submission time |
| `Backtest.Respond` | paperhands/backtest/engine.py:152-153 | the strategy's answer to a bar keeps the broker valid, leaves the ledger and fill queue alone, and only appends to the open list |
| `Backtest.RespondPlaces` | paperhands/backtest/engine.py:152-153 | the i-th order of the answer is placed after the orders already open |
| `Backtest.BarStepFillsFirst` | paperhands/backtest/engine.py:141-153 | within one bar, the broker acts first: the fills queued and booked are those of the orders open before the bar, and the strategy's orders come after the orders the bar left open |
| `Backtest.BarStepDecidesAfter` | paperhands/backtest/engine.py:141-153 | the strategy decides on the broker with the bar's fills already booked, and its i-th order is placed after the orders that bar left open, under a fresh id and stamped with the bar's time |
| `Backtest.BarCallsPairs` | paperhands/backtest/engine.py:141-153 | for each bar in dictionary order, the broker sees it immediately before the strategy |
| `Backtest.BarCallsQuiet` | paperhands/backtest/engine.py:141-153 | processing bars takes no equity sample and reports no fill |
| `Backtest.FillCalls` | paperhands/backtest/engine.py:156-158 | one `on_fill` call per drained event, in order |
| `Backtest.FillCallsReport` | paperhands/backtest/engine.py:155-158 | the reported fills are exactly the drained events |
| `Backtest.BarStep` | paperhands/backtest/engine.py:141-153 | one bar keeps the broker valid, takes no equity sample, and books exactly the fills it queues |
| `Backtest.RunBars` | paperhands/backtest/engine.py:141-153 | all bars of a timestamp keep the broker valid, take no equity sample, and book exactly the fills they queue |
| `Backtest.Marked` | paperhands/backtest/engine.py:136-138 | marking to market appends one equity sample at the timestamp and leaves the trade log and fill queue alone |
| `Backtest.RunTimestamp` | paperhands/backtest/engine.py:132-158 | one timestamp keeps the broker valid and ends with an empty fill queue |
| `Backtest.BlockShape` | paperhands/backtest/engine.py:132-158 | one timestamp's calls hold one equity mark and report exactly the drained fills |
| `Backtest.RunTimestampCalls` | paperhands/backtest/engine.py:132-158 | one timestamp extends the trace with callbacks other than start and stop, and marks exactly that timestamp |
| `Backtest.RunTimestampMarksFirst` | paperhands/backtest/engine.py:136-138 | a timestamp's equity sample is the portfolio value at its closes before any of its bars is processed |
| `Backtest.RunTimestampEquity` | paperhands/backtest/engine.py:136-138 | one timestamp appends exactly one equity sample, at that timestamp |
| `Backtest.RunTimestampRecords` | paperhands/backtest/engine.py:141-158 | after a timestamp, the trade log still records exactly the fills reported to the strategy |
| `Backtest.RunTimestampKeepsBooks` | paperhands/backtest/engine.py:132-158 | one timestamp keeps the ledger valid |
| `Backtest.RunBarsKeepsBooks` | paperhands/backtest/engine.py:141-153 | a timestamp's bars keep the ledger valid |
| `Backtest.RunTimes` | paperhands/backtest/engine.py:132-158 | the loop keeps the broker valid |
| `Backtest.RunTimesCalls` | paperhands/backtest/engine.py:132-158 | the loop extends the trace and marks exactly the visited timestamps, in order |
| `Backtest.RunTimesEquity` | paperhands/backtest/engine.py:136-138 | the loop's equity samples are at exactly the visited timestamps, in order |
| `Backtest.RunTimesRecords` | paperhands/backtest/engine.py:155-158 | after the loop, the fill queue is empty and the trade log records exactly the reported fills |
| `Backtest.RunTimesKeepsBooks` | paperhands/backtest/engine.py:132-158 | the loop keeps the ledger valid |
| `Backtest.Start` | paperhands/backtest/engine.py:63-69 | the run starts from a valid empty ledger and broker holding the initial cash, with `on_start` as its only call |
| `Backtest.Run` | paperhands/backtest/engine.py:106-161 | the run fails exactly when no bars were loaded |
| `Backtest.RunCallOrder` | paperhands/backtest/engine.py:122-161 | a successful run calls `on_start` first and `on_stop` last, each exactly once |
| `Backtest.RunMarks` | paperhands/backtest/engine.py:126-138 | the run marks to market exactly at the sorted loaded timestamps |
| `Backtest.RunVisitsTimes` | paperhands/backtest/engine.py:126-132 | timestamps are visited in strictly increasing order, and they are exactly the timestamps of some loaded bar |
| `Backtest.RunEquityCurve` | paperhands/backtest/engine.py:136-138 | the equity curve has one sample per visited timestamp, in visiting order |
| `Backtest.RunReportsFills` | paperhands/backtest/engine.py:155-158 | at the end the fill queue is empty, and the trade log records exactly the fills passed to `on_fill`, in order |
| `Backtest.RunKeepsBooks` | paperhands/backtest/engine.py:106-161 | a run leaves a valid ledger: no flat positions and the bookkeeping law intact |
| `Analytics.TotalReturn` | src/backtest/analytics.py:63-65 | on a ledger that keeps its books, the total return is the total P&L less commissions; 0 for an untouched ledger |
| `Analytics.TotalReturnPercent` | src/backtest/analytics.py:67-71 | 0 without initial cash, otherwise the total return as a percentage of it; positive exactly when the account gained |
| `Analytics.TotalTrades` | src/backtest/analytics.py:44 | counts the fills in the log; 0 exactly when none |
| `Analytics.Peak` | src/backtest/analytics.py:143-144 | the running maximum bounds every earlier sample and is one of them |
| `Analytics.DrawdownRange` | src/backtest/analytics.py:143-145 | with all samples positive, each drawdown lies in (−100, 0] |
| `Analytics.DrawdownValue` | src/backtest/analytics.py:143-144 | a sample's drawdown is a number exactly when its running maximum is not 0, −∞ exactly when that maximum is 0 and the sample is negative, and NaN otherwise |
| `Analytics.MaxDrawdown` | src/backtest/analytics.py:131-147 | 0 below two samples; otherwise −∞ exactly when some drawdown is −∞, NaN exactly when every drawdown is NaN, and else the smallest defined drawdown, one that occurs; a number in (−100, 0] when all samples are positive |
| `Analytics.PositiveDrawdown` | src/backtest/analytics.py:143-147 | on a positive equity curve the maximum drawdown is a number in (−100, 0] |
| `Analytics.ZeroPeakSkipped` | src/backtest/analytics.py:143-147 | on 0, 0, 5, 4 the NaN drawdowns are skipped and the result is −20 |
| `Analytics.ZeroPeakCrossed` | src/backtest/analytics.py:143-147 | on −5, 0, 3 the running maximum passes 0 and the result is 0 |
| `Analytics.ZeroPeakLoss` | src/backtest/analytics.py:143-147 | on 0, −1 the result is −∞ |
| `Analytics.ZeroPeakFlat` | src/backtest/analytics.py:143-147 | on 0, 0 every drawdown is NaN and so is the result |
| `Analytics.MaxDrawdownDuration` | src/backtest/analytics.py:149-179 | 0 below two samples; at most len − 1; at least every run of samples strictly below the running maximum, and equal to one such run |
| `Analytics.Replay1` | src/backtest/analytics.py:194-212 | one trade emits at most one P&L, and exactly one exactly when it is a sell of a symbol held long; a sell never changes the symbol's cost basis |
| `Analytics.Replay` | src/backtest/analytics.py:194-212 | replaying a log emits at most one P&L per sell; each trade's effect on the books is stated by `Analytics.BuyAverages` (every buy), `Analytics.SellLongStep` (a sell while long) and `Analytics.UnheldSellsIgnored` (a sell while flat or short), each of which leaves the other symbols' lots alone |
| `Analytics.TradePnls` | src/backtest/analytics.py:181-214 | never more P&Ls than sells; with `Analytics.ReplayAppend`, the per-trade lemmas give the P&Ls of any log, as `Analytics.PartialCloses` does for a long closed in two pieces |
| `Analytics.BuyAverages` | src/backtest/analytics.py:199-203 | any buy, also onto a lot an oversell left short, adds its size to the quantity; if shares remain, basis × absolute quantity grows by what the shares cost, and a lot that ends flat keeps its basis; nothing is emitted and other symbols are untouched |
| `Analytics.SellLongStep` | src/backtest/analytics.py:205-212 | a sell while long takes its shares off the quantity at an unchanged basis, emits (price − basis) × shares, and leaves other symbols' lots alone |
| `Analytics.PartialCloses` | src/backtest/analytics.py:194-212 | buying 10 at 5 and selling 4 at 6 then 6 at 7 yields the P&Ls 4 and 12 |
| `Analytics.ReplayAppend` | src/backtest/analytics.py:194-212 | replaying two logs one after the other is replaying their concatenation |
| `Analytics.PnlsPerSell` | src/backtest/analytics.py:205-210 | at most one P&L per sell |
| `Analytics.PnlsAtMostTrades` | src/backtest/analytics.py:181-214 | the number of P&Ls is at most the number of sells, which is at most `total_trades` |
| `Analytics.UnheldSellsIgnored` | src/backtest/analytics.py:205-206 | sells while flat or short emit nothing and leave every book unchanged |
| `Analytics.BuyStep` | src/backtest/analytics.py:199-203 | a buy on a flat or long book adds its shares and adds what they cost to the book's total cost, emits nothing, and leaves other symbols alone |
| `Analytics.BuysAverage` | src/backtest/analytics.py:199-203 | a run of buys leaves the book with their total shares at the weighted average of their prices |
| `Analytics.SellStep` | src/backtest/analytics.py:205-210 | a sell while long emits (price − cost basis) × quantity |
| `Analytics.RoundTripPnl` | src/backtest/analytics.py:181-214 | buys closed by one sell of all their shares give one P&L: the sale proceeds minus what the buys cost |
| `Analytics.Proceeds` | src/backtest/analytics.py:207-208 | selling the whole book realizes the proceeds minus the book's cost |
| `Analytics.Wins` | src/backtest/analytics.py:249 | the winning P&Ls are exactly the positive ones, each as often as it occurs among all P&Ls |
| `Analytics.Losses` | src/backtest/analytics.py:255 | the losing P&Ls are exactly the negative ones, each as often as it occurs among all P&Ls |
| `Analytics.AllWins` | src/backtest/analytics.py:222-224 | every P&L is a win exactly when the wins are all of them |
| `Analytics.Mean` | src/backtest/analytics.py:241-244 | the mean times the count is the sum, and it lies between the smallest and largest element |
| `Analytics.Percent` | src/backtest/analytics.py:222-224 | a share in percent lies in [0, 100], is 100 exactly for all and 0 exactly for none |
| `Analytics.WinRate` | src/backtest/analytics.py:216-224 | in [0, 100]; 0 with no P&Ls; the winners' share in percent; 100 exactly when every P&L won, 0 exactly when none did |
| `Analytics.GrossWins` | src/backtest/analytics.py:233 | non-negative, and positive exactly when some P&L won |
| `Analytics.GrossLosses` | src/backtest/analytics.py:234 | non-negative, and positive exactly when some P&L lost |
| `Analytics.GrossWinsSum` | src/backtest/analytics.py:233 | the gross win is the sum of the winning P&Ls |
| `Analytics.GrossLossesSum` | src/backtest/analytics.py:234 | the gross loss is the absolute value of the sum of the losing P&Ls |
| `Analytics.Ratio` | src/backtest/analytics.py:236-239 | infinite exactly when nothing was lost but something was won; 0 when nothing was either won or lost; otherwise a non-negative ratio that, times the losses, gives the wins |
| `Analytics.ProfitFactor` | src/backtest/analytics.py:226-239 | 0 with no P&Ls, and 0 when the P&Ls hold neither a win nor a loss; infinite exactly when there are no losses and some win; otherwise non-negative, and gross wins over gross losses when something was lost |
| `Analytics.ProfitFactorInfinite` | src/backtest/analytics.py:236-237 | the profit factor is infinite exactly when some trade won and none lost |
| `Analytics.AvgTradePnl` | src/backtest/analytics.py:241-244 | 0 with no P&Ls; otherwise the mean, between the worst and the best trade |
| `Analytics.AvgWin` | src/backtest/analytics.py:246-250 | the mean of the wins: added up once per win it gives their sum; non-negative, positive exactly when some trade won, and between the smallest and largest win |
| `Analytics.AvgLoss` | src/backtest/analytics.py:252-256 | the mean of the losses: added up once per loss it gives their sum; non-positive, negative exactly when some trade lost, and between the largest and smallest loss |
| `Analytics.LargestWin` | src/backtest/analytics.py:258-262 | the best winning P&L, at least every win and one of them; 0 exactly when nothing won |
| `Analytics.LargestLoss` | src/backtest/analytics.py:264-268 | the worst losing P&L, at most every loss and one of them; 0 exactly when nothing lost |
| `Analytics.LargestWinAboveAverage` | src/backtest/analytics.py:246-262 | the largest win is at least the average win |
| `Analytics.LargestLossBelowAverage` | src/backtest/analytics.py:252-268 | the largest loss is at most the average loss |
| `Analytics.CalculateMetrics` | src/backtest/analytics.py:26-52 | each metric is computed from the same ledger: total return and its percentage, fill count, the maximum drawdown and its duration as characterised above (0 below two samples, in range on a positive curve), and the P&L statistics all of one replay of the log; all trade statistics are 0 for an empty log |
| `Analytics.RunTradeCount` | src/backtest/analytics.py:44 | after a run, `total_trades` is the number of fills reported to the strategy |
| `Analytics.RunCurveLength` | src/backtest/analytics.py:54-61 | after a run, the equity curve the metrics read has one sample per visited timestamp |

## Left out

- The Sharpe and Sortino ratios (src/backtest/analytics.py:73-129) are not modelled: they need square roots and pandas' sample standard deviation.
- `generate_report`, `Portfolio.summary`, `print_summary`, `get_equity_curve`, `get_trades` and the tqdm progress bar are text formatting and DataFrame views, not logic.
- The data provider (`get_bars_multi`) is not part of this model. The bars each symbol returns are the input of `LoadData` and `Run`.
- `src/strategy/context.py`, `paperhands/strategy/base.py` and `paperhands/execution/broker.py` are not part of this model. A strategy is the `Strategy` datatype described above. It reads the broker's state directly, not through a context object.
- `uuid.uuid4()` and `datetime.now()` are replaced by a counter and a timestamp parameter.
- IEEE floating point is not modelled. Prices and cash are exact reals, so there is no rounding or overflow. `float('inf')` is the `Infinite` case of `Factor`, and the NaN and −∞ of a drawdown over a zero running maximum are the `NaN` and `NegInf` cases of `Float`.
- `Backtest.BarCallsPairs`: states only the order of the recorded calls (broker before strategy, bar by bar). What that order means for the state is stated separately by `Backtest.BarStepFillsFirst`, `Backtest.BarStepDecidesAfter` and `Backtest.RunTimestampMarksFirst`.
- Submitting the very same `Order` object twice is not modelled. The source would then share one mutable object between two ids. The model copies an order by value into each new id.
- `Asset`, its equality and hash, `Bar.volume`, `AssetType` and `TimeInForce` carry no behaviour and are declared only as data.
- Repeated calls of `run` on one engine are not modelled. Each `Run` starts from a fresh ledger and broker, as a newly constructed engine does.
- Orders of non-positive quantity are outside what the ledger's validity lemmas cover; those lemmas require `quantity > 0`. `Ledger.ProcessFill` itself accepts any quantity, as the source does.
- `Ledger.TotalPnl`: states the identity only on a ledger that keeps the bookkeeping law, because the sum is a free function of arbitrary records otherwise.
- `Analytics.RunCurveLength`: relates the curve to the visited timestamps only, not the equity values, which depend on the strategy's fills.
- The `side` strings of the trade log (`'buy'`, `'sell'`) are the `OrderSide` datatype.
- The list methods `remove` and `copy` are filters and plain values over immutable sequences.

=== FILE: analytics.dfy ===
/** Performance analytics over a finished ledger: total return, the
    drawdown of the equity curve, and the per-trade P&L statistics rebuilt
    from the trade log. Every metric is a pure function of the ledger's
    equity and trade histories. */
module Analytics {
  import opened Wrappers
  import opened Types
  import opened Ledger
  import opened Numeric
  import Execution
  import Backtest

  // ---------------------------------------------------------------------
  // Returns

  /** The dollar gain of the account over its life. */
  function TotalReturn(p: Portfolio): (r: real)
    ensures Books(p) ==> r == TotalPnl(p) - TotalCommission(p.tradeHistory)
    ensures p.tradeHistory == [] && p.positions == [] && p.realizedPnl == 0.0 && Books(p) ==> r == 0.0
  {
    PortfolioValue(p) - p.initialCash
  }

  /** The total return as a percentage of the initial cash; 0 without
      initial cash. */
  function TotalReturnPercent(p: Portfolio): (r: real)
    ensures p.initialCash == 0.0 ==> r == 0.0
    ensures p.initialCash != 0.0 ==> r * p.initialCash == TotalReturn(p) * 100.0
    ensures p.initialCash > 0.0 ==> (r > 0.0 <==> PortfolioValue(p) > p.initialCash)
  {
    if p.initialCash == 0.0 then 0.0 else (TotalReturn(p) / p.initialCash) * 100.0
  }

  /** `total_trades`: the number of fills in the log, not of round trips. */
  function TotalTrades(p: Portfolio): (r: nat)
    ensures r == 0 <==> p.tradeHistory == []
  {
    |p.tradeHistory|
  }

  // ---------------------------------------------------------------------
  // Drawdown

  /** The equity values of the curve, in time order. */
  function Equities(curve: seq<EquitySample>): (r: seq<real>)
    ensures |r| == |curve| && forall i :: 0 <= i < |r| ==> r[i] == curve[i].equity
  {
    seq(|curve|, i requires 0 <= i < |curve| => curve[i].equity)
  }

  /** The running maximum: the highest equity up to and including sample
      `i`. */
  function Peak(e: seq<real>, i: nat): (r: real)
    requires i < |e|
    ensures forall j :: 0 <= j <= i ==> e[j] <= r
    ensures exists j :: 0 <= j <= i && e[j] == r
  {
    if i == 0 then e[0] else Max(Peak(e, i - 1), e[i])
  }

  /** How far `x` lies below `peak`, in percent of `peak`. */
  function Drop(x: real, peak: real): real
    requires peak != 0.0
  {
    (x - peak) / peak * 100.0
  }

  /** The drawdown of sample `i` from the running maximum, in percent. */
  function DrawdownAt(e: seq<real>, i: nat): real
    requires i < |e| && Peak(e, i) != 0.0
  {
    Drop(e[i], Peak(e, i))
  }

  /** On a curve of positive equities every drawdown lies in (-100, 0]. */
  lemma DrawdownRange(e: seq<real>, i: nat)
    requires i < |e| && forall j :: 0 <= j < |e| ==> e[j] > 0.0
    ensures Peak(e, i) > 0.0
    ensures -100.0 < DrawdownAt(e, i) <= 0.0
  {
    var pk := Peak(e, i);
    assert e[i] > 0.0 && e[i] <= pk;
    DivBounds(e[i] - pk, pk, -1.0, 0.0);
    DivAbove(e[i] - pk, pk, -1.0);
  }

  /** A float as pandas computes it here: a number, minus infinity or NaN. */
  datatype Float = Num(value: real) | NegInf | NaN

  /** The drawdown of sample `i` in float arithmetic. Against a running
      maximum of 0 the division gives minus infinity for a sample below 0
      and NaN for a sample at 0 (the sample never exceeds its running
      maximum). */
  function DrawdownValue(e: seq<real>, i: nat): (r: Float)
    requires i < |e|
    ensures r.Num? <==> Peak(e, i) != 0.0
    ensures r == NegInf <==> Peak(e, i) == 0.0 && e[i] < 0.0
    ensures r.Num? ==> r.value == DrawdownAt(e, i)
  {
    if Peak(e, i) != 0.0 then Num(DrawdownAt(e, i))
    else if e[i] < 0.0 then NegInf
    else NaN
  }

  /** The drawdowns of every sample, in float arithmetic. */
  function Drawdowns(e: seq<real>): (r: seq<Float>)
    ensures |r| == |e| && forall i :: 0 <= i < |e| ==> r[i] == DrawdownValue(e, i)
  {
    seq(|e|, i requires 0 <= i < |e| => DrawdownValue(e, i))
  }

  /** `r` is pandas' `min` of `ds`, which skips NaN: any minus infinity
      wins, NaN is left only when every value is NaN, and otherwise it is
      the least of the numbers. */
  ghost predicate IsNanMin(ds: seq<Float>, r: Float) {
    && (r == NegInf <==> exists i :: 0 <= i < |ds| && ds[i] == NegInf)
    && (r == NaN <==> forall i :: 0 <= i < |ds| ==> ds[i] == NaN)
    && (r.Num? ==> forall i :: 0 <= i < |ds| && ds[i].Num? ==> r.value <= ds[i].value)
    && (r.Num? ==> exists i :: 0 <= i < |ds| && ds[i] == r)
  }

  /** `r` is what `_calculate_max_drawdown` returns for the curve `e`: 0 for
      fewer than two samples, otherwise the minimum of the drawdowns with
      NaN skipped. */
  ghost predicate IsMaxDrawdown(e: seq<real>, r: Float) {
    && (|e| < 2 ==> r == Num(0.0))
    && (|e| >= 2 ==> IsNanMin(Drawdowns(e), r))
  }

  /** What a scan has seen of the first `n` values: whether one was minus
      infinity, and the least number when there was one. */
  ghost predicate Scanned(ds: seq<Float>, n: nat, negInf: bool, least: Option<real>)
    requires n <= |ds|
  {
    && (negInf <==> exists j :: 0 <= j < n && ds[j] == NegInf)
    && (least.None? <==> forall j :: 0 <= j < n ==> !ds[j].Num?)
    && (least.Some? ==> forall j :: 0 <= j < n && ds[j].Num? ==> least.value <= ds[j].value)
    && (least.Some? ==> exists j :: 0 <= j < n && ds[j] == Num(least.value))
  }

  /** Folds one value into the scan: minus infinity is remembered, a number
      lowers the least one, NaN is skipped. */
  function Absorb(d: Float, negInf: bool, least: Option<real>): (bool, Option<real>) {
    match d
    case NegInf => (true, least)
    case NaN => (negInf, least)
    case Num(v) => (negInf, if least.None? || v < least.value then Some(v) else least)
  }

  lemma ScannedStep(ds: seq<Float>, n: nat, negInf: bool, least: Option<real>)
    requires n < |ds| && Scanned(ds, n, negInf, least)
    ensures var (negInf', least') := Absorb(ds[n], negInf, least);
      Scanned(ds, n + 1, negInf', least')
  {
  }

  /** The outcome of a whole scan. */
  function Outcome(negInf: bool, least: Option<real>): Float {
    if negInf then NegInf else if least.None? then NaN else Num(least.value)
  }

  lemma ScannedOutcome(ds: seq<Float>, negInf: bool, least: Option<real>)
    requires Scanned(ds, |ds|, negInf, least)
    ensures IsNanMin(ds, Outcome(negInf, least))
  {
  }

  /** `_calculate_max_drawdown`: the deepest drawdown of the curve, scanning
      it with a running maximum; on a curve of positive equities it is a
      finite percentage in (-100, 0]. */
  method MaxDrawdown(e: seq<real>) returns (r: Float)
    ensures IsMaxDrawdown(e, r)
    ensures (forall i :: 0 <= i < |e| ==> e[i] > 0.0) ==> r.Num? && -100.0 < r.value <= 0.0
  {
    if |e| < 2 {
      return Num(0.0);
    }
    ghost var ds := Drawdowns(e);
    var peak := e[0];
    var negInf := false;
    var least: Option<real> := None;
    var i := 0;
    while i < |e|
      invariant 0 <= i <= |e|
      invariant i > 0 ==> peak == Peak(e, i - 1)
      invariant Scanned(ds, i, negInf, least)
    {
      peak := if i == 0 then e[0] else Max(peak, e[i]);
      assert peak == Peak(e, i);
      var d: Float := if peak != 0.0 then Num(Drop(e[i], peak)) else if e[i] < 0.0 then NegInf else NaN;
      assert d == ds[i];
      ScannedStep(ds, i, negInf, least);
      negInf, least := Absorb(d, negInf, least).0, Absorb(d, negInf, least).1;
      i := i + 1;
    }
    r := Outcome(negInf, least);
    ScannedOutcome(ds, negInf, least);
    if forall j :: 0 <= j < |e| ==> e[j] > 0.0 {
      PositiveDrawdown(e, r);
    }
  }

  /** On a curve of positive equities the maximum drawdown is finite and
      lies in (-100, 0]. */
  lemma PositiveDrawdown(e: seq<real>, r: Float)
    requires IsMaxDrawdown(e, r) && forall j :: 0 <= j < |e| ==> e[j] > 0.0
    ensures r.Num? && -100.0 < r.value <= 0.0
  {
    if |e| >= 2 {
      var ds := Drawdowns(e);
      DrawdownRange(e, 0);
      assert ds[0].Num?;
      var j :| 0 <= j < |e| && ds[j] == r;
      DrawdownRange(e, j);
    }
  }

  /** A running maximum of 0 makes the drawdowns at it NaN, which the
      minimum skips: the finite drawdowns after the curve rises still count. */
  lemma ZeroPeakSkipped()
    ensures IsMaxDrawdown([0.0, 0.0, 5.0, 4.0], Num(-20.0))
  {
    var a := [0.0, 0.0, 5.0, 4.0];
    assert Peak(a, 1) == 0.0 && Peak(a, 2) == 5.0 && Peak(a, 3) == 5.0;
    assert Drawdowns(a) == [NaN, NaN, Num(0.0), Num(-20.0)];
    assert Drawdowns(a)[3] != NaN;
  }

  /** A negative start whose running maximum passes through 0 still has a
      finite maximum drawdown. */
  lemma ZeroPeakCrossed()
    ensures IsMaxDrawdown([-5.0, 0.0, 3.0], Num(0.0))
  {
    var b := [-5.0, 0.0, 3.0];
    assert Peak(b, 1) == 0.0 && Peak(b, 2) == 3.0;
    assert Drawdowns(b) == [Num(0.0), NaN, Num(0.0)];
    assert Drawdowns(b)[0] != NaN;
  }

  /** A loss against a running maximum of 0 is minus infinity. */
  lemma ZeroPeakLoss()
    ensures IsMaxDrawdown([0.0, -1.0], NegInf)
  {
    var c := [0.0, -1.0];
    assert Peak(c, 1) == 0.0;
    assert Drawdowns(c) == [NaN, NegInf];
    assert Drawdowns(c)[1] == NegInf;
  }

  /** A curve flat at 0 has only NaN drawdowns, and so a NaN maximum. */
  lemma ZeroPeakFlat()
    ensures IsMaxDrawdown([0.0, 0.0], NaN)
  {
    var d := [0.0, 0.0];
    assert Peak(d, 1) == 0.0;
    assert Drawdowns(d) == [NaN, NaN];
  }

  /** Sample `i` lies strictly below the running maximum. */
  predicate Underwater(e: seq<real>, i: nat)
    requires i < |e|
  {
    e[i] < Peak(e, i)
  }

  /** Samples `lo` up to `hi` (exclusive) are all under water. */
  ghost predicate UnderwaterRun(e: seq<real>, lo: nat, hi: nat) {
    lo <= hi <= |e| && forall k :: lo <= k < hi ==> Underwater(e, k)
  }

  /** A run under water of length `n` starting at `lo`. */
  ghost predicate UnderwaterFor(e: seq<real>, lo: nat, n: nat) {
    UnderwaterRun(e, lo, lo + n)
  }

  /** The first sample is its own running maximum, so no run under water
      starts there. */
  lemma RunStartsLate(e: seq<real>, lo: nat, hi: nat)
    requires UnderwaterRun(e, lo, hi) && lo < hi
    ensures 1 <= lo
  {
    assert Underwater(e, lo);
  }

  /** `r` is the length of the longest run of consecutive samples under
      water, and 0 for fewer than two samples. */
  ghost predicate IsMaxDrawdownDuration(e: seq<real>, r: nat) {
    && (|e| < 2 ==> r == 0)
    && (forall lo: nat, hi: nat :: UnderwaterRun(e, lo, hi) ==> hi - lo <= r)
    && (r > 0 ==> exists lo: nat :: UnderwaterFor(e, lo, r))
  }

  /** `_calculate_max_drawdown_duration`: the longest run under water, which
      leaves out at least the first sample. */
  method MaxDrawdownDuration(e: seq<real>) returns (r: nat)
    ensures IsMaxDrawdownDuration(e, r)
    ensures |e| >= 2 ==> r <= |e| - 1
  {
    if |e| < 2 {
      forall lo: nat, hi: nat | UnderwaterRun(e, lo, hi)
        ensures hi - lo <= 0
      {
        if lo < hi {
          RunStartsLate(e, lo, hi);
        }
      }
      return 0;
    }
    var best := 0;
    var current := 0;
    ghost var start: nat := 0;
    var i := 0;
    while i < |e|
      invariant 0 <= i <= |e|
      invariant current <= best <= i
      invariant UnderwaterRun(e, i - current, i)
      invariant forall lo: nat :: UnderwaterRun(e, lo, i) ==> i - lo <= current
      invariant forall lo: nat, hi: nat :: hi <= i && UnderwaterRun(e, lo, hi) ==> hi - lo <= best
      invariant best > 0 ==> UnderwaterFor(e, start, best)
    {
      var next := i + 1;
      if Underwater(e, i) {
        current := current + 1;
        assert UnderwaterRun(e, next - current, next);
        if best < current {
          best := current;
          start := next - current;
        }
        forall lo: nat | UnderwaterRun(e, lo, next)
          ensures next - lo <= current
        {
          if lo <= i {
            assert UnderwaterRun(e, lo, i);
          }
        }
      } else {
        current := 0;
        assert forall lo: nat :: UnderwaterRun(e, lo, next) ==> next - lo <= 0;
      }
      forall lo: nat, hi: nat | hi <= next && UnderwaterRun(e, lo, hi)
        ensures hi - lo <= best
      {
        if hi <= i {
        }
      }
      i := next;
    }
    if best > 0 {
      RunStartsLate(e, start, start + best);
    }
    return best;
  }

  // ---------------------------------------------------------------------
  // Round-trip P&L

  /** The running long book of one symbol while the log is replayed. */
  datatype Lot = Lot(quantity: int, costBasis: real)

  /** What the shares of a lot cost in total at its basis. */
  function Held(lot: Lot): real {
    lot.quantity as real * lot.costBasis
  }

  function LotOf(lots: map<Symbol, Lot>, symbol: Symbol): Lot {
    if symbol in lots then lots[symbol] else Lot(0, 0.0)
  }

  /** What a sale gains over the cost basis of the shares it sells. */
  function Realized(t: TradeRecord, basis: real): real {
    (t.price - basis) * t.quantity as real
  }

  /** One trade of the replay: a buy averages its price into the cost basis;
      a sell while the symbol is held long closes at the cost basis and emits
      one P&L; a sell while flat or short is ignored. */
  function Replay1(lots: map<Symbol, Lot>, t: TradeRecord): (r: (map<Symbol, Lot>, seq<real>))
    ensures |r.1| <= 1
    ensures |r.1| == 1 <==> t.side == Sell && LotOf(lots, t.symbol).quantity > 0
    ensures t.side == Sell ==> LotOf(r.0, t.symbol).costBasis == LotOf(lots, t.symbol).costBasis
  {
    var lot := LotOf(lots, t.symbol);
    if t.side == Buy then
      var total := lot.costBasis * Abs(lot.quantity) as real + t.price * t.quantity as real;
      var quantity := lot.quantity + t.quantity;
      var basis := if quantity != 0 then total / Abs(quantity) as real else lot.costBasis;
      (lots[t.symbol := Lot(quantity, basis)], [])
    else if lot.quantity > 0 then
      assert t.side == Sell;
      (lots[t.symbol := Lot(lot.quantity - t.quantity, lot.costBasis)],
       [Realized(t, lot.costBasis)])
    else
      (lots[t.symbol := lot], [])
  }

  /** Replays a trade log from the given books: the final books and the
      P&Ls emitted, in log order. */
  function Replay(lots: map<Symbol, Lot>, trades: seq<TradeRecord>): (r: (map<Symbol, Lot>, seq<real>))
    ensures |r.1| <= Sells(trades)
    decreases |trades|
  {
    if trades == [] then (lots, [])
    else
      var step := Replay1(lots, trades[0]);
      var rest := Replay(step.0, trades[1..]);
      (rest.0, step.1 + rest.1)
  }

  /** `_get_trade_pnls`: the P&Ls of the trade log replayed from empty
      books. */
  function TradePnls(trades: seq<TradeRecord>): (r: seq<real>)
    ensures |r| <= Sells(trades)
  {
    Replay(map[], trades).1
  }

  function Sells(trades: seq<TradeRecord>): (r: nat)
    ensures r <= |trades|
  {
    if trades == [] then 0 else (if trades[0].side == Sell then 1 else 0) + Sells(trades[1..])
  }

  /** Replaying one log after another is replaying their concatenation. */
  lemma {:induction false} ReplayAppend(lots: map<Symbol, Lot>, a: seq<TradeRecord>, b: seq<TradeRecord>)
    ensures Replay(lots, a + b).0 == Replay(Replay(lots, a).0, b).0
    ensures Replay(lots, a + b).1 == Replay(lots, a).1 + Replay(Replay(lots, a).0, b).1
    decreases |a|
  {
    if a == [] {
      assert a + b == b;
    } else {
      var step := Replay1(lots, a[0]);
      var rest := Replay(step.0, a[1..]);
      assert (a + b)[0] == a[0] && (a + b)[1..] == a[1..] + b;
      assert Replay(lots, a) == (rest.0, step.1 + rest.1);
      ReplayAppend(step.0, a[1..], b);
      Backtest.Associative(step.1, rest.1, Replay(rest.0, b).1);
    }
  }

  /** At most one P&L per sell, so never more P&Ls than trades. */
  lemma {:induction false} PnlsPerSell(lots: map<Symbol, Lot>, trades: seq<TradeRecord>)
    ensures |Replay(lots, trades).1| <= Sells(trades)
    decreases |trades|
  {
    if trades != [] {
      PnlsPerSell(Replay1(lots, trades[0]).0, trades[1..]);
    }
  }

  lemma PnlsAtMostTrades(p: Portfolio)
    ensures |TradePnls(p.tradeHistory)| <= Sells(p.tradeHistory) <= TotalTrades(p)
  {
    PnlsPerSell(map[], p.tradeHistory);
  }

  /** Sells of a symbol that is not held long emit nothing and leave its
      quantity as it was. */
  lemma {:induction false} UnheldSellsIgnored(lots: map<Symbol, Lot>, trades: seq<TradeRecord>)
    requires forall t :: t in trades ==> t.side == Sell && LotOf(lots, t.symbol).quantity <= 0
    ensures Replay(lots, trades).1 == []
    ensures forall s :: LotOf(Replay(lots, trades).0, s) == LotOf(lots, s)
    decreases |trades|
  {
    if trades != [] {
      var next := Replay1(lots, trades[0]).0;
      assert forall s :: LotOf(next, s) == LotOf(lots, s);
      assert forall t :: t in trades[1..] ==> t in trades;
      UnheldSellsIgnored(next, trades[1..]);
    }
  }

  function Shares(trades: seq<TradeRecord>): int {
    if trades == [] then 0 else trades[0].quantity + Shares(trades[1..])
  }

  /** What one trade's shares cost at its fill price. */
  function Paid(t: TradeRecord): real {
    t.price * t.quantity as real
  }

  function Cost(trades: seq<TradeRecord>): real {
    if trades == [] then 0.0 else Paid(trades[0]) + Cost(trades[1..])
  }

  /** One buy of a flat or long lot in a positive size: the quantity grows
      by the size, and quantity times cost basis by what the shares cost. */
  lemma BuyStep(lots: map<Symbol, Lot>, t: TradeRecord)
    requires t.side == Buy && t.quantity > 0 && LotOf(lots, t.symbol).quantity >= 0
    ensures var before := LotOf(lots, t.symbol);
      var after := LotOf(Replay1(lots, t).0, t.symbol);
      && after.quantity == before.quantity + t.quantity
      && Held(after) == Held(before) + Paid(t)
    ensures Replay1(lots, t).1 == []
    ensures forall s :: s != t.symbol ==> LotOf(Replay1(lots, t).0, s) == LotOf(lots, s)
  {
    var before := LotOf(lots, t.symbol);
    var total := before.costBasis * Abs(before.quantity) as real + t.price * t.quantity as real;
    var quantity := before.quantity + t.quantity;
    assert Abs(quantity) as real == quantity as real > 0.0;
    assert total / quantity as real * quantity as real == total;
  }

  /** Any buy, including one onto a lot an oversell left short: the
      quantity grows by the size; if shares remain, the basis times their
      absolute number is the old basis times the old absolute number plus
      what the new shares cost; if the lot ends flat, the basis is kept.
      Nothing is emitted and every other symbol's lot is left alone. */
  lemma BuyAverages(lots: map<Symbol, Lot>, t: TradeRecord)
    requires t.side == Buy
    ensures var before := LotOf(lots, t.symbol);
      var after := LotOf(Replay1(lots, t).0, t.symbol);
      && after.quantity == before.quantity + t.quantity
      && (after.quantity != 0 ==>
            after.costBasis * Abs(after.quantity) as real == before.costBasis * Abs(before.quantity) as real + Paid(t))
      && (after.quantity == 0 ==> after.costBasis == before.costBasis)
    ensures Replay1(lots, t).1 == []
    ensures forall s :: s != t.symbol ==> LotOf(Replay1(lots, t).0, s) == LotOf(lots, s)
  {
    var before := LotOf(lots, t.symbol);
    var total := before.costBasis * Abs(before.quantity) as real + t.price * t.quantity as real;
    var quantity := before.quantity + t.quantity;
    if quantity != 0 {
      assert Abs(quantity) as real != 0.0;
      assert total / Abs(quantity) as real * Abs(quantity) as real == total;
    }
  }

  /** Buying `symbol` in positive sizes from a flat or long lot: the
      quantity grows by the shares bought, and quantity times cost basis
      grows by what they cost, so the basis is the volume-weighted average
      price paid. */
  lemma {:induction false} BuysAverage(lots: map<Symbol, Lot>, trades: seq<TradeRecord>, symbol: Symbol)
    requires LotOf(lots, symbol).quantity >= 0
    requires forall t :: t in trades ==> t.side == Buy && t.symbol == symbol && t.quantity > 0
    ensures var before := LotOf(lots, symbol);
      var after := LotOf(Replay(lots, trades).0, symbol);
      && after.quantity == before.quantity + Shares(trades)
      && Held(after) == Held(before) + Cost(trades)
    ensures Replay(lots, trades).1 == []
    decreases |trades|
  {
    if trades != [] {
      var t := trades[0];
      assert t in trades;
      var next := Replay1(lots, t).0;
      BuyStep(lots, t);
      assert forall u :: u in trades[1..] ==> u in trades;
      BuysAverage(next, trades[1..], symbol);
      var before := LotOf(lots, symbol);
      var mid := LotOf(next, symbol);
      var after := LotOf(Replay(next, trades[1..]).0, symbol);
      assert Replay(lots, trades).0 == Replay(next, trades[1..]).0;
      assert Cost(trades) == Paid(t) + Cost(trades[1..]);
      SumChain(Held(before), Held(mid), Held(after), Paid(t), Cost(trades[1..]));
      assert LotOf(Replay(lots, trades).0, symbol) == after;
    } else {
      assert Replay(lots, trades) == (lots, []);
      assert Cost(trades) == 0.0 && Shares(trades) == 0;
    }
  }

  lemma SumChain(start: real, mid: real, end: real, step: real, rest: real)
    requires mid == start + step && end == mid + rest
    ensures end == start + (step + rest)
  {
  }

  /** A sell of a lot held long emits one P&L: the sale price minus the
      cost basis, times the shares sold. */
  lemma SellStep(lots: map<Symbol, Lot>, t: TradeRecord)
    requires t.side == Sell && LotOf(lots, t.symbol).quantity > 0
    ensures Replay(lots, [t]).1 == [Realized(t, LotOf(lots, t.symbol).costBasis)]
  {
    assert [t][1..] == [];
    var step := Replay1(lots, t);
    var gain := Realized(t, LotOf(lots, t.symbol).costBasis);
    assert |step.1| == 1 && step.1[0] == gain;
    assert step.1 == [gain];
    assert Replay(lots, [t]).1 == step.1 + Replay(step.0, []).1;
    assert step.1 + [] == step.1;
  }

  /** A sell of a lot held long takes the shares sold off its quantity
      (an oversell leaves it short) at an unchanged cost basis, emits the
      P&L of those shares, and leaves every other symbol's lot alone. */
  lemma SellLongStep(lots: map<Symbol, Lot>, t: TradeRecord)
    requires t.side == Sell && LotOf(lots, t.symbol).quantity > 0
    ensures var before := LotOf(lots, t.symbol);
      LotOf(Replay1(lots, t).0, t.symbol) == Lot(before.quantity - t.quantity, before.costBasis)
    ensures Replay1(lots, t).1 == [Realized(t, LotOf(lots, t.symbol).costBasis)]
    ensures forall s :: s != t.symbol ==> LotOf(Replay1(lots, t).0, s) == LotOf(lots, s)
  {
  }

  /** Closing a long lot in two pieces: buying 10 at 5, then selling 4 at 6
      and 6 at 7, realizes 4 and then 12, both at the basis of 5. */
  lemma PartialCloses(symbol: Symbol)
    ensures var buy := TradeRecord(None, symbol, Buy, 10, 5.0, 0.0, 0.0, 0.0);
      var first := TradeRecord(None, symbol, Sell, 4, 6.0, 0.0, 0.0, 0.0);
      var second := TradeRecord(None, symbol, Sell, 6, 7.0, 0.0, 0.0, 0.0);
      TradePnls([buy, first, second]) == [4.0, 12.0]
  {
    var buy := TradeRecord(None, symbol, Buy, 10, 5.0, 0.0, 0.0, 0.0);
    var first := TradeRecord(None, symbol, Sell, 4, 6.0, 0.0, 0.0, 0.0);
    var second := TradeRecord(None, symbol, Sell, 6, 7.0, 0.0, 0.0, 0.0);
    var lots0: map<Symbol, Lot> := map[];
    BuyAverages(lots0, buy);
    var lots1 := Replay1(lots0, buy).0;
    assert LotOf(lots1, symbol) == Lot(10, 5.0);
    SellLongStep(lots1, first);
    var lots2 := Replay1(lots1, first).0;
    assert LotOf(lots2, symbol) == Lot(6, 5.0);
    SellLongStep(lots2, second);
    ReplayAppend(lots0, [buy], [first, second]);
    ReplayAppend(lots1, [first], [second]);
    assert [buy] + [first, second] == [buy, first, second];
    assert [first] + [second] == [first, second];
    assert Replay(lots0, [buy]) == (lots1, []);
    assert Realized(first, 5.0) == 4.0 && Realized(second, 5.0) == 12.0;
    assert [first][1..] == [] && [second][1..] == [];
    assert Replay(lots1, [first]) == (lots2, [4.0] + []);
    assert Replay(lots2, [second]).1 == [12.0] + [];
  }

  /** A round trip: buying a symbol in several lots from an empty log and
      then selling the whole position yields one P&L, the sale proceeds
      minus what the shares cost. */
  lemma RoundTripPnl(buys: seq<TradeRecord>, sell: TradeRecord)
    requires buys != []
    requires forall t :: t in buys ==> t.side == Buy && t.symbol == sell.symbol && t.quantity > 0
    requires sell.side == Sell && sell.quantity == Shares(buys)
    ensures TradePnls(buys + [sell]) == [Paid(sell) - Cost(buys)]
  {
    var lots: map<Symbol, Lot> := map[];
    BuysAverage(lots, buys, sell.symbol);
    PositiveShares(buys);
    ReplayAppend(lots, buys, [sell]);
    var after := Replay(lots, buys).0;
    SellStep(after, sell);
    var held := LotOf(after, sell.symbol);
    assert held.quantity == sell.quantity && Held(held) == Cost(buys);
    Proceeds(sell, held);
    var gain := Realized(sell, held.costBasis);
    assert gain == Paid(sell) - Cost(buys);
    assert Replay(after, [sell]).1 == [gain];
    assert Replay(lots, buys).1 == [];
    assert TradePnls(buys + [sell]) == [] + [gain];
  }

  /** Selling a whole lot at `price` gains the proceeds minus its cost. */
  lemma Proceeds(t: TradeRecord, lot: Lot)
    requires t.quantity == lot.quantity
    ensures Realized(t, lot.costBasis) == Paid(t) - Held(lot)
  {
  }

  lemma {:induction false} PositiveShares(trades: seq<TradeRecord>)
    requires trades != [] && forall t :: t in trades ==> t.quantity > 0
    ensures Shares(trades) > 0
  {
    if |trades| > 1 {
      assert forall t :: t in trades[1..] ==> t in trades;
      PositiveShares(trades[1..]);
    } else {
      assert trades[0] in trades;
      assert trades[1..] == [];
    }
  }

  // ---------------------------------------------------------------------
  // P&L statistics

  /** A quotient by a positive number lies between the bounds that the
      dividend does, scaled. */
  lemma DivBounds(a: real, n: real, lo: real, hi: real)
    requires n > 0.0 && n * lo <= a <= n * hi
    ensures lo <= a / n <= hi
  {
    var q := a / n;
    assert q * n == a;
    assert (hi - q) * n == n * hi - a;
    assert (q - lo) * n == a - n * lo;
  }

  /** Strictly above the scaled bound, strictly above the bound. */
  lemma DivAbove(a: real, n: real, lo: real)
    requires n > 0.0 && a > n * lo
    ensures a / n > lo
  {
    var q := a / n;
    assert q * n == a;
    assert (q - lo) * n == a - n * lo;
  }

  function Sum(s: seq<real>): real {
    if s == [] then 0.0 else s[0] + Sum(s[1..])
  }

  /** The winning P&Ls, in order. */
  function Wins(s: seq<real>): (r: seq<real>)
    ensures |r| <= |s|
    ensures forall x :: x in r <==> x in s && x > 0.0
    ensures forall x :: multiset(r)[x] == if x > 0.0 then multiset(s)[x] else 0
  {
    if s == [] then []
    else
      assert forall x :: x in s ==> x == s[0] || x in s[1..];
      assert s == [s[0]] + s[1..];
      if s[0] > 0.0 then [s[0]] + Wins(s[1..]) else Wins(s[1..])
  }

  /** Every P&L is a win exactly when the wins are all of them. */
  lemma {:induction false} AllWins(s: seq<real>)
    ensures |Wins(s)| == |s| <==> forall x :: x in s ==> x > 0.0
  {
    if s != [] {
      AllWins(s[1..]);
      assert s[0] in s;
      assert forall x :: x in s ==> x == s[0] || x in s[1..];
      assert forall x :: x in s[1..] ==> x in s;
    }
  }

  /** The losing P&Ls, in order. */
  function Losses(s: seq<real>): (r: seq<real>)
    ensures |r| <= |s|
    ensures forall x :: x in r <==> x in s && x < 0.0
    ensures forall x :: multiset(r)[x] == if x < 0.0 then multiset(s)[x] else 0
  {
    if s == [] then []
    else
      assert forall x :: x in s ==> x == s[0] || x in s[1..];
      assert s == [s[0]] + s[1..];
      if s[0] < 0.0 then [s[0]] + Losses(s[1..]) else Losses(s[1..])
  }

  /** `k` copies of `m` added up: `k·m` without a product. */
  function Times(k: nat, m: real): real {
    if k == 0 then 0.0 else m + Times(k - 1, m)
  }

  lemma {:induction false} TimesIsProduct(k: nat, m: real)
    ensures Times(k, m) == k as real * m
  {
    if k > 0 {
      TimesIsProduct(k - 1, m);
    }
  }

  /** Every element at most `m` bounds the sum by `|s|·m`. */
  lemma {:induction false} SumAtMost(s: seq<real>, m: real)
    requires forall x :: x in s ==> x <= m
    ensures Sum(s) <= Times(|s|, m)
  {
    if s != [] {
      assert s[0] in s;
      assert forall x :: x in s[1..] ==> x in s;
      SumAtMost(s[1..], m);
    }
  }

  /** Every element at least `m` bounds the sum below by `|s|·m`. */
  lemma {:induction false} SumAtLeast(s: seq<real>, m: real)
    requires forall x :: x in s ==> x >= m
    ensures Sum(s) >= Times(|s|, m)
  {
    if s != [] {
      assert s[0] in s;
      assert forall x :: x in s[1..] ==> x in s;
      SumAtLeast(s[1..], m);
    }
  }

  /** The largest element of a non-empty list. */
  function Largest(s: seq<real>): (r: real)
    requires s != []
    ensures r in s && forall x :: x in s ==> x <= r
  {
    if |s| == 1 then s[0]
    else
      assert forall x :: x in s ==> x == s[0] || x in s[1..];
      Max(s[0], Largest(s[1..]))
  }

  /** The smallest element of a non-empty list. */
  function Smallest(s: seq<real>): (r: real)
    requires s != []
    ensures r in s && forall x :: x in s ==> r <= x
  {
    if |s| == 1 then s[0]
    else
      assert forall x :: x in s ==> x == s[0] || x in s[1..];
      Min(s[0], Smallest(s[1..]))
  }

  /** The mean of a non-empty list: it added up `|s|` times gives the sum,
      and it lies between the extremes. */
  function Mean(s: seq<real>): (r: real)
    requires s != []
    ensures Times(|s|, r) == Sum(s)
    ensures Smallest(s) <= r <= Largest(s)
  {
    MeanBetween(s);
    Sum(s) / |s| as real
  }

  lemma MeanBetween(s: seq<real>)
    requires s != []
    ensures Smallest(s) <= Sum(s) / |s| as real <= Largest(s)
    ensures Times(|s|, Sum(s) / |s| as real) == Sum(s)
  {
    SumAtLeast(s, Smallest(s));
    SumAtMost(s, Largest(s));
    MeanOf(Sum(s), |s|, Smallest(s), Largest(s));
  }

  lemma MeanOf(sum: real, k: nat, lo: real, hi: real)
    requires k >= 1 && Times(k, lo) <= sum <= Times(k, hi)
    ensures lo <= sum / k as real <= hi
    ensures Times(k, sum / k as real) == sum
  {
    TimesIsProduct(k, sum / k as real);
    TimesIsProduct(k, lo);
    TimesIsProduct(k, hi);
    DivBounds(sum, k as real, lo, hi);
  }

  /** `w` of `n` as a percentage. */
  function Percent(w: nat, n: nat): (r: real)
    requires w <= n && n > 0
    ensures 0.0 <= r <= 100.0
    ensures Times(n, r) == w as real * 100.0
    ensures r == 100.0 <==> w == n
    ensures r == 0.0 <==> w == 0
  {
    PercentOf(w, n);
    w as real / n as real * 100.0
  }

  lemma PercentOf(w: nat, n: nat)
    requires w <= n && n > 0
    ensures var r := w as real / n as real * 100.0;
      && 0.0 <= r <= 100.0 && Times(n, r) == w as real * 100.0
      && (r == 100.0 <==> w == n) && (r == 0.0 <==> w == 0)
  {
    var q := w as real / n as real;
    DivBounds(w as real, n as real, 0.0, 1.0);
    assert q * n as real == w as real;
    TimesIsProduct(n, q * 100.0);
  }

  /** `_calculate_win_rate`: the percentage of P&Ls that are wins; 0 with no
      P&Ls. */
  function WinRate(pnls: seq<real>): (r: real)
    ensures 0.0 <= r <= 100.0
    ensures pnls == [] ==> r == 0.0
    ensures pnls != [] ==> Times(|pnls|, r) == |Wins(pnls)| as real * 100.0
    ensures pnls != [] ==> (r == 100.0 <==> forall x :: x in pnls ==> x > 0.0)
    ensures r == 0.0 <==> forall x :: x in pnls ==> x <= 0.0
  {
    if pnls == [] then 0.0
    else
      var wins := Wins(pnls);
      AllWins(pnls);
      assert wins != [] ==> wins[0] in wins;
      Percent(|wins|, |pnls|)
  }

  /** A profit factor: a ratio, or infinite when there are wins but no
      losses. */
  datatype Factor = Finite(value: real) | Infinite

  /** The sum of the winning P&Ls: positive exactly when some P&L won. */
  function GrossWins(s: seq<real>): (r: real)
    ensures r >= 0.0
    ensures r > 0.0 <==> exists x :: x in s && x > 0.0
  {
    if s == [] then 0.0
    else
      var rest := GrossWins(s[1..]);
      assert forall x :: x in s <==> x == s[0] || x in s[1..];
      assert s[0] in s;
      (if s[0] > 0.0 then s[0] else 0.0) + rest
  }

  /** The size of the summed losing P&Ls (the absolute value of their
      sum): positive exactly when some P&L lost. */
  function GrossLosses(s: seq<real>): (r: real)
    ensures r >= 0.0
    ensures r > 0.0 <==> exists x :: x in s && x < 0.0
  {
    if s == [] then 0.0
    else
      var rest := GrossLosses(s[1..]);
      assert forall x :: x in s <==> x == s[0] || x in s[1..];
      assert s[0] in s;
      (if s[0] < 0.0 then -s[0] else 0.0) + rest
  }

  /** The gross win is the sum of the winning P&Ls. */
  lemma {:induction false} GrossWinsSum(s: seq<real>)
    ensures GrossWins(s) == Sum(Wins(s))
  {
    if s != [] {
      GrossWinsSum(s[1..]);
      if s[0] > 0.0 {
        assert ([s[0]] + Wins(s[1..]))[1..] == Wins(s[1..]);
      }
    }
  }

  /** The gross loss is the sum of the losing P&Ls, negated. */
  lemma {:induction false} GrossLossesSum(s: seq<real>)
    ensures GrossLosses(s) == -Sum(Losses(s))
  {
    if s != [] {
      GrossLossesSum(s[1..]);
      if s[0] < 0.0 {
        assert ([s[0]] + Losses(s[1..]))[1..] == Losses(s[1..]);
      }
    }
  }

  /** Gross wins over gross losses, both given as non-negative amounts:
      infinite when nothing was lost but something was won, 0 when nothing
      was either. */
  function Ratio(wins: real, losses: real): (r: Factor)
    requires wins >= 0.0 && losses >= 0.0
    ensures r == Infinite <==> losses == 0.0 && wins > 0.0
    ensures r.Finite? ==> r.value >= 0.0
    ensures losses > 0.0 ==> r.Finite? && r.value * losses == wins
    ensures losses == 0.0 && wins == 0.0 ==> r == Finite(0.0)
  {
    if losses == 0.0 then (if wins > 0.0 then Infinite else Finite(0.0))
    else
      DivBounds(wins, losses, 0.0, wins / losses);
      assert wins / losses * losses == wins;
      Finite(wins / losses)
  }

  /** `_calculate_profit_factor`: gross wins over gross losses. */
  function ProfitFactor(pnls: seq<real>): (r: Factor)
    ensures pnls == [] ==> r == Finite(0.0)
    ensures r == Infinite <==> GrossLosses(pnls) == 0.0 && GrossWins(pnls) > 0.0
    ensures r.Finite? ==> r.value >= 0.0
    ensures GrossLosses(pnls) > 0.0 ==> r.Finite? && r.value * GrossLosses(pnls) == GrossWins(pnls)
    ensures GrossLosses(pnls) == 0.0 && GrossWins(pnls) == 0.0 ==> r == Finite(0.0)
  {
    if pnls == [] then Finite(0.0)
    else Ratio(GrossWins(pnls), GrossLosses(pnls))
  }

  /** The profit factor is infinite exactly when some trade won and none
      lost. */
  lemma ProfitFactorInfinite(pnls: seq<real>)
    ensures ProfitFactor(pnls) == Infinite <==>
      (exists x :: x in pnls && x > 0.0) && forall x :: x in pnls ==> x >= 0.0
  {
    var losses := GrossLosses(pnls);
    assert losses == 0.0 <==> forall x :: x in pnls ==> x >= 0.0;
  }

  /** `_calculate_avg_trade_pnl`: the mean P&L, between the worst and the
      best trade; 0 with no P&Ls. */
  function AvgTradePnl(pnls: seq<real>): (r: real)
    ensures pnls == [] ==> r == 0.0
    ensures pnls != [] ==> Times(|pnls|, r) == Sum(pnls)
    ensures pnls != [] ==> Smallest(pnls) <= r <= Largest(pnls)
  {
    if pnls == [] then 0.0 else Mean(pnls)
  }

  /** `_calculate_avg_win`: the mean winning P&L; positive exactly when some
      trade won, 0 otherwise. */
  function AvgWin(pnls: seq<real>): (r: real)
    ensures r >= 0.0
    ensures r > 0.0 <==> exists x :: x in pnls && x > 0.0
    ensures Wins(pnls) != [] ==> Times(|Wins(pnls)|, r) == Sum(Wins(pnls))
    ensures Wins(pnls) != [] ==> Smallest(Wins(pnls)) <= r <= Largest(Wins(pnls))
  {
    var wins := Wins(pnls);
    if wins == [] then 0.0
    else
      assert wins[0] in wins;
      Mean(wins)
  }

  /** `_calculate_avg_loss`: the mean losing P&L; negative exactly when some
      trade lost, 0 otherwise. */
  function AvgLoss(pnls: seq<real>): (r: real)
    ensures r <= 0.0
    ensures r < 0.0 <==> exists x :: x in pnls && x < 0.0
    ensures Losses(pnls) != [] ==> Times(|Losses(pnls)|, r) == Sum(Losses(pnls))
    ensures Losses(pnls) != [] ==> Smallest(Losses(pnls)) <= r <= Largest(Losses(pnls))
  {
    var losses := Losses(pnls);
    if losses == [] then 0.0
    else
      assert losses[0] in losses;
      Mean(losses)
  }

  /** `_calculate_largest_win`: the best winning P&L, 0 when none won. */
  function LargestWin(pnls: seq<real>): (r: real)
    ensures r >= 0.0
    ensures forall x :: x in pnls && x > 0.0 ==> x <= r
    ensures r > 0.0 ==> r in pnls
    ensures r == 0.0 <==> forall x :: x in pnls ==> x <= 0.0
  {
    var wins := Wins(pnls);
    if wins == [] then 0.0 else Largest(wins)
  }

  /** `_calculate_largest_loss`: the worst losing P&L, 0 when none lost. */
  function LargestLoss(pnls: seq<real>): (r: real)
    ensures r <= 0.0
    ensures forall x :: x in pnls && x < 0.0 ==> r <= x
    ensures r < 0.0 ==> r in pnls
    ensures r == 0.0 <==> forall x :: x in pnls ==> x >= 0.0
  {
    var losses := Losses(pnls);
    if losses == [] then 0.0 else Smallest(losses)
  }

  /** The largest win is at least the average win. */
  lemma LargestWinAboveAverage(pnls: seq<real>)
    ensures AvgWin(pnls) <= LargestWin(pnls)
  {
  }

  /** The largest loss is at most the average loss. */
  lemma LargestLossBelowAverage(pnls: seq<real>)
    ensures LargestLoss(pnls) <= AvgLoss(pnls)
  {
  }

  // ---------------------------------------------------------------------
  // The metrics dictionary

  /** The metrics of one portfolio, one field per key of the dictionary
      `calculate_metrics` builds (the Sharpe and Sortino ratios aside). */
  datatype Metrics = Metrics(
    totalReturn: real,
    totalReturnPercent: real,
    maxDrawdown: Float,
    maxDrawdownDuration: nat,
    winRate: real,
    profitFactor: Factor,
    totalTrades: nat,
    avgTradePnl: real,
    avgWin: real,
    avgLoss: real,
    largestWin: real,
    largestLoss: real)

  /** `calculate_metrics`: the drawdown metrics read the equity curve, the
      trade metrics the P&Ls rebuilt from the trade log. */
  method CalculateMetrics(p: Portfolio) returns (m: Metrics)
    ensures m.totalReturn == PortfolioValue(p) - p.initialCash
    ensures m.totalTrades == |p.tradeHistory|
    ensures m.totalReturnPercent == TotalReturnPercent(p)
    ensures IsMaxDrawdown(Equities(p.equityHistory), m.maxDrawdown)
    ensures IsMaxDrawdownDuration(Equities(p.equityHistory), m.maxDrawdownDuration)
    ensures |p.equityHistory| < 2 ==> m.maxDrawdown == Num(0.0) && m.maxDrawdownDuration == 0
    ensures m.maxDrawdownDuration < |p.equityHistory| || m.maxDrawdownDuration == 0
    ensures (forall i :: 0 <= i < |p.equityHistory| ==> p.equityHistory[i].equity > 0.0) ==>
      m.maxDrawdown.Num? && -100.0 < m.maxDrawdown.value <= 0.0
    ensures var pnls := TradePnls(p.tradeHistory);
      && m.winRate == WinRate(pnls) && m.profitFactor == ProfitFactor(pnls)
      && m.avgTradePnl == AvgTradePnl(pnls) && m.avgWin == AvgWin(pnls) && m.avgLoss == AvgLoss(pnls)
      && m.largestWin == LargestWin(pnls) && m.largestLoss == LargestLoss(pnls)
    ensures p.tradeHistory == [] ==> m.winRate == 0.0 && m.profitFactor == Finite(0.0) && m.avgTradePnl == 0.0
  {
    var e := Equities(p.equityHistory);
    var drawdown := MaxDrawdown(e);
    var duration := MaxDrawdownDuration(e);
    var pnls := TradePnls(p.tradeHistory);
    assert p.tradeHistory == [] ==> pnls == [];
    m := Metrics(
      TotalReturn(p), TotalReturnPercent(p), drawdown, duration,
      WinRate(pnls), ProfitFactor(pnls), TotalTrades(p), AvgTradePnl(pnls),
      AvgWin(pnls), AvgLoss(pnls), LargestWin(pnls), LargestLoss(pnls));
  }

  // ---------------------------------------------------------------------
  // Metrics of a finished run

  /** After a run, `total_trades` is the number of fills reported to the
      strategy. */
  lemma RunTradeCount(strategy: Backtest.Strategy, src: Dicts.Dict<Symbol, seq<Bar>>, initialCash: real,
                      commissionPerShare: real, slippagePercent: real)
    requires Dicts.Unique(src) && Backtest.Sound(strategy)
    ensures var r := Backtest.Run(strategy, src, initialCash, commissionPerShare, slippagePercent);
      r.Success? ==> TotalTrades(r.value.broker.portfolio) == |Backtest.Reports(r.value.trace)|
  {
    Backtest.RunReportsFills(strategy, src, initialCash, commissionPerShare, slippagePercent);
  }

  /** After a run, the equity curve has one sample per visited timestamp. */
  lemma RunCurveLength(strategy: Backtest.Strategy, src: Dicts.Dict<Symbol, seq<Bar>>, initialCash: real,
                       commissionPerShare: real, slippagePercent: real)
    requires Dicts.Unique(src) && Backtest.Sound(strategy)
    ensures var r := Backtest.Run(strategy, src, initialCash, commissionPerShare, slippagePercent);
      r.Success? ==> |Equities(r.value.broker.portfolio.equityHistory)| == |Backtest.Marks(r.value.trace)|
  {
    Backtest.RunEquityCurve(strategy, src, initialCash, commissionPerShare, slippagePercent);
  }
}

=== FILE: broker.dfy ===
/** The simulated broker: it accepts orders, decides on each bar which open
    orders the bar fills and at what price, books those fills into the
    portfolio ledger and queues one fill event per fill for the engine. */
module Execution {
  import opened Wrappers
  import opened Types
  import opened Dicts
  import opened Ledger
  import opened Numeric

  /** The broker's cost model: a per-share commission and a percentage of
      adverse slippage. */
  datatype Costs = Costs(commissionPerShare: real, slippagePercent: real)

  /** The arguments of one bar handed to the broker. */
  datatype Tick = Tick(symbol: Symbol, open: real, high: real, low: real, close: real, timestamp: Timestamp)

  /** The broker state. `orders` holds every order ever submitted by id;
      `openIds` lists the open ones in submission order; `fillEvents` is the
      queue of fills not yet collected; `nextId` is the next fresh order id. */
  datatype BacktestBroker = BacktestBroker(
    portfolio: Portfolio,
    costs: Costs,
    orders: map<OrderId, Order>,
    openIds: seq<OrderId>,
    fillEvents: seq<FillEvent>,
    nextId: OrderId)

  ghost predicate Distinct(ids: seq<OrderId>) {
    forall i, j :: 0 <= i < j < |ids| ==> ids[i] != ids[j]
  }

  /** `a` is `b` with some of its elements deleted, the rest in their order. */
  ghost predicate Subsequence(a: seq<OrderId>, b: seq<OrderId>)
    decreases |b|
  {
    if a == [] then true
    else if b == [] then false
    else (a[0] == b[0] && Subsequence(a[1..], b[1..])) || Subsequence(a, b[1..])
  }

  /** The broker invariant: open ids are distinct, known and submitted; every
      stored order carries its own id, which lies below the counter, is well
      formed and has a positive size; the ledger's position map has distinct
      keys. */
  ghost predicate Valid(b: BacktestBroker) {
    && Unique(b.portfolio.positions)
    && Distinct(b.openIds)
    && (forall i :: 0 <= i < |b.openIds| ==> b.openIds[i] in b.orders && b.orders[b.openIds[i]].status == Submitted)
    && (forall id :: id in b.orders ==>
          id < b.nextId && b.orders[id].orderId == Some(id) && b.orders[id].WellFormed() && b.orders[id].quantity > 0)
  }

  /** A broker on a portfolio, with no orders and no fills. */
  function NewBroker(portfolio: Portfolio, commissionPerShare: real, slippagePercent: real): (b: BacktestBroker)
    requires Unique(portfolio.positions)
    ensures Valid(b)
    ensures b.portfolio == portfolio && b.costs == Costs(commissionPerShare, slippagePercent)
    ensures b.orders == map[] && b.openIds == [] && b.fillEvents == []
  {
    BacktestBroker(portfolio, Costs(commissionPerShare, slippagePercent), map[], [], [], 0)
  }

  /** The fields of an order that the broker never changes: what was asked
      for, and under which id. */
  predicate SameInstructions(a: Order, b: Order) {
    && a.symbol == b.symbol && a.side == b.side && a.quantity == b.quantity
    && a.orderType == b.orderType && a.timeInForce == b.timeInForce
    && a.limitPrice == b.limitPrice && a.stopPrice == b.stopPrice
  }

  /** Accepts an order: it receives a fresh id, becomes submitted at `now`,
      is stored, and joins the end of the open list. The ledger and the fill
      queue are untouched. */
  function SubmitOrder(b: BacktestBroker, order: Order, now: Timestamp): (r: (BacktestBroker, Order))
    ensures SameInstructions(r.1, order)
    ensures r.1.orderId == Some(b.nextId) && r.1.status == Submitted && r.1.submittedAt == Some(now)
    ensures r.1.filledAt == order.filledAt && r.1.filledQuantity == order.filledQuantity
    ensures r.1.filledAvgPrice == order.filledAvgPrice
    ensures Valid(b) ==> b.nextId !in b.orders
    ensures r.0.orders == b.orders[b.nextId := r.1]
    ensures r.0.openIds == b.openIds + [b.nextId]
    ensures r.0.nextId > b.nextId
    ensures r.0.portfolio == b.portfolio && r.0.fillEvents == b.fillEvents && r.0.costs == b.costs
    ensures Valid(b) && order.WellFormed() && order.quantity > 0 ==> Valid(r.0)
  {
    var id := b.nextId;
    var submitted := order.(orderId := Some(id), status := Submitted, submittedAt := Some(now));
    (b.(orders := b.orders[id := submitted], openIds := b.openIds + [id], nextId := id + 1), submitted)
  }

  /** The price at which a bar fills an order, before slippage, or None when
      the bar does not reach it. A market order fills at the open. A buy
      limit fills when the low reaches the limit, a sell limit when the high
      does, at the better of the limit and the open; a buy stop fills when
      the high reaches the stop, a sell stop when the low does, at the worse
      of the stop and the open (so a bar that gaps through the level fills at
      its open). A stop-limit order never fills.
      On a bar whose low and high enclose its open, the price lies within
      the bar. */
  function TriggerPrice(o: Order, open: real, high: real, low: real): (r: Option<real>)
    requires o.WellFormed()
    ensures o.orderType == Market ==> r == Some(open)
    ensures o.orderType == StopLimit ==> r == None
    ensures o.orderType == Limit && o.side == Buy ==>
      (r.Some? <==> low <= o.limitPrice.value) && (r.Some? ==> r.value == Min(o.limitPrice.value, open))
    ensures o.orderType == Limit && o.side == Sell ==>
      (r.Some? <==> high >= o.limitPrice.value) && (r.Some? ==> r.value == Max(o.limitPrice.value, open))
    ensures o.orderType == Stop && o.side == Buy ==>
      (r.Some? <==> high >= o.stopPrice.value) && (r.Some? ==> r.value == Max(o.stopPrice.value, open))
    ensures o.orderType == Stop && o.side == Sell ==>
      (r.Some? <==> low <= o.stopPrice.value) && (r.Some? ==> r.value == Min(o.stopPrice.value, open))
    ensures r.Some? ==> r.value == open || (o.limitPrice.Some? && r.value == o.limitPrice.value)
                                        || (o.stopPrice.Some? && r.value == o.stopPrice.value)
    ensures low <= open <= high && r.Some? ==> low <= r.value <= high
  {
    match o.orderType
    case Market => Some(open)
    case Limit =>
      var limit := o.limitPrice.value;
      if o.side == Buy then (if low <= limit then Some(Min(limit, open)) else None)
      else (if high >= limit then Some(Max(limit, open)) else None)
    case Stop =>
      var stop := o.stopPrice.value;
      if o.side == Buy then (if high >= stop then Some(Max(stop, open)) else None)
      else (if low <= stop then Some(Min(stop, open)) else None)
    case StopLimit => None
  }

  /** Slippage moves the price against the trader by `pct` percent: a buyer
      pays more, a seller receives less. A non-positive setting means none. */
  function Slip(price: real, side: OrderSide, pct: real): (r: real)
    ensures pct <= 0.0 ==> r == price
    ensures pct > 0.0 && side == Buy ==> r - price == price * pct / 100.0
    ensures pct > 0.0 && side == Sell ==> price - r == price * pct / 100.0
    ensures price >= 0.0 ==> (side == Buy ==> r >= price) && (side == Sell ==> r <= price)
  {
    if pct > 0.0 then
      var slippage := price * (pct / 100.0);
      if side == Buy then price + slippage else price - slippage
    else price
  }

  /** Commission on an order: its quantity times the per-share rate. */
  function Commission(costs: Costs, o: Order): real {
    o.quantity as real * costs.commissionPerShare
  }

  /** The fill event a bar produces for an open order, if it fills it: the
      order marked filled in full at the slipped price and the bar's time,
      with its commission. Orders on other symbols never fill. */
  function Fire(costs: Costs, o: Order, t: Tick): (r: Option<FillEvent>)
    requires o.WellFormed()
    ensures r.Some? <==> o.symbol == t.symbol && TriggerPrice(o, t.open, t.high, t.low).Some?
    ensures r.Some? ==>
      && r.value.fillPrice == Slip(TriggerPrice(o, t.open, t.high, t.low).value, o.side, costs.slippagePercent)
      && r.value.fillQuantity == o.quantity && r.value.timestamp == t.timestamp
      && r.value.commission == Commission(costs, o)
    ensures r.Some? ==>
      && SameInstructions(r.value.order, o) && r.value.order.orderId == o.orderId
      && r.value.order.submittedAt == o.submittedAt && r.value.order.WellFormed()
      && r.value.order.status == Filled && r.value.order.filledAt == Some(t.timestamp)
      && r.value.order.filledQuantity == o.quantity
      && r.value.order.filledAvgPrice == Some(r.value.fillPrice)
  {
    if o.symbol != t.symbol then None
    else
      match TriggerPrice(o, t.open, t.high, t.low)
      case None => None
      case Some(price) =>
        var fillPrice := Slip(price, o.side, costs.slippagePercent);
        var filled := o.(status := Filled, filledAt := Some(t.timestamp), filledQuantity := o.quantity,
                         filledAvgPrice := Some(fillPrice));
        Some(FillEvent(filled, fillPrice, o.quantity, t.timestamp, Commission(costs, o)))
  }

  /** The ids among `ids` that are known and well formed. */
  ghost predicate Known(orders: map<OrderId, Order>, ids: seq<OrderId>) {
    forall i :: 0 <= i < |ids| ==> ids[i] in orders && orders[ids[i]].WellFormed()
  }

  /** Reference definition: the fill events a bar produces for the orders
      `ids`, in list order. Each order's fate depends on the order and the
      bar alone. */
  function Events(costs: Costs, orders: map<OrderId, Order>, ids: seq<OrderId>, t: Tick): seq<FillEvent>
    requires Known(orders, ids)
  {
    if ids == [] then []
    else
      var here := Fire(costs, orders[ids[0]], t);
      (if here.Some? then [here.value] else []) + Events(costs, orders, ids[1..], t)
  }

  /** Reference definition: the ids among `ids` that a bar fills. */
  function Fired(costs: Costs, orders: map<OrderId, Order>, ids: seq<OrderId>, t: Tick): seq<OrderId>
    requires Known(orders, ids)
  {
    if ids == [] then []
    else
      (if Fire(costs, orders[ids[0]], t).Some? then [ids[0]] else []) + Fired(costs, orders, ids[1..], t)
  }

  /** `ids` with every id of `gone` removed, the rest in order. */
  function Without(ids: seq<OrderId>, gone: seq<OrderId>): (r: seq<OrderId>)
    ensures forall id :: id in r <==> id in ids && id !in gone
    ensures Distinct(ids) ==> Distinct(r)
    ensures Subsequence(r, ids)
    ensures |r| <= |ids|
  {
    if ids == [] then []
    else
      var rest := Without(ids[1..], gone);
      if ids[0] in gone then
        assert rest == [] || Subsequence(rest, ids[1..]);
        rest
      else
        assert forall id :: id in rest ==> id in ids[1..];
        assert ([ids[0]] + rest)[1..] == rest;
        [ids[0]] + rest
  }

  /** The trade record a fill leaves in the log: its time, the order's
      symbol, side and size, the fill price and the commission. */
  predicate Records(trade: TradeRecord, e: FillEvent) {
    && trade.timestamp == Some(e.timestamp) && trade.symbol == e.order.symbol && trade.side == e.order.side
    && trade.quantity == e.order.quantity && trade.price == e.fillPrice && trade.commission == e.commission
  }

  /** Books one fill event in the ledger, stamped with the event's time. */
  function Book(p: Portfolio, e: FillEvent): (q: Portfolio)
    requires Unique(p.positions)
    ensures Unique(q.positions)
    ensures q.initialCash == p.initialCash && q.equityHistory == p.equityHistory
    ensures |q.tradeHistory| == |p.tradeHistory| + 1 && q.tradeHistory[..|p.tradeHistory|] == p.tradeHistory
    ensures Records(q.tradeHistory[|p.tradeHistory|], e)
  {
    ProcessFill(p, e.order, e.fillPrice, e.commission, Some(e.timestamp))
  }

  /** A log extended by one record and then by more splits into the old log,
      that record, and the rest. */
  lemma LogSplits(before: seq<TradeRecord>, mid: seq<TradeRecord>, after: seq<TradeRecord>)
    requires |mid| == |before| + 1 && mid[..|before|] == before
    requires |after| >= |mid| && after[..|mid|] == mid
    ensures after[..|before|] == before
    ensures after[|before|..] == [mid[|before|]] + after[|mid|..]
  {
    assert after[..|before|] == mid[..|before|];
  }

  /** `trades` records `events`, one to one and in order. */
  predicate AllRecorded(trades: seq<TradeRecord>, events: seq<FillEvent>) {
    |trades| == |events| && forall k :: 0 <= k < |events| ==> Records(trades[k], events[k])
  }

  lemma RecordedCons(trade: TradeRecord, trades: seq<TradeRecord>, e: FillEvent, events: seq<FillEvent>)
    requires Records(trade, e) && AllRecorded(trades, events)
    ensures AllRecorded([trade] + trades, [e] + events)
  {
    assert forall k :: 0 < k <= |events| ==> ([trade] + trades)[k] == trades[k - 1] && ([e] + events)[k] == events[k - 1];
  }

  /** A log extended by the record of the first event, then by the records
      of the other events, records all of them. */
  lemma RecordedExtend(before: seq<TradeRecord>, mid: seq<TradeRecord>, after: seq<TradeRecord>, events: seq<FillEvent>)
    requires events != []
    requires |mid| == |before| + 1 && mid[..|before|] == before && Records(mid[|before|], events[0])
    requires |after| == |mid| + |events| - 1 && after[..|mid|] == mid && AllRecorded(after[|mid|..], events[1..])
    ensures |after| == |before| + |events| && after[..|before|] == before
    ensures AllRecorded(after[|before|..], events)
  {
    LogSplits(before, mid, after);
    assert events == [events[0]] + events[1..];
    RecordedCons(mid[|before|], after[|mid|..], events[0], events[1..]);
  }

  /** The ledger after booking a list of fills one after another. */
  function ApplyFills(p: Portfolio, events: seq<FillEvent>): (r: Portfolio)
    requires Unique(p.positions)
    ensures Unique(r.positions)
    ensures r.initialCash == p.initialCash && r.equityHistory == p.equityHistory
    ensures |r.tradeHistory| == |p.tradeHistory| + |events|
    ensures r.tradeHistory[..|p.tradeHistory|] == p.tradeHistory
    ensures AllRecorded(r.tradeHistory[|p.tradeHistory|..], events)
    decreases |events|
  {
    if events == [] then p
    else
      var e := events[0];
      var q := Book(p, e);
      var r := ApplyFills(q, events[1..]);
      RecordedExtend(p.tradeHistory, q.tradeHistory, r.tradeHistory, events);
      r
  }

  /** Booking fills of positive size keeps the ledger valid. */
  lemma {:induction false} ApplyFillsKeepsValid(p: Portfolio, events: seq<FillEvent>)
    requires Ledger.Valid(p)
    requires forall e :: e in events ==> e.order.quantity > 0
    ensures Ledger.Valid(ApplyFills(p, events))
    decreases |events|
  {
    if events != [] {
      var e := events[0];
      ProcessFillKeepsValid(p, e.order, e.fillPrice, e.commission, Some(e.timestamp));
      assert forall x :: x in events[1..] ==> x in events;
      ApplyFillsKeepsValid(Book(p, e), events[1..]);
    }
  }

  /** What becomes of an order on a bar: the filled order when the bar fills
      it, the order itself otherwise. */
  function Outcome(costs: Costs, o: Order, t: Tick): Order
    requires o.WellFormed()
  {
    match Fire(costs, o, t)
    case Some(ev) => ev.order
    case None => o
  }

  /** The reference definitions read only the orders listed. */
  lemma {:induction false} ReferenceFrame(costs: Costs, a: map<OrderId, Order>, b: map<OrderId, Order>, ids: seq<OrderId>, t: Tick)
    requires Known(a, ids) && Known(b, ids)
    requires forall i :: 0 <= i < |ids| ==> a[ids[i]] == b[ids[i]]
    ensures Events(costs, a, ids, t) == Events(costs, b, ids, t)
    ensures Fired(costs, a, ids, t) == Fired(costs, b, ids, t)
  {
    if ids != [] {
      ReferenceFrame(costs, a, b, ids[1..], t);
    }
  }

  /** The loop over the open orders of one bar, in list order: each order
      the bar fills is replaced by its filled version, its fill event is
      queued and its id collected for removal. The queue, the collected ids
      and the new orders agree with the reference definitions. */
  function FillOrders(costs: Costs, orders: map<OrderId, Order>, ids: seq<OrderId>, t: Tick)
    : (r: (map<OrderId, Order>, seq<FillEvent>, seq<OrderId>))
    requires Known(orders, ids) && Distinct(ids)
    ensures r.1 == Events(costs, orders, ids, t)
    ensures r.2 == Fired(costs, orders, ids, t)
    ensures r.0.Keys == orders.Keys
    ensures forall id :: id in orders ==>
      r.0[id] == (if id in ids then Outcome(costs, orders[id], t) else orders[id])
    decreases |ids|
  {
    if ids == [] then (orders, [], [])
    else
      var id := ids[0];
      assert forall i :: 0 < i < |ids| ==> ids[i] != id;
      match Fire(costs, orders[id], t)
      case None => FillOrders(costs, orders, ids[1..], t)
      case Some(ev) =>
        var next := orders[id := ev.order];
        ReferenceFrame(costs, orders, next, ids[1..], t);
        var rest := FillOrders(costs, next, ids[1..], t);
        (rest.0, [ev] + rest.1, [id] + rest.2)
  }

  /** Each fill event belongs to the id collected at the same position. */
  lemma {:induction false} EventsMatchFired(costs: Costs, orders: map<OrderId, Order>, ids: seq<OrderId>, t: Tick)
    requires Known(orders, ids)
    ensures var evs := Events(costs, orders, ids, t); var fired := Fired(costs, orders, ids, t);
      && |evs| == |fired|
      && forall k :: 0 <= k < |fired| ==>
           fired[k] in orders && orders[fired[k]].WellFormed() && Fire(costs, orders[fired[k]], t) == Some(evs[k])
    decreases |ids|
  {
    if ids != [] {
      EventsMatchFired(costs, orders, ids[1..], t);
    }
  }

  /** An id is collected exactly when it is listed and the bar fills its
      order. */
  lemma {:induction false} FiredMembers(costs: Costs, orders: map<OrderId, Order>, ids: seq<OrderId>, t: Tick)
    requires Known(orders, ids)
    ensures forall id :: id in Fired(costs, orders, ids, t) <==>
      id in ids && id in orders && orders[id].WellFormed() && Fire(costs, orders[id], t).Some?
    decreases |ids|
  {
    if ids != [] {
      FiredMembers(costs, orders, ids[1..], t);
    }
  }

  /** Every fill event carries an order of positive size when every listed
      order has one. */
  lemma {:induction false} EventsPositive(costs: Costs, orders: map<OrderId, Order>, ids: seq<OrderId>, t: Tick)
    requires Known(orders, ids)
    requires forall i :: 0 <= i < |ids| ==> orders[ids[i]].quantity > 0
    ensures forall e :: e in Events(costs, orders, ids, t) ==> e.order.quantity > 0
    decreases |ids|
  {
    if ids != [] {
      EventsPositive(costs, orders, ids[1..], t);
      var here := Fire(costs, orders[ids[0]], t);
      var head: seq<FillEvent> := if here.Some? then [here.value] else [];
      var rest := Events(costs, orders, ids[1..], t);
      assert forall e :: e in head ==> e.order.quantity > 0;
      assert Events(costs, orders, ids, t) == head + rest;
    }
  }

  /** Feeds one bar to the broker. Every open order on the bar's symbol that
      the bar reaches is filled in full, in list order: the order is marked
      filled, the ledger books the fill, one fill event is queued, and the
      order leaves the open list. Orders the bar does not fill, and orders on
      other symbols, stay open and unchanged. The ledger books the fills in
      the order they are queued (booking happens fill by fill inside the
      loop; nothing in the loop reads the ledger, so booking the same list
      afterwards gives the same ledger). */
  function ProcessBar(b: BacktestBroker, t: Tick): (r: BacktestBroker)
    requires Valid(b)
    ensures Valid(r)
    ensures r.costs == b.costs && r.nextId == b.nextId
    ensures r.fillEvents == b.fillEvents + Events(b.costs, b.orders, b.openIds, t)
    ensures r.portfolio == ApplyFills(b.portfolio, Events(b.costs, b.orders, b.openIds, t))
    ensures r.orders.Keys == b.orders.Keys
    ensures forall id :: id in b.orders ==>
      r.orders[id] == (if id in b.openIds then Outcome(b.costs, b.orders[id], t) else b.orders[id])
    ensures forall id :: id in r.openIds <==>
      id in b.openIds && id in b.orders && b.orders[id].WellFormed() && Fire(b.costs, b.orders[id], t).None?
    ensures Subsequence(r.openIds, b.openIds)
  {
    var step := FillOrders(b.costs, b.orders, b.openIds, t);
    FiredMembers(b.costs, b.orders, b.openIds, t);
    var r := b.(orders := step.0, portfolio := ApplyFills(b.portfolio, step.1),
                fillEvents := b.fillEvents + step.1, openIds := Without(b.openIds, step.2));
    BarKeepsValid(b, r, t);
    r
  }

  /** What a bar does to the orders and the open list keeps the broker
      invariant. */
  lemma BarKeepsValid(b: BacktestBroker, r: BacktestBroker, t: Tick)
    requires Valid(b) && Unique(r.portfolio.positions) && Distinct(r.openIds)
    requires r.nextId == b.nextId && r.orders.Keys == b.orders.Keys
    requires forall id :: id in b.orders ==>
      r.orders[id] == (if id in b.openIds then Outcome(b.costs, b.orders[id], t) else b.orders[id])
    requires forall id :: id in r.openIds ==>
      id in b.openIds && id in b.orders && b.orders[id].WellFormed() && Fire(b.costs, b.orders[id], t).None?
    ensures Valid(r)
  {
  }

  /** A market order on the bar's symbol is always filled, at the open moved
      by slippage, and leaves the open list. */
  lemma MarketOrderFills(b: BacktestBroker, t: Tick, id: OrderId)
    requires Valid(b) && id in b.openIds
    requires b.orders[id].orderType == Market && b.orders[id].symbol == t.symbol
    ensures var r := ProcessBar(b, t);
      && id !in r.openIds && r.orders[id].status == Filled
      && r.orders[id].filledQuantity == b.orders[id].quantity
      && r.orders[id].filledAvgPrice == Some(Slip(t.open, b.orders[id].side, b.costs.slippagePercent))
  {
  }

  /** A stop-limit order is never filled: it stays open and unchanged. */
  lemma StopLimitWaits(b: BacktestBroker, t: Tick, id: OrderId)
    requires Valid(b) && id in b.openIds
    requires b.orders[id].orderType == StopLimit
    ensures var r := ProcessBar(b, t); id in r.openIds && r.orders[id] == b.orders[id]
  {
  }

  /** A bar never touches orders on other symbols. */
  lemma OtherSymbolsWait(b: BacktestBroker, t: Tick, id: OrderId)
    requires Valid(b) && id in b.openIds
    requires b.orders[id].symbol != t.symbol
    ensures var r := ProcessBar(b, t); id in r.openIds && r.orders[id] == b.orders[id]
  {
  }

  /** Each fill event of the listed orders is the fill of a listed order on
      the bar's symbol, at the bar's time; its id is not among those whose
      orders the bar leaves unfilled. */
  lemma EventsLeaveOpen(costs: Costs, orders: map<OrderId, Order>, ids: seq<OrderId>, t: Tick, left: seq<OrderId>)
    requires Known(orders, ids)
    requires forall i :: 0 <= i < |ids| ==> orders[ids[i]].orderId == Some(ids[i])
    requires forall id :: id in left ==> id in orders && orders[id].WellFormed() && Fire(costs, orders[id], t).None?
    ensures forall e :: e in Events(costs, orders, ids, t) ==>
      && e.order.orderId.Some? && e.order.orderId.value in ids && e.order.orderId.value !in left
      && e.order.symbol == t.symbol && e.order.status == Filled && e.timestamp == t.timestamp
  {
    var evs := Events(costs, orders, ids, t);
    var fired := Fired(costs, orders, ids, t);
    EventsMatchFired(costs, orders, ids, t);
    FiredMembers(costs, orders, ids, t);
    forall e | e in evs
      ensures e.order.orderId.Some? && e.order.orderId.value in ids && e.order.orderId.value !in left
    {
      var k :| 0 <= k < |evs| && evs[k] == e;
      assert fired[k] in fired;
    }
  }

  /** Each queued fill event is the fill of an order that was open, on the
      bar's symbol, and is no longer open. */
  lemma QueuedFillsLeftOpenList(b: BacktestBroker, t: Tick)
    requires Valid(b)
    ensures var r := ProcessBar(b, t); var evs := r.fillEvents[|b.fillEvents|..];
      forall e :: e in evs ==>
        && e.order.orderId.Some? && e.order.orderId.value in b.openIds
        && e.order.orderId.value !in r.openIds
        && e.order.symbol == t.symbol && e.order.status == Filled && e.timestamp == t.timestamp
  {
    var r := ProcessBar(b, t);
    EventsLeaveOpen(b.costs, b.orders, b.openIds, t, r.openIds);
    assert r.fillEvents[|b.fillEvents|..] == Events(b.costs, b.orders, b.openIds, t);
  }

  /** A bar keeps the ledger's bookkeeping law
      and its other invariants. */
  lemma ProcessBarKeepsBooks(b: BacktestBroker, t: Tick)
    requires Valid(b) && Ledger.Valid(b.portfolio)
    ensures Ledger.Valid(ProcessBar(b, t).portfolio)
  {
    EventsPositive(b.costs, b.orders, b.openIds, t);
    ApplyFillsKeepsValid(b.portfolio, Events(b.costs, b.orders, b.openIds, t));
  }

  /** `ids` without its first occurrence of `x` (`list.remove`, a no-op when
      absent). */
  function RemoveFirst(ids: seq<OrderId>, x: OrderId): (r: seq<OrderId>)
    ensures x !in ids ==> r == ids
    ensures x in ids ==> |r| == |ids| - 1
    ensures forall y :: y in r ==> y in ids
    ensures forall y :: y in ids && y != x ==> y in r
    ensures Distinct(ids) ==> Distinct(r) && x !in r
  {
    if ids == [] then []
    else if ids[0] == x then ids[1..]
    else
      var rest := RemoveFirst(ids[1..], x);
      assert forall y :: y in rest ==> y in ids[1..];
      assert Distinct(ids) ==> Distinct(ids[1..]) && ids[0] !in ids[1..];
      [ids[0]] + rest
  }

  /** `RemoveFirst` deletes exactly the first occurrence: the ids before it
      and after it stay, in order. */
  lemma {:induction false} RemoveFirstAt(ids: seq<OrderId>, x: OrderId, k: nat)
    requires k < |ids| && ids[k] == x && x !in ids[..k]
    ensures RemoveFirst(ids, x) == ids[..k] + ids[k + 1..]
  {
    if k > 0 {
      assert ids[0] != x by { assert ids[0] == ids[..k][0]; }
      assert ids[1..][..k - 1] == ids[1..k];
      assert x !in ids[1..][..k - 1] by { assert forall y :: y in ids[1..k] ==> y in ids[..k]; }
      RemoveFirstAt(ids[1..], x, k - 1);
      assert ids[..k] == [ids[0]] + ids[1..][..k - 1];
      assert ids[k + 1..] == ids[1..][k..];
    }
  }

  /** Cancels a submitted or pending order: it becomes canceled and leaves
      the open list. An unknown id, or an order already filled, canceled or
      rejected, is refused and nothing changes. */
  function CancelOrder(b: BacktestBroker, id: OrderId): (r: (BacktestBroker, bool))
    ensures r.1 <==> id in b.orders && (b.orders[id].status == Submitted || b.orders[id].status == Pending)
    ensures !r.1 ==> r.0 == b
    ensures r.1 ==> r.0.orders == b.orders[id := b.orders[id].(status := Canceled)]
    ensures r.0.portfolio == b.portfolio && r.0.fillEvents == b.fillEvents && r.0.nextId == b.nextId
    ensures r.0.costs == b.costs
    ensures Valid(b) ==> Valid(r.0) && id !in r.0.openIds
    ensures Valid(b) ==> forall x :: x in r.0.openIds <==> x in b.openIds && x != id
    ensures r.1 ==> forall k :: 0 <= k < |b.openIds| && b.openIds[k] == id && id !in b.openIds[..k] ==>
      r.0.openIds == b.openIds[..k] + b.openIds[k + 1..]
    ensures r.1 && id !in b.openIds ==> r.0.openIds == b.openIds
  {
    if id !in b.orders then (b, false)
    else
      var o := b.orders[id];
      if o.status != Submitted && o.status != Pending then (b, false)
      else
        var r := b.(orders := b.orders[id := o.(status := Canceled)], openIds := RemoveFirst(b.openIds, id));
        assert Valid(b) ==> Valid(r) by {
          if Valid(b) {
            CancelKeepsValid(b, id, r);
          }
        }
        assert forall k :: 0 <= k < |b.openIds| && b.openIds[k] == id && id !in b.openIds[..k] ==>
          r.openIds == b.openIds[..k] + b.openIds[k + 1..] by {
          forall k | 0 <= k < |b.openIds| && b.openIds[k] == id && id !in b.openIds[..k] {
            RemoveFirstAt(b.openIds, id, k);
          }
        }
        (r, true)
  }

  /** Canceling a known order keeps the broker invariant and takes exactly
      its id off the open list. */
  lemma CancelKeepsValid(b: BacktestBroker, id: OrderId, r: BacktestBroker)
    requires id in b.orders
    requires r == b.(orders := b.orders[id := b.orders[id].(status := Canceled)], openIds := RemoveFirst(b.openIds, id))
    requires Valid(b)
    ensures Valid(r)
  {
    assert id !in r.openIds;
    forall i | 0 <= i < |r.openIds|
      ensures r.openIds[i] in r.orders && r.orders[r.openIds[i]].status == Submitted
    {
      var x := r.openIds[i];
      assert x in b.openIds && x != id;
      var j :| 0 <= j < |b.openIds| && b.openIds[j] == x;
    }
  }

  /** A canceled order cannot be canceled again. */
  lemma CancelTwice(b: BacktestBroker, id: OrderId)
    requires CancelOrder(b, id).1
    ensures !CancelOrder(CancelOrder(b, id).0, id).1
  {
  }

  /** `orders.get(id)`. */
  function GetOrder(b: BacktestBroker, id: OrderId): (r: Option<Order>)
    ensures r.Some? <==> id in b.orders
    ensures r.Some? ==> r.value == b.orders[id]
  {
    if id in b.orders then Some(b.orders[id]) else None
  }

  /** A submitted order can be looked up under its new id, is open, and is
      the last of the open orders. */
  lemma SubmitThenGet(b: BacktestBroker, order: Order, now: Timestamp)
    requires Valid(b)
    ensures var (r, o) := SubmitOrder(b, order, now);
      && GetOrder(r, o.orderId.value) == Some(o)
      && GetOpenOrders(r)[|GetOpenOrders(r)| - 1] == o
      && GetOpenOrders(r)[..|b.openIds|] == GetOpenOrders(b)
  {
  }

  /** The open orders, in submission order. */
  function GetOpenOrders(b: BacktestBroker): (r: seq<Order>)
    requires forall i :: 0 <= i < |b.openIds| ==> b.openIds[i] in b.orders
    ensures |r| == |b.openIds|
    ensures forall i :: 0 <= i < |r| ==> r[i] == b.orders[b.openIds[i]]
    ensures Valid(b) ==> forall i :: 0 <= i < |r| ==> r[i].status == Submitted && r[i].orderId == Some(b.openIds[i])
  {
    seq(|b.openIds|, i requires 0 <= i < |b.openIds| => b.orders[b.openIds[i]])
  }

  /** Hands out the queued fill events, oldest first, and empties the queue. */
  function GetFillEvents(b: BacktestBroker): (r: (BacktestBroker, seq<FillEvent>))
    ensures r.1 == b.fillEvents && r.0.fillEvents == []
    ensures r.0 == b.(fillEvents := [])
    ensures Valid(b) ==> Valid(r.0)
  {
    (b.(fillEvents := []), b.fillEvents)
  }

  /** Every fill is handed out once: a second call right after the first
      returns nothing. */
  lemma DrainOnce(b: BacktestBroker)
    ensures GetFillEvents(GetFillEvents(b).0).1 == []
  {
  }

  /** The ledger's non-flat positions. */
  function GetPositions(b: BacktestBroker): (r: seq<Position>)
    ensures forall pos :: pos in r ==> pos.quantity != 0
    ensures r == GetAllPositions(b.portfolio)
  {
    GetAllPositions(b.portfolio)
  }

  /** The ledger's position in one symbol: the position stored under that
      key, the only one when keys are distinct. */
  function GetPosition(b: BacktestBroker, symbol: Symbol): (r: Option<Position>)
    ensures r.Some? <==> HasKey(b.portfolio.positions, symbol)
    ensures r.Some? ==> (symbol, r.value) in b.portfolio.positions
    ensures Unique(b.portfolio.positions) ==>
      forall pos :: (symbol, pos) in b.portfolio.positions ==> r == Some(pos)
  {
    Ledger.GetPosition(b.portfolio, symbol)
  }
}

=== FILE: dict.dfy ===
/** Insertion-ordered dictionaries.

    Python's `dict` remembers the order in which keys were first inserted,
    and the backtest iterates its dictionaries (positions, bars by
    timestamp, bars by symbol) in that order. A dictionary is therefore
    modelled as a sequence of key/value pairs with distinct keys:
    overwriting a key keeps its place, a new key goes to the end, and
    deleting a key closes the gap. */
module Dicts {
  import opened Wrappers

  type Dict<K, V> = seq<(K, V)>

  /** The keys in iteration order. */
  function Keys<K, V>(d: Dict<K, V>): (ks: seq<K>)
    ensures |ks| == |d|
    ensures forall i :: 0 <= i < |d| ==> ks[i] == d[i].0
  {
    seq(|d|, i requires 0 <= i < |d| => d[i].0)
  }

  /** No key occurs twice: what a Python dict guarantees by construction. */
  ghost predicate Unique<K, V>(d: Dict<K, V>) {
    forall i, j :: 0 <= i < j < |d| ==> d[i].0 != d[j].0
  }

  predicate HasKey<K(==), V>(d: Dict<K, V>, k: K) {
    k in Keys(d)
  }

  /** The position of the first entry with key `k`. */
  function Find<K(==), V>(d: Dict<K, V>, k: K): (r: Option<nat>)
    ensures r.Some? ==> r.value < |d| && d[r.value].0 == k
    ensures r.Some? ==> forall j :: 0 <= j < r.value ==> d[j].0 != k
    ensures r.None? <==> !HasKey(d, k)
  {
    if d == [] then None
    else if d[0].0 == k then Some(0)
    else
      match Find(d[1..], k)
      case None => None
      case Some(i) => Some(i + 1)
  }

  /** `d.get(k)`. */
  function Get<K(==), V>(d: Dict<K, V>, k: K): (r: Option<V>)
    ensures r.Some? <==> HasKey(d, k)
    ensures r.Some? ==> exists i :: 0 <= i < |d| && d[i] == (k, r.value)
  {
    match Find(d, k)
    case None => None
    case Some(i) => Some(d[i].1)
  }

  /** `d[k] = v`: overwrite in place, or append a new key at the end. */
  function Put<K(==,!new), V>(d: Dict<K, V>, k: K, v: V): (r: Dict<K, V>)
    ensures Get(r, k) == Some(v)
    ensures forall k' :: k' != k ==> Get(r, k') == Get(d, k')
    ensures HasKey(d, k) ==> |r| == |d| && Keys(r) == Keys(d)
    ensures !HasKey(d, k) ==> r == d + [(k, v)]
    ensures forall e :: e in r ==> e == (k, v) || e in d
    ensures Unique(d) ==> Unique(r)
  {
    match Find(d, k)
    case Some(i) =>
      var r := d[i := (k, v)];
      assert Keys(r) == Keys(d);
      ReplaceFrame(d, i, (k, v));
      r
    case None =>
      AppendFrame(d, (k, v));
      d + [(k, v)]
  }

  /** `del d[k]`, a no-op when `k` is absent. */
  function Remove<K(==,!new), V>(d: Dict<K, V>, k: K): (r: Dict<K, V>)
    ensures Unique(d) ==> !HasKey(r, k)
    ensures forall k' :: k' != k ==> Get(r, k') == Get(d, k')
    ensures forall e :: e in r ==> e in d
    ensures Unique(d) ==> Unique(r)
  {
    match Find(d, k)
    case Some(i) =>
      RemoveFrame(d, i);
      d[..i] + d[i + 1..]
    case None => d
  }

  /** `Find` returns exactly the first position holding the key. */
  lemma FindFirst<K, V>(d: Dict<K, V>, k: K, i: nat)
    requires i < |d| && d[i].0 == k
    requires forall j :: 0 <= j < i ==> d[j].0 != k
    ensures Find(d, k) == Some(i)
  {
    assert Keys(d)[i] == k;
  }

  lemma AppendFrame<K(!new), V>(d: Dict<K, V>, kv: (K, V))
    requires !HasKey(d, kv.0)
    ensures Get(d + [kv], kv.0) == Some(kv.1)
    ensures forall k' :: k' != kv.0 ==> Get(d + [kv], k') == Get(d, k')
  {
    var r := d + [kv];
    FindFirst(r, kv.0, |d|);
    forall k' | k' != kv.0
      ensures Get(r, k') == Get(d, k')
    {
      match Find(d, k')
      case Some(j) => FindFirst(r, k', j);
      case None => assert !HasKey(r, k');
    }
  }

  lemma ReplaceFrame<K(!new), V>(d: Dict<K, V>, i: nat, kv: (K, V))
    requires i < |d| && d[i].0 == kv.0
    ensures forall k' :: k' != kv.0 ==> Get(d[i := kv], k') == Get(d, k')
  {
    var r := d[i := kv];
    forall k' | k' != kv.0
      ensures Get(r, k') == Get(d, k')
    {
      match Find(d, k')
      case Some(j) => FindFirst(r, k', j);
      case None => assert Keys(r) == Keys(d);
    }
  }

  lemma RemoveFrame<K(!new), V>(d: Dict<K, V>, i: nat)
    requires i < |d|
    ensures forall k' :: k' != d[i].0 ==> Get(d[..i] + d[i + 1..], k') == Get(d, k')
  {
    var r := d[..i] + d[i + 1..];
    assert |r| == |d| - 1;
    assert forall m :: 0 <= m < i ==> r[m] == d[m];
    assert forall m :: i <= m < |r| ==> r[m] == d[m + 1];
    forall k' | k' != d[i].0
      ensures Get(r, k') == Get(d, k')
    {
      RemoveKey(d, i, r, k');
    }
  }

  lemma RemoveKey<K, V>(d: Dict<K, V>, i: nat, r: Dict<K, V>, k: K)
    requires i < |d| && |r| == |d| - 1 && k != d[i].0
    requires forall m :: 0 <= m < i ==> r[m] == d[m]
    requires forall m :: i <= m < |r| ==> r[m] == d[m + 1]
    ensures Get(r, k) == Get(d, k)
  {
    match Find(d, k)
    case Some(j) =>
      if j < i {
        FindFirst(r, k, j);
      } else {
        assert r[j - 1] == d[j];
        FindFirst(r, k, j - 1);
      }
    case None =>
      assert forall m :: 0 <= m < |r| ==> r[m].0 != k by {
        assert forall m :: 0 <= m < |d| ==> d[m].0 != k;
      }
      assert !HasKey(r, k);
  }

  /** Lookup depends on the keys alone, not on the values. */
  lemma {:induction false} SameKeysFind<K, V, W>(d: Dict<K, V>, e: Dict<K, W>, k: K)
    requires Keys(d) == Keys(e)
    ensures Find(d, k) == Find(e, k)
  {
    if d != [] {
      assert Keys(d[1..]) == Keys(e)[1..];
      SameKeysFind(d[1..], e[1..], k);
    }
  }

  /** The sum of `f` over the values, in iteration order. */
  function SumValues<K, V>(d: Dict<K, V>, f: V -> real): real {
    if d == [] then 0.0 else f(d[0].1) + SumValues(d[1..], f)
  }

  lemma {:induction false} SumAppend<K, V>(d: Dict<K, V>, kv: (K, V), f: V -> real)
    ensures SumValues(d + [kv], f) == SumValues(d, f) + f(kv.1)
  {
    if d != [] {
      assert (d + [kv])[1..] == d[1..] + [kv];
      SumAppend(d[1..], kv, f);
    }
  }

  lemma {:induction false} SumReplaceAt<K, V>(d: Dict<K, V>, i: nat, kv: (K, V), f: V -> real)
    requires i < |d|
    ensures SumValues(d[i := kv], f) == SumValues(d, f) - f(d[i].1) + f(kv.1)
  {
    if i > 0 {
      assert d[i := kv][1..] == d[1..][i - 1 := kv];
      SumReplaceAt(d[1..], i - 1, kv, f);
    }
  }

  lemma {:induction false} SumRemoveAt<K, V>(d: Dict<K, V>, i: nat, f: V -> real)
    requires i < |d|
    ensures SumValues(d[..i] + d[i + 1..], f) == SumValues(d, f) - f(d[i].1)
  {
    if i == 0 {
      assert d[..0] + d[1..] == d[1..];
    } else {
      assert (d[..i] + d[i + 1..])[1..] == d[1..][..i - 1] + d[1..][i..];
      SumRemoveAt(d[1..], i - 1, f);
    }
  }

  /** Writing a key changes the sum by the difference between the new value
      and the old one (or adds the new value when the key was absent). */
  lemma SumPut<K(!new), V>(d: Dict<K, V>, k: K, v: V, f: V -> real)
    ensures Get(d, k).Some? ==> SumValues(Put(d, k, v), f) == SumValues(d, f) - f(Get(d, k).value) + f(v)
    ensures Get(d, k).None? ==> SumValues(Put(d, k, v), f) == SumValues(d, f) + f(v)
  {
    match Find(d, k)
    case Some(i) => SumReplaceAt(d, i, (k, v), f);
    case None => SumAppend(d, (k, v), f);
  }

  /** Deleting a key subtracts its value from the sum. */
  lemma SumRemove<K(!new), V>(d: Dict<K, V>, k: K, f: V -> real)
    ensures Get(d, k).Some? ==> SumValues(Remove(d, k), f) == SumValues(d, f) - f(Get(d, k).value)
    ensures Get(d, k).None? ==> SumValues(Remove(d, k), f) == SumValues(d, f)
  {
    match Find(d, k)
    case Some(i) => SumRemoveAt(d, i, f);
    case None =>
  }
}

=== FILE: engine.dfy ===
/** The backtest engine: it groups the loaded bars by timestamp, walks the
    timestamps in ascending order, and at each one marks the ledger to
    market, feeds every bar to the broker and then to the strategy, and
    finally hands the fills of that timestamp to the strategy. The
    strategy's callbacks are recorded as a call trace. */
module Backtest {
  import opened Wrappers
  import opened Types
  import opened Dicts
  import opened Ledger
  import opened Execution

  /** Bars grouped by timestamp, then by symbol, in first-seen order. */
  type BarsByTime = Dict<Timestamp, Dict<Symbol, Bar>>

  /** `bars_by_time[ts][symbol]`, if present. */
  function BarAt(byTime: BarsByTime, ts: Timestamp, symbol: Symbol): Option<Bar> {
    match Get(byTime, ts)
    case None => None
    case Some(bars) => Get(bars, symbol)
  }

  /** Every timestamp present carries at least one bar. */
  ghost predicate Covered(byTime: BarsByTime) {
    forall ts :: HasKey(byTime, ts) ==> exists symbol :: BarAt(byTime, ts, symbol).Some?
  }

  /** The last bar of a list stamped `ts`: later bars overwrite earlier ones
      in the grouping. */
  function LastAt(bars: seq<Bar>, ts: Timestamp): (r: Option<Bar>)
    ensures r.Some? ==> r.value in bars && r.value.timestamp == ts
    ensures r.None? <==> forall bar :: bar in bars ==> bar.timestamp != ts
  {
    if bars == [] then None
    else
      assert forall bar :: bar in bars[1..] ==> bar in bars;
      match LastAt(bars[1..], ts)
      case Some(bar) => Some(bar)
      case None => if bars[0].timestamp == ts then Some(bars[0]) else None
  }

  /** `bars_by_time.setdefault(bar.timestamp, {})[symbol] = bar`. */
  function AddBar(acc: BarsByTime, symbol: Symbol, bar: Bar): (r: BarsByTime)
    ensures forall ts, s :: BarAt(r, ts, s) == if ts == bar.timestamp && s == symbol then Some(bar) else BarAt(acc, ts, s)
    ensures forall ts :: HasKey(r, ts) <==> HasKey(acc, ts) || ts == bar.timestamp
    ensures Unique(acc) ==> Unique(r)
    ensures Covered(acc) ==> Covered(r)
  {
    var inner := Slot(acc, bar.timestamp);
    var r := Put(acc, bar.timestamp, Put(inner, symbol, bar));
    AddBarCovers(acc, symbol, bar, r);
    r
  }

  lemma AddBarCovers(acc: BarsByTime, symbol: Symbol, bar: Bar, r: BarsByTime)
    requires forall ts, s :: BarAt(r, ts, s) == if ts == bar.timestamp && s == symbol then Some(bar) else BarAt(acc, ts, s)
    requires Get(r, bar.timestamp).Some?
    requires forall ts :: ts != bar.timestamp ==> Get(r, ts) == Get(acc, ts)
    ensures forall ts :: HasKey(r, ts) <==> HasKey(acc, ts) || ts == bar.timestamp
    ensures Covered(acc) ==> Covered(r)
  {
    forall ts
      ensures HasKey(r, ts) <==> HasKey(acc, ts) || ts == bar.timestamp
    {
      if ts != bar.timestamp {
        assert Get(r, ts).Some? <==> Get(acc, ts).Some?;
      }
    }
    if Covered(acc) {
      forall ts | HasKey(r, ts)
        ensures exists s :: BarAt(r, ts, s).Some?
      {
        if ts == bar.timestamp {
          assert BarAt(r, ts, symbol).Some?;
        } else {
          assert HasKey(acc, ts);
          var s :| BarAt(acc, ts, s).Some?;
          assert BarAt(r, ts, s).Some?;
        }
      }
    }
  }

  /** Groups one symbol's bars, in list order. */
  function AddBars(acc: BarsByTime, symbol: Symbol, bars: seq<Bar>): (r: BarsByTime)
    ensures forall ts, s ::
              BarAt(r, ts, s) == if s == symbol && LastAt(bars, ts).Some? then LastAt(bars, ts) else BarAt(acc, ts, s)
    ensures Unique(acc) ==> Unique(r)
    ensures Covered(acc) ==> Covered(r)
    ensures bars == [] ==> r == acc
    decreases |bars|
  {
    if bars == [] then acc
    else AddBars(AddBar(acc, symbol, bars[0]), symbol, bars[1..])
  }

  /** The bar list loaded for `symbol`, and its last bar stamped `ts`. */
  function Loaded(src: Dict<Symbol, seq<Bar>>, symbol: Symbol, ts: Timestamp): Option<Bar> {
    match Get(src, symbol)
    case None => None
    case Some(bars) => LastAt(bars, ts)
  }

  /** Groups every symbol's bars, symbols in dictionary order. */
  function LoadAll(acc: BarsByTime, src: Dict<Symbol, seq<Bar>>): (r: BarsByTime)
    requires Unique(src)
    ensures forall ts, s ::
              BarAt(r, ts, s) == if Loaded(src, s, ts).Some? then Loaded(src, s, ts) else BarAt(acc, ts, s)
    ensures Unique(acc) ==> Unique(r)
    ensures Covered(acc) ==> Covered(r)
    ensures (forall i :: 0 <= i < |src| ==> src[i].1 == []) ==> r == acc
    decreases |src|
  {
    if src == [] then acc
    else
      var rest := LoadAll(AddBars(acc, src[0].0, src[0].1), src[1..]);
      assert forall s :: s != src[0].0 ==> Get(src, s) == Get(src[1..], s);
      assert !HasKey(src[1..], src[0].0);
      rest
  }

  /** `load_data`: after it, `bars_by_time[ts][symbol]` is the last bar of
      `symbol` stamped `ts`, and nothing else is stored; a timestamp is
      present exactly when some bar carries it. */
  function LoadData(src: Dict<Symbol, seq<Bar>>): (r: BarsByTime)
    requires Unique(src)
    ensures forall ts, s :: BarAt(r, ts, s) == Loaded(src, s, ts)
    ensures Unique(r) && Covered(r)
    ensures r == [] <==> forall i :: 0 <= i < |src| ==> src[i].1 == []
    ensures forall ts :: Keys(Slot(r, ts)) == SymbolsAt(src, ts)
  {
    var r := LoadAll([], src);
    SomethingLoaded(src, r);
    assert forall ts :: Keys(Slot(r, ts)) == SymbolsAt(src, ts) by {
      forall ts
        ensures Keys(Slot(r, ts)) == SymbolsAt(src, ts)
      {
        LoadAllSlotKeys([], src, ts);
      }
    }
    r
  }

  /** The bars stored under `ts`, by symbol; empty when `ts` is absent. */
  function Slot(byTime: BarsByTime, ts: Timestamp): Dict<Symbol, Bar> {
    Get(byTime, ts).GetOr([])
  }

  /** The symbols of `src`, in its order, whose bar list has a bar stamped
      `ts`. */
  function SymbolsAt(src: Dict<Symbol, seq<Bar>>, ts: Timestamp): seq<Symbol> {
    if src == [] then []
    else (if LastAt(src[0].1, ts).Some? then [src[0].0] else []) + SymbolsAt(src[1..], ts)
  }

  /** Adding a bar appends its symbol to the keys of its timestamp's slot,
      unless the symbol is there already; other slots keep their keys. */
  lemma AddBarSlotKeys(acc: BarsByTime, symbol: Symbol, bar: Bar, ts: Timestamp)
    ensures Keys(Slot(AddBar(acc, symbol, bar), ts)) ==
      if ts == bar.timestamp && !HasKey(Slot(acc, ts), symbol) then Keys(Slot(acc, ts)) + [symbol]
      else Keys(Slot(acc, ts))
  {
    var inner := Slot(acc, bar.timestamp);
    if ts == bar.timestamp && !HasKey(inner, symbol) {
      assert Keys(inner + [(symbol, bar)]) == Keys(inner) + [symbol];
    }
  }

  /** Grouping one symbol's bars adds that symbol once to each slot it has a
      bar in, at the end. */
  lemma {:induction false} AddBarsSlotKeys(acc: BarsByTime, symbol: Symbol, bars: seq<Bar>, ts: Timestamp)
    ensures Keys(Slot(AddBars(acc, symbol, bars), ts)) ==
      Keys(Slot(acc, ts)) + (if LastAt(bars, ts).Some? && !HasKey(Slot(acc, ts), symbol) then [symbol] else [])
    decreases |bars|
  {
    if bars != [] {
      var acc1 := AddBar(acc, symbol, bars[0]);
      AddBarSlotKeys(acc, symbol, bars[0], ts);
      AddBarsSlotKeys(acc1, symbol, bars[1..], ts);
      assert bars[0] in bars && forall bar :: bar in bars[1..] ==> bar in bars;
      if ts != bars[0].timestamp {
        assert LastAt(bars, ts).Some? <==> LastAt(bars[1..], ts).Some?;
      }
    }
  }

  /** Grouping every symbol's bars appends, to each slot, the symbols having
      a bar there, in dictionary order. */
  lemma {:induction false} LoadAllSlotKeys(acc: BarsByTime, src: Dict<Symbol, seq<Bar>>, ts: Timestamp)
    requires Unique(src)
    requires forall i :: 0 <= i < |src| ==> !HasKey(Slot(acc, ts), src[i].0)
    ensures Keys(Slot(LoadAll(acc, src), ts)) == Keys(Slot(acc, ts)) + SymbolsAt(src, ts)
    decreases |src|
  {
    if src != [] {
      var acc1 := AddBars(acc, src[0].0, src[0].1);
      var k0 := Keys(Slot(acc, ts));
      var added := if LastAt(src[0].1, ts).Some? then [src[0].0] else [];
      assert Keys(Slot(acc1, ts)) == k0 + added by {
        AddBarsSlotKeys(acc, src[0].0, src[0].1, ts);
        assert !HasKey(Slot(acc, ts), src[0].0);
      }
      assert forall i :: 0 <= i < |src[1..]| ==> !HasKey(Slot(acc1, ts), src[1..][i].0) by {
        StillFresh(k0, added, src);
      }
      assert Unique(src[1..]);
      LoadAllSlotKeys(acc1, src[1..], ts);
      assert LoadAll(acc, src) == LoadAll(acc1, src[1..]);
      var rest := SymbolsAt(src[1..], ts);
      assert SymbolsAt(src, ts) == added + rest;
      Associative(k0, added, rest);
    }
  }

  lemma Associative<T>(a: seq<T>, b: seq<T>, c: seq<T>)
    ensures a + b + c == a + (b + c)
  {
  }

  /** The symbols after the first are neither among the old keys nor the
      first symbol. */
  lemma StillFresh(keys: seq<Symbol>, added: seq<Symbol>, src: Dict<Symbol, seq<Bar>>)
    requires src != [] && Unique(src) && (added == [] || added == [src[0].0])
    requires forall i :: 0 <= i < |src| ==> src[i].0 !in keys
    ensures forall i :: 0 <= i < |src[1..]| ==> src[1..][i].0 !in keys + added
  {
    forall i | 0 <= i < |src[1..]|
      ensures src[1..][i].0 !in keys + added
    {
      assert src[1..][i] == src[i + 1];
    }
  }

  /** A symbol with a bar leaves a non-empty grouping. */
  lemma SomethingLoaded(src: Dict<Symbol, seq<Bar>>, r: BarsByTime)
    requires Unique(src)
    requires forall ts, s :: BarAt(r, ts, s) == Loaded(src, s, ts)
    ensures (exists i :: 0 <= i < |src| && src[i].1 != []) ==> r != []
  {
    if i :| 0 <= i < |src| && src[i].1 != [] {
      var bar := src[i].1[0];
      FindFirstKey(src, i);
      assert LastAt(src[i].1, bar.timestamp).Some?;
      assert BarAt(r, bar.timestamp, src[i].0).Some?;
    }
  }

  /** In a dictionary with distinct keys, each entry is found under its key. */
  lemma FindFirstKey<K, V>(d: Dict<K, V>, i: nat)
    requires Unique(d) && i < |d|
    ensures Get(d, d[i].0) == Some(d[i].1)
  {
    FindFirst(d, d[i].0, i);
  }

  ghost predicate Increasing(ts: seq<Timestamp>) {
    forall i, j :: 0 <= i < j < |ts| ==> ts[i] < ts[j]
  }

  ghost predicate NoRepeats(ts: seq<Timestamp>) {
    forall i, j :: 0 <= i < j < |ts| ==> ts[i] != ts[j]
  }

  /** Inserts a new timestamp into an ascending list. */
  function Insert(x: Timestamp, s: seq<Timestamp>): (r: seq<Timestamp>)
    requires Increasing(s) && x !in s
    ensures Increasing(r)
    ensures forall y :: y in r <==> y == x || y in s
    ensures |r| == |s| + 1
  {
    if s == [] then [x]
    else if x < s[0] then [x] + s
    else
      assert forall y :: y in s[1..] ==> y in s && s[0] < y;
      var rest := Insert(x, s[1..]);
      assert forall k :: 0 <= k < |rest| ==> s[0] < rest[k] by {
        forall k | 0 <= k < |rest| ensures s[0] < rest[k] {
          assert rest[k] in rest;
        }
      }
      [s[0]] + rest
  }

  /** `sorted(timestamps)` for distinct timestamps: the same timestamps,
      each once, in strictly ascending order. */
  function SortTimes(ts: seq<Timestamp>): (r: seq<Timestamp>)
    requires NoRepeats(ts)
    ensures Increasing(r)
    ensures forall y :: y in r <==> y in ts
    ensures |r| == |ts|
  {
    if ts == [] then []
    else
      var init := ts[..|ts| - 1];
      assert forall y :: y in init ==> y in ts;
      assert ts == init + [ts[|ts| - 1]];
      Insert(ts[|ts| - 1], SortTimes(init))
  }

  /** The calls the engine makes, in order: the strategy's callbacks, the
      marking of the ledger to market, and the broker's bar processing. */
  datatype Call =
    | OnStart
    | MarkToMarket(timestamp: Timestamp)
    | BrokerBar(symbol: Symbol, timestamp: Timestamp)
    | OnBar(symbol: Symbol, bar: Bar)
    | OnFill(event: FillEvent)
    | OnStop

  /** A strategy: one that never trades, or one that answers each bar with
      orders to submit, decided from the bar and the broker's state. */
  datatype Strategy =
    | Passive
    | Reactive(decide: (BacktestBroker, Bar) -> seq<Order>)

  /** The strategy only builds orders the constructor accepts, with a
      positive size. */
  ghost predicate Sound(strategy: Strategy) {
    strategy.Reactive? ==>
      forall b, bar, o :: o in strategy.decide(b, bar) ==> o.WellFormed() && o.quantity > 0
  }

  function Decide(strategy: Strategy, b: BacktestBroker, bar: Bar): seq<Order> {
    match strategy
    case Passive => []
    case Reactive(decide) => decide(b, bar)
  }

  /** The engine's state between calls: the broker (which holds the ledger)
      and the calls made so far. */
  datatype Sim = Sim(broker: BacktestBroker, trace: seq<Call>)

  /** Submits a list of orders, in order, all stamped `now`. */
  function SubmitAll(b: BacktestBroker, orders: seq<Order>, now: Timestamp): (r: BacktestBroker)
    ensures r.portfolio == b.portfolio && r.fillEvents == b.fillEvents && r.costs == b.costs
    ensures |r.openIds| == |b.openIds| + |orders| && r.openIds[..|b.openIds|] == b.openIds
    ensures r.nextId >= b.nextId
    ensures Execution.Valid(b) && (forall o :: o in orders ==> o.WellFormed() && o.quantity > 0) ==> Execution.Valid(r)
    decreases |orders|
  {
    if orders == [] then b
    else
      var next := SubmitOrder(b, orders[0], now).0;
      var r := SubmitAll(next, orders[1..], now);
      assert r.openIds[..|b.openIds|] == r.openIds[..|next.openIds|][..|b.openIds|];
      assert forall o :: o in orders[1..] ==> o in orders;
      r
  }

  /** Submitting leaves the orders stored before as they were. */
  lemma {:induction false} SubmitAllKeeps(b: BacktestBroker, orders: seq<Order>, now: Timestamp)
    requires forall id :: id in b.orders ==> id < b.nextId
    ensures var r := SubmitAll(b, orders, now);
      forall id :: id in b.orders ==> id in r.orders && r.orders[id] == b.orders[id]
    decreases |orders|
  {
    if orders != [] {
      var next := SubmitOrder(b, orders[0], now).0;
      assert forall id :: id in next.orders ==> id < next.nextId;
      SubmitAllKeeps(next, orders[1..], now);
    }
  }

  /** The `i`-th submitted order joins the open list at slot
      `|b.openIds| + i`, under a fresh id, carrying what was asked for and
      stamped `now`. */
  lemma {:induction false} SubmitAllPlaces(b: BacktestBroker, orders: seq<Order>, now: Timestamp, i: nat)
    requires forall id :: id in b.orders ==> id < b.nextId
    requires i < |orders|
    ensures Placed(SubmitAll(b, orders, now), |b.openIds| + i, b.nextId, orders[i], now)
    decreases i
  {
    var next := SubmitOrder(b, orders[0], now).0;
    var r := SubmitAll(next, orders[1..], now);
    assert r == SubmitAll(b, orders, now);
    assert forall id :: id in next.orders ==> id < next.nextId;
    if i == 0 {
      assert Placed(next, |b.openIds|, b.nextId, orders[0], now);
      SubmitAllKeeps(next, orders[1..], now);
      assert r.openIds[|b.openIds|] == r.openIds[..|next.openIds|][|b.openIds|];
    } else {
      SubmitAllPlaces(next, orders[1..], now, i - 1);
      assert orders[i] == orders[1..][i - 1];
    }
  }

  /** Slot `k` of the open list holds an order submitted at `now`, under an
      id no smaller than `from`, with the instructions of `order`. */
  ghost predicate Placed(b: BacktestBroker, k: nat, from: OrderId, order: Order, now: Timestamp) {
    && k < |b.openIds| && from <= b.openIds[k] && b.openIds[k] in b.orders
    && SameInstructions(b.orders[b.openIds[k]], order) && b.orders[b.openIds[k]].submittedAt == Some(now)
  }

  /** The closing price of every bar of a timestamp, by symbol. */
  function Closes(bars: Dict<Symbol, Bar>): (r: map<Symbol, real>)
    ensures forall s :: s in r <==> HasKey(bars, s)
    ensures forall s :: s in r ==> r[s] == Get(bars, s).value.close
  {
    if bars == [] then map[]
    else Closes(bars[1..])[bars[0].0 := bars[0].1.close]
  }

  /** The calls one timestamp's bars cause: for each bar in dictionary
      order, the broker sees it, then the strategy. */
  function BarCalls(bars: Dict<Symbol, Bar>, ts: Timestamp): seq<Call> {
    if bars == [] then []
    else [BrokerBar(bars[0].0, ts), OnBar(bars[0].0, bars[0].1)] + BarCalls(bars[1..], ts)
  }

  function FillCalls(events: seq<FillEvent>): (r: seq<Call>)
    ensures |r| == |events| && forall k :: 0 <= k < |r| ==> r[k] == OnFill(events[k])
  {
    seq(|events|, k requires 0 <= k < |events| => OnFill(events[k]))
  }

  /** The calls of one timestamp: the mark, the bars, the fills. */
  function Block(ts: Timestamp, bars: Dict<Symbol, Bar>, events: seq<FillEvent>): seq<Call> {
    [MarkToMarket(ts)] + BarCalls(bars, ts) + FillCalls(events)
  }

  /** The payloads `pick` selects from each call, in call order. */
  function Collect<T>(trace: seq<Call>, pick: Call -> seq<T>): seq<T> {
    if trace == [] then [] else pick(trace[0]) + Collect(trace[1..], pick)
  }

  lemma {:induction false} CollectAppend<T>(a: seq<Call>, b: seq<Call>, pick: Call -> seq<T>)
    ensures Collect(a + b, pick) == Collect(a, pick) + Collect(b, pick)
  {
    if a != [] {
      assert (a + b)[1..] == a[1..] + b;
      CollectAppend(a[1..], b, pick);
    } else {
      assert a + b == b;
    }
  }

  lemma CollectSingle<T>(c: Call, pick: Call -> seq<T>)
    ensures Collect([c], pick) == pick(c)
  {
    assert [c][1..] == [];
  }

  function MarkOf(c: Call): seq<Timestamp> {
    if c.MarkToMarket? then [c.timestamp] else []
  }

  function FillOf(c: Call): seq<FillEvent> {
    if c.OnFill? then [c.event] else []
  }

  /** The timestamps the ledger was marked at, in order. */
  function Marks(trace: seq<Call>): seq<Timestamp> {
    Collect(trace, MarkOf)
  }

  /** The fills reported to the strategy, in order. */
  function Reports(trace: seq<Call>): seq<FillEvent> {
    Collect(trace, FillOf)
  }

  /** Neither `on_start` nor `on_stop`. */
  predicate Inner(trace: seq<Call>) {
    forall c :: c in trace ==> !c.OnStart? && !c.OnStop?
  }

  /** Each bar of the timestamp is first given to the broker and then to
      the strategy, in dictionary order. */
  lemma {:induction false} BarCallsPairs(bars: Dict<Symbol, Bar>, ts: Timestamp)
    ensures |BarCalls(bars, ts)| == 2 * |bars|
    ensures forall k :: 0 <= k < |bars| ==>
              && BarCalls(bars, ts)[2 * k] == BrokerBar(bars[k].0, ts)
              && BarCalls(bars, ts)[2 * k + 1] == OnBar(bars[k].0, bars[k].1)
  {
    if bars != [] {
      BarCallsPairs(bars[1..], ts);
      var head := [BrokerBar(bars[0].0, ts), OnBar(bars[0].0, bars[0].1)];
      forall k | 1 <= k < |bars|
        ensures BarCalls(bars, ts)[2 * k] == BarCalls(bars[1..], ts)[2 * (k - 1)]
        ensures BarCalls(bars, ts)[2 * k + 1] == BarCalls(bars[1..], ts)[2 * (k - 1) + 1]
      {
      }
    }
  }

  /** A timestamp's bar calls mark nothing and report nothing. */
  lemma {:induction false} BarCallsQuiet(bars: Dict<Symbol, Bar>, ts: Timestamp)
    ensures Marks(BarCalls(bars, ts)) == [] && Reports(BarCalls(bars, ts)) == []
    ensures Inner(BarCalls(bars, ts))
  {
    if bars != [] {
      var head := [BrokerBar(bars[0].0, ts), OnBar(bars[0].0, bars[0].1)];
      BarCallsQuiet(bars[1..], ts);
      CollectAppend(head, BarCalls(bars[1..], ts), MarkOf);
      CollectAppend(head, BarCalls(bars[1..], ts), FillOf);
    }
  }

  /** Reporting a list of fills reports exactly that list and marks
      nothing. */
  lemma {:induction false} FillCallsReport(events: seq<FillEvent>)
    ensures Reports(FillCalls(events)) == events && Marks(FillCalls(events)) == []
    ensures Inner(FillCalls(events))
  {
    if events != [] {
      assert FillCalls(events) == [OnFill(events[0])] + FillCalls(events[1..]);
      FillCallsReport(events[1..]);
      CollectAppend([OnFill(events[0])], FillCalls(events[1..]), MarkOf);
      CollectAppend([OnFill(events[0])], FillCalls(events[1..]), FillOf);
    }
  }

  /** The trade log and the fill queue grow together: each list keeps its
      old entries, and the new trades record the new fills one to one. */
  predicate Grows(trades: seq<TradeRecord>, fills: seq<FillEvent>,
                  trades': seq<TradeRecord>, fills': seq<FillEvent>) {
    && |trades| <= |trades'| && trades'[..|trades|] == trades
    && |fills| <= |fills'| && fills'[..|fills|] == fills
    && AllRecorded(trades'[|trades|..], fills'[|fills|..])
  }

  lemma RecordedConcat(t1: seq<TradeRecord>, e1: seq<FillEvent>, t2: seq<TradeRecord>, e2: seq<FillEvent>)
    requires AllRecorded(t1, e1) && AllRecorded(t2, e2)
    ensures AllRecorded(t1 + t2, e1 + e2)
  {
    assert forall k :: |t1| <= k < |t1| + |t2| ==> (t1 + t2)[k] == t2[k - |t1|] && (e1 + e2)[k] == e2[k - |e1|];
  }

  lemma GrowsTrans(t1: seq<TradeRecord>, e1: seq<FillEvent>, t2: seq<TradeRecord>, e2: seq<FillEvent>,
                   t3: seq<TradeRecord>, e3: seq<FillEvent>)
    requires Grows(t1, e1, t2, e2) && Grows(t2, e2, t3, e3)
    ensures Grows(t1, e1, t3, e3)
  {
    assert t3[..|t1|] == t3[..|t2|][..|t1|];
    assert e3[..|e1|] == e3[..|e2|][..|e1|];
    assert t3[|t1|..] == t2[|t1|..] + t3[|t2|..];
    assert e3[|e1|..] == e2[|e1|..] + e3[|e2|..];
    RecordedConcat(t2[|t1|..], e2[|e1|..], t3[|t2|..], e3[|e2|..]);
  }

  /** The broker's view of a bar of `symbol` at `ts`. */
  function BarTick(symbol: Symbol, bar: Bar, ts: Timestamp): Tick {
    Tick(symbol, bar.open, bar.high, bar.low, bar.close, ts)
  }

  /** One bar: the broker fills what the bar reaches, then the strategy
      sees the bar and submits its orders, stamped with the bar's time. */
  function BarStep(strategy: Strategy, b: BacktestBroker, symbol: Symbol, bar: Bar, ts: Timestamp): (r: BacktestBroker)
    requires Execution.Valid(b) && Sound(strategy)
    ensures Execution.Valid(r)
    ensures r.portfolio.equityHistory == b.portfolio.equityHistory
    ensures Grows(b.portfolio.tradeHistory, b.fillEvents, r.portfolio.tradeHistory, r.fillEvents)
  {
    Respond(strategy, ProcessBar(b, BarTick(symbol, bar, ts)), bar, ts)
  }

  /** The strategy's answer to a bar, given the broker it is shown: the
      orders it decides on, submitted at the bar's time. */
  function Respond(strategy: Strategy, shown: BacktestBroker, bar: Bar, ts: Timestamp): (r: BacktestBroker)
    requires Execution.Valid(shown) && Sound(strategy)
    ensures Execution.Valid(r)
    ensures r.portfolio == shown.portfolio && r.fillEvents == shown.fillEvents
    ensures |r.openIds| == |shown.openIds| + |Decide(strategy, shown, bar)|
    ensures r.openIds[..|shown.openIds|] == shown.openIds
  {
    SubmitAll(shown, Decide(strategy, shown, bar), ts)
  }

  /** The `i`-th order of the answer is placed at slot
      `|shown.openIds| + i`. */
  lemma RespondPlaces(strategy: Strategy, shown: BacktestBroker, bar: Bar, ts: Timestamp, i: nat)
    requires Execution.Valid(shown) && Sound(strategy)
    requires i < |Decide(strategy, shown, bar)|
    ensures Placed(Respond(strategy, shown, bar, ts), |shown.openIds| + i, shown.nextId, Decide(strategy, shown, bar)[i], ts)
  {
    SubmitAllPlaces(shown, Decide(strategy, shown, bar), ts, i);
  }

  /** The broker acts on a bar before the strategy does: the bar fills only
      orders that were open before it, and the orders the strategy submits
      in answer leave the fills and the ledger alone. */
  lemma BarStepFillsFirst(strategy: Strategy, b: BacktestBroker, symbol: Symbol, bar: Bar, ts: Timestamp)
    requires Execution.Valid(b) && Sound(strategy)
    ensures var t := BarTick(symbol, bar, ts);
      var shown := ProcessBar(b, t);
      var r := BarStep(strategy, b, symbol, bar, ts);
      && r.fillEvents == b.fillEvents + Events(b.costs, b.orders, b.openIds, t)
      && r.portfolio == ApplyFills(b.portfolio, Events(b.costs, b.orders, b.openIds, t))
      && |r.openIds| == |shown.openIds| + |Decide(strategy, shown, bar)|
      && r.openIds[..|shown.openIds|] == shown.openIds
  {
  }

  /** The strategy is shown the broker with the bar's fills booked, and the
      `i`-th order it decides on is placed after the orders that bar left
      open, under a fresh id and stamped with the bar's time; being open
      after the bar, it is not filled on it. */
  lemma BarStepDecidesAfter(strategy: Strategy, b: BacktestBroker, symbol: Symbol, bar: Bar, ts: Timestamp,
                             shown: BacktestBroker, i: nat)
    requires Execution.Valid(b) && Sound(strategy)
    requires shown == ProcessBar(b, BarTick(symbol, bar, ts))
    requires i < |Decide(strategy, shown, bar)|
    ensures Placed(BarStep(strategy, b, symbol, bar, ts), |shown.openIds| + i, b.nextId, Decide(strategy, shown, bar)[i], ts)
  {
    RespondPlaces(strategy, shown, bar, ts, i);
  }

  /** The bars of one timestamp, in dictionary order. */
  function RunBars(strategy: Strategy, b: BacktestBroker, bars: Dict<Symbol, Bar>, ts: Timestamp): (r: BacktestBroker)
    requires Execution.Valid(b) && Sound(strategy)
    ensures Execution.Valid(r)
    ensures r.portfolio.equityHistory == b.portfolio.equityHistory
    ensures Grows(b.portfolio.tradeHistory, b.fillEvents, r.portfolio.tradeHistory, r.fillEvents)
    decreases |bars|
  {
    if bars == [] then
      assert b.portfolio.tradeHistory[|b.portfolio.tradeHistory|..] == [];
      assert b.fillEvents[|b.fillEvents|..] == [];
      b
    else
      var next := BarStep(strategy, b, bars[0].0, bars[0].1, ts);
      var r := RunBars(strategy, next, bars[1..], ts);
      GrowsTrans(b.portfolio.tradeHistory, b.fillEvents, next.portfolio.tradeHistory, next.fillEvents,
                 r.portfolio.tradeHistory, r.fillEvents);
      r
  }

  /** The ledger marked to the closes of one timestamp, with its equity
      sample taken at that timestamp. */
  function Marked(b: BacktestBroker, ts: Timestamp, bars: Dict<Symbol, Bar>): (r: BacktestBroker)
    requires Execution.Valid(b)
    ensures Execution.Valid(r)
    ensures r.fillEvents == b.fillEvents && r.portfolio.tradeHistory == b.portfolio.tradeHistory
    ensures |r.portfolio.equityHistory| == |b.portfolio.equityHistory| + 1
    ensures r.portfolio.equityHistory[..|b.portfolio.equityHistory|] == b.portfolio.equityHistory
    ensures r.portfolio.equityHistory[|b.portfolio.equityHistory|].timestamp == ts
  {
    b.(portfolio := UpdatePositionPrices(b.portfolio, Closes(bars), Some(ts)))
  }

  /** The calls one timestamp makes: mark the ledger, run the bars, then
      hand each fill of the timestamp to the strategy. */
  function RunTimestamp(strategy: Strategy, sim: Sim, ts: Timestamp, bars: Dict<Symbol, Bar>): (r: Sim)
    requires Execution.Valid(sim.broker) && Sound(strategy)
    ensures Execution.Valid(r.broker) && r.broker.fillEvents == []
  {
    var done := RunBars(strategy, Marked(sim.broker, ts, bars), bars, ts);
    var (b, events) := GetFillEvents(done);
    Sim(b, sim.trace + Block(ts, bars, events))
  }

  /** The timestamps, in the order given. */
  function RunTimes(strategy: Strategy, sim: Sim, byTime: BarsByTime, times: seq<Timestamp>): (r: Sim)
    requires Execution.Valid(sim.broker) && Sound(strategy)
    requires forall t :: t in times ==> HasKey(byTime, t)
    ensures Execution.Valid(r.broker)
    decreases |times|
  {
    if times == [] then sim
    else
      var next := RunTimestamp(strategy, sim, times[0], Get(byTime, times[0]).value);
      assert forall t :: t in times[1..] ==> t in times;
      RunTimes(strategy, next, byTime, times[1..])
  }

  /** The timestamps of an equity curve. */
  function EquityTimes(curve: seq<EquitySample>): (r: seq<Timestamp>)
    ensures |r| == |curve| && forall i :: 0 <= i < |r| ==> r[i] == curve[i].timestamp
  {
    seq(|curve|, i requires 0 <= i < |curve| => curve[i].timestamp)
  }

  /** One timestamp's calls hold neither `on_start` nor `on_stop`, mark the
      ledger once at `ts`, and report the given fills in order. */
  lemma BlockShape(ts: Timestamp, bars: Dict<Symbol, Bar>, events: seq<FillEvent>)
    ensures Inner(Block(ts, bars, events))
    ensures Marks(Block(ts, bars, events)) == [ts]
    ensures Reports(Block(ts, bars, events)) == events
  {
    var head := [MarkToMarket(ts)] + BarCalls(bars, ts);
    BarCallsQuiet(bars, ts);
    FillCallsReport(events);
    CollectSingle(MarkToMarket(ts), MarkOf);
    CollectSingle(MarkToMarket(ts), FillOf);
    CollectAppend([MarkToMarket(ts)], BarCalls(bars, ts), MarkOf);
    CollectAppend(head, FillCalls(events), MarkOf);
    CollectAppend([MarkToMarket(ts)], BarCalls(bars, ts), FillOf);
    CollectAppend(head, FillCalls(events), FillOf);
  }

  /** Appending a block to a trace keeps the trace as a prefix. */
  lemma AppendBlock(trace: seq<Call>, ts: Timestamp, bars: Dict<Symbol, Bar>, events: seq<FillEvent>)
    ensures var t := trace + Block(ts, bars, events);
      && |trace| < |t| && t[..|trace|] == trace && Inner(t[|trace|..])
      && Marks(t) == Marks(trace) + [ts] && Reports(t) == Reports(trace) + events
  {
    var t := trace + Block(ts, bars, events);
    BlockShape(ts, bars, events);
    CollectAppend(trace, Block(ts, bars, events), MarkOf);
    CollectAppend(trace, Block(ts, bars, events), FillOf);
    assert t[|trace|..] == Block(ts, bars, events);
  }

  /** A timestamp appends one block of calls that holds neither `on_start`
      nor `on_stop`, and marks the ledger exactly once, at its own time. */
  lemma RunTimestampCalls(strategy: Strategy, sim: Sim, ts: Timestamp, bars: Dict<Symbol, Bar>)
    requires Execution.Valid(sim.broker) && Sound(strategy)
    ensures var r := RunTimestamp(strategy, sim, ts, bars);
      && |sim.trace| < |r.trace| && r.trace[..|sim.trace|] == sim.trace
      && Inner(r.trace[|sim.trace|..])
      && Marks(r.trace) == Marks(sim.trace) + [ts]
  {
    AppendBlock(sim.trace, ts, bars, RunBars(strategy, Marked(sim.broker, ts, bars), bars, ts).fillEvents);
  }

  /** A timestamp adds one equity sample, taken at that timestamp. */
  lemma RunTimestampEquity(strategy: Strategy, sim: Sim, ts: Timestamp, bars: Dict<Symbol, Bar>)
    requires Execution.Valid(sim.broker) && Sound(strategy)
    ensures EquityTimes(RunTimestamp(strategy, sim, ts, bars).broker.portfolio.equityHistory)
         == EquityTimes(sim.broker.portfolio.equityHistory) + [ts]
  {
  }

  /** The ledger is marked before any bar of the timestamp is processed: the
      sample a timestamp appends is the portfolio value at that
      timestamp's closes, before any of its fills. */
  lemma RunTimestampMarksFirst(strategy: Strategy, sim: Sim, ts: Timestamp, bars: Dict<Symbol, Bar>)
    requires Execution.Valid(sim.broker) && Sound(strategy)
    ensures var h := RunTimestamp(strategy, sim, ts, bars).broker.portfolio.equityHistory;
      var n := |sim.broker.portfolio.equityHistory|;
      && |h| == n + 1 && h[..n] == sim.broker.portfolio.equityHistory
      && h[n] == EquitySample(ts, PortfolioValue(UpdatePositionPrices(sim.broker.portfolio, Closes(bars), None)))
  {
  }

  /** Trades that record the reports so far, extended by trades that record
      a list of new fills, record the reports followed by those fills. */
  lemma RecordedAfter(before: seq<TradeRecord>, after: seq<TradeRecord>, reports: seq<FillEvent>,
                      fills: seq<FillEvent>)
    requires AllRecorded(before, reports) && Grows(before, [], after, fills)
    ensures AllRecorded(after, reports + fills)
  {
    assert fills[0..] == fills;
    assert after == before + after[|before|..];
    RecordedConcat(before, reports, after[|before|..], fills);
  }

  /** When the queue starts empty, the fills reported during a timestamp
      are exactly the fills booked during it, in the same order. */
  lemma RunTimestampRecords(strategy: Strategy, sim: Sim, ts: Timestamp, bars: Dict<Symbol, Bar>)
    requires Execution.Valid(sim.broker) && Sound(strategy)
    requires sim.broker.fillEvents == []
    requires AllRecorded(sim.broker.portfolio.tradeHistory, Reports(sim.trace))
    ensures var r := RunTimestamp(strategy, sim, ts, bars);
      AllRecorded(r.broker.portfolio.tradeHistory, Reports(r.trace))
  {
    var done := RunBars(strategy, Marked(sim.broker, ts, bars), bars, ts);
    AppendBlock(sim.trace, ts, bars, done.fillEvents);
    RecordedAfter(sim.broker.portfolio.tradeHistory, done.portfolio.tradeHistory, Reports(sim.trace), done.fillEvents);
  }

  /** Driving the strategy through one bar keeps the ledger's books. */
  lemma BarStepKeepsBooks(strategy: Strategy, b: BacktestBroker, symbol: Symbol, bar: Bar, ts: Timestamp)
    requires Execution.Valid(b) && Sound(strategy) && Ledger.Valid(b.portfolio)
    ensures Ledger.Valid(BarStep(strategy, b, symbol, bar, ts).portfolio)
  {
    ProcessBarKeepsBooks(b, BarTick(symbol, bar, ts));
  }

  lemma {:induction false} RunBarsKeepsBooks(strategy: Strategy, b: BacktestBroker, bars: Dict<Symbol, Bar>, ts: Timestamp)
    requires Execution.Valid(b) && Sound(strategy) && Ledger.Valid(b.portfolio)
    ensures Ledger.Valid(RunBars(strategy, b, bars, ts).portfolio)
    decreases |bars|
  {
    if bars != [] {
      BarStepKeepsBooks(strategy, b, bars[0].0, bars[0].1, ts);
      RunBarsKeepsBooks(strategy, BarStep(strategy, b, bars[0].0, bars[0].1, ts), bars[1..], ts);
    }
  }

  lemma RunTimestampKeepsBooks(strategy: Strategy, sim: Sim, ts: Timestamp, bars: Dict<Symbol, Bar>)
    requires Execution.Valid(sim.broker) && Sound(strategy) && Ledger.Valid(sim.broker.portfolio)
    ensures Ledger.Valid(RunTimestamp(strategy, sim, ts, bars).broker.portfolio)
  {
    RunBarsKeepsBooks(strategy, Marked(sim.broker, ts, bars), bars, ts);
  }

  /** `t'` is `t` followed by calls that are neither `on_start` nor
      `on_stop`. */
  predicate Extends(t: seq<Call>, t': seq<Call>) {
    |t| <= |t'| && t'[..|t|] == t && Inner(t'[|t|..])
  }

  lemma ExtendsTrans(t1: seq<Call>, t2: seq<Call>, t3: seq<Call>)
    requires Extends(t1, t2) && Extends(t2, t3)
    ensures Extends(t1, t3)
  {
    assert t3[..|t1|] == t3[..|t2|][..|t1|];
    assert t3[|t1|..] == t2[|t1|..] + t3[|t2|..];
  }

  lemma ShiftOne<T>(a: seq<T>, b: seq<T>, c: seq<T>, xs: seq<T>)
    requires |xs| > 0 && b == a + [xs[0]] && c == b + xs[1..]
    ensures c == a + xs
  {
    assert xs == [xs[0]] + xs[1..];
  }

  lemma {:induction false} RunTimesCalls(strategy: Strategy, sim: Sim, byTime: BarsByTime, times: seq<Timestamp>)
    requires Execution.Valid(sim.broker) && Sound(strategy)
    requires forall t :: t in times ==> HasKey(byTime, t)
    ensures var r := RunTimes(strategy, sim, byTime, times);
      Extends(sim.trace, r.trace) && Marks(r.trace) == Marks(sim.trace) + times
    decreases |times|
  {
    var r := RunTimes(strategy, sim, byTime, times);
    if times == [] {
      assert sim.trace[|sim.trace|..] == [];
    } else {
      var bars := Get(byTime, times[0]).value;
      var next := RunTimestamp(strategy, sim, times[0], bars);
      RunTimestampCalls(strategy, sim, times[0], bars);
      assert forall t :: t in times[1..] ==> t in times;
      RunTimesCalls(strategy, next, byTime, times[1..]);
      ExtendsTrans(sim.trace, next.trace, r.trace);
      ShiftOne(Marks(sim.trace), Marks(next.trace), Marks(r.trace), times);
    }
  }

  lemma {:induction false} RunTimesEquity(strategy: Strategy, sim: Sim, byTime: BarsByTime, times: seq<Timestamp>)
    requires Execution.Valid(sim.broker) && Sound(strategy)
    requires forall t :: t in times ==> HasKey(byTime, t)
    ensures EquityTimes(RunTimes(strategy, sim, byTime, times).broker.portfolio.equityHistory)
         == EquityTimes(sim.broker.portfolio.equityHistory) + times
    decreases |times|
  {
    if times != [] {
      var bars := Get(byTime, times[0]).value;
      var next := RunTimestamp(strategy, sim, times[0], bars);
      RunTimestampEquity(strategy, sim, times[0], bars);
      assert forall t :: t in times[1..] ==> t in times;
      RunTimesEquity(strategy, next, byTime, times[1..]);
      ShiftOne(EquityTimes(sim.broker.portfolio.equityHistory), EquityTimes(next.broker.portfolio.equityHistory),
               EquityTimes(RunTimes(strategy, next, byTime, times[1..]).broker.portfolio.equityHistory), times);
    }
  }

  lemma {:induction false} RunTimesRecords(strategy: Strategy, sim: Sim, byTime: BarsByTime, times: seq<Timestamp>)
    requires Execution.Valid(sim.broker) && Sound(strategy)
    requires forall t :: t in times ==> HasKey(byTime, t)
    requires sim.broker.fillEvents == []
    requires AllRecorded(sim.broker.portfolio.tradeHistory, Reports(sim.trace))
    ensures var r := RunTimes(strategy, sim, byTime, times);
      r.broker.fillEvents == [] && AllRecorded(r.broker.portfolio.tradeHistory, Reports(r.trace))
    decreases |times|
  {
    if times != [] {
      var bars := Get(byTime, times[0]).value;
      var next := RunTimestamp(strategy, sim, times[0], bars);
      RunTimestampRecords(strategy, sim, times[0], bars);
      assert forall t :: t in times[1..] ==> t in times;
      RunTimesRecords(strategy, next, byTime, times[1..]);
    }
  }

  lemma {:induction false} RunTimesKeepsBooks(strategy: Strategy, sim: Sim, byTime: BarsByTime, times: seq<Timestamp>)
    requires Execution.Valid(sim.broker) && Sound(strategy) && Ledger.Valid(sim.broker.portfolio)
    requires forall t :: t in times ==> HasKey(byTime, t)
    ensures Ledger.Valid(RunTimes(strategy, sim, byTime, times).broker.portfolio)
    decreases |times|
  {
    if times != [] {
      var bars := Get(byTime, times[0]).value;
      RunTimestampKeepsBooks(strategy, sim, times[0], bars);
      assert forall t :: t in times[1..] ==> t in times;
      RunTimesKeepsBooks(strategy, RunTimestamp(strategy, sim, times[0], bars), byTime, times[1..]);
    }
  }

  datatype RunError = NoDataLoaded

  /** The timestamps of the grouped bars, ascending: every timestamp that
      carries a bar, each once. */
  function Timeline(byTime: BarsByTime): (r: seq<Timestamp>)
    requires Unique(byTime)
    ensures Increasing(r)
    ensures forall t :: t in r <==> HasKey(byTime, t)
  {
    SortTimes(Keys(byTime))
  }

  /** The state after `on_start`: a fresh broker on a fresh account. */
  function Start(initialCash: real, commissionPerShare: real, slippagePercent: real): (r: Sim)
    ensures Execution.Valid(r.broker) && Ledger.Valid(r.broker.portfolio)
    ensures r.broker.fillEvents == [] && r.broker.portfolio.tradeHistory == []
    ensures r.broker.portfolio.equityHistory == [] && r.broker.portfolio.cash == initialCash
    ensures r.trace == [OnStart]
  {
    Sim(NewBroker(NewPortfolio(initialCash), commissionPerShare, slippagePercent), [OnStart])
  }

  /** `run`: load and group the bars, refuse when there are none, otherwise
      call `on_start`, run every timestamp in ascending order, and call
      `on_stop`. */
  function Run(strategy: Strategy, src: Dict<Symbol, seq<Bar>>, initialCash: real,
               commissionPerShare: real, slippagePercent: real): (r: Result<Sim, RunError>)
    requires Unique(src) && Sound(strategy)
    ensures r.Failure? <==> forall i :: 0 <= i < |src| ==> src[i].1 == []
  {
    var byTime := LoadData(src);
    if byTime == [] then Failure(NoDataLoaded)
    else
      var end := RunTimes(strategy, Start(initialCash, commissionPerShare, slippagePercent), byTime, Timeline(byTime));
      Success(end.(trace := end.trace + [OnStop]))
  }

  /** `on_start` and `on_stop` mark nothing and report nothing. */
  lemma EdgesQuiet(t: seq<Call>)
    ensures Marks([OnStart]) == [] && Reports([OnStart]) == []
    ensures Marks(t + [OnStop]) == Marks(t) && Reports(t + [OnStop]) == Reports(t)
  {
    CollectSingle(OnStart, MarkOf);
    CollectSingle(OnStart, FillOf);
    CollectSingle(OnStop, MarkOf);
    CollectSingle(OnStop, FillOf);
    CollectAppend(t, [OnStop], MarkOf);
    CollectAppend(t, [OnStop], FillOf);
  }

  /** `on_start` comes first and `on_stop` last, each exactly once. */
  lemma RunCallOrder(strategy: Strategy, src: Dict<Symbol, seq<Bar>>, initialCash: real,
                     commissionPerShare: real, slippagePercent: real)
    requires Unique(src) && Sound(strategy)
    ensures var r := Run(strategy, src, initialCash, commissionPerShare, slippagePercent);
      r.Success? ==> Bracketed(r.value.trace)
  {
    var byTime := LoadData(src);
    if byTime != [] {
      var start := Start(initialCash, commissionPerShare, slippagePercent);
      RunTimesCalls(strategy, start, byTime, Timeline(byTime));
      var end := RunTimes(strategy, start, byTime, Timeline(byTime));
      Framed(end.trace);
    }
  }

  /** `on_start` first, `on_stop` last, and neither anywhere between. */
  predicate Bracketed(t: seq<Call>) {
    2 <= |t| && t[0] == OnStart && t[|t| - 1] == OnStop && Inner(t[1..|t| - 1])
  }

  /** A trace that extends `[OnStart]`, closed by `OnStop`. */
  lemma Framed(body: seq<Call>)
    requires Extends([OnStart], body)
    ensures Bracketed(body + [OnStop])
  {
    var t := body + [OnStop];
    assert t[0] == body[..1][0];
    assert t[1..|t| - 1] == body[1..];
  }

  /** The ledger is marked at every timestamp that carries a loaded bar,
      once each and in ascending order, and at no other time. */
  lemma RunMarks(strategy: Strategy, src: Dict<Symbol, seq<Bar>>, initialCash: real,
                 commissionPerShare: real, slippagePercent: real)
    requires Unique(src) && Sound(strategy)
    ensures var r := Run(strategy, src, initialCash, commissionPerShare, slippagePercent);
      r.Success? ==> Marks(r.value.trace) == Timeline(LoadData(src))
  {
    var byTime := LoadData(src);
    if byTime != [] {
      var start := Start(initialCash, commissionPerShare, slippagePercent);
      RunTimesCalls(strategy, start, byTime, Timeline(byTime));
      var end := RunTimes(strategy, start, byTime, Timeline(byTime));
      EdgesQuiet(end.trace);
    }
  }

  lemma RunVisitsTimes(strategy: Strategy, src: Dict<Symbol, seq<Bar>>, initialCash: real,
                       commissionPerShare: real, slippagePercent: real)
    requires Unique(src) && Sound(strategy)
    ensures var r := Run(strategy, src, initialCash, commissionPerShare, slippagePercent);
      r.Success? ==>
        && Increasing(Marks(r.value.trace))
        && forall t :: t in Marks(r.value.trace) <==> exists s :: Loaded(src, s, t).Some?
  {
    var byTime := LoadData(src);
    RunMarks(strategy, src, initialCash, commissionPerShare, slippagePercent);
    forall t
      ensures HasKey(byTime, t) <==> exists s :: Loaded(src, s, t).Some?
    {
      if HasKey(byTime, t) {
        var s :| BarAt(byTime, t, s).Some?;
        assert Loaded(src, s, t).Some?;
      }
    }
  }

  /** The equity curve holds one sample per mark, taken at the mark's
      timestamp. */
  lemma RunEquityCurve(strategy: Strategy, src: Dict<Symbol, seq<Bar>>, initialCash: real,
                       commissionPerShare: real, slippagePercent: real)
    requires Unique(src) && Sound(strategy)
    ensures var r := Run(strategy, src, initialCash, commissionPerShare, slippagePercent);
      r.Success? ==> EquityTimes(r.value.broker.portfolio.equityHistory) == Marks(r.value.trace)
  {
    var byTime := LoadData(src);
    if byTime != [] {
      var start := Start(initialCash, commissionPerShare, slippagePercent);
      RunMarks(strategy, src, initialCash, commissionPerShare, slippagePercent);
      RunTimesEquity(strategy, start, byTime, Timeline(byTime));
      assert EquityTimes(start.broker.portfolio.equityHistory) == [];
    }
  }

  /** Every trade in the log was reported to the strategy as a fill, one to
      one and in order, and no fill is left in the queue. */
  lemma RunReportsFills(strategy: Strategy, src: Dict<Symbol, seq<Bar>>, initialCash: real,
                        commissionPerShare: real, slippagePercent: real)
    requires Unique(src) && Sound(strategy)
    ensures var r := Run(strategy, src, initialCash, commissionPerShare, slippagePercent);
      r.Success? ==>
        r.value.broker.fillEvents == [] && AllRecorded(r.value.broker.portfolio.tradeHistory, Reports(r.value.trace))
  {
    var byTime := LoadData(src);
    if byTime != [] {
      var start := Start(initialCash, commissionPerShare, slippagePercent);
      RunTimesRecords(strategy, start, byTime, Timeline(byTime));
      EdgesQuiet(RunTimes(strategy, start, byTime, Timeline(byTime)).trace);
    }
  }

  /** The ledger's books hold at the end of the run. */
  lemma RunKeepsBooks(strategy: Strategy, src: Dict<Symbol, seq<Bar>>, initialCash: real,
                      commissionPerShare: real, slippagePercent: real)
    requires Unique(src) && Sound(strategy)
    ensures var r := Run(strategy, src, initialCash, commissionPerShare, slippagePercent);
      r.Success? ==> Ledger.Valid(r.value.broker.portfolio)
  {
    var byTime := LoadData(src);
    if byTime != [] {
      RunTimesKeepsBooks(strategy, Start(initialCash, commissionPerShare, slippagePercent), byTime, Timeline(byTime));
    }
  }
}

=== FILE: ledger.dfy ===
/** The portfolio ledger: cash, signed positions, realized P&L, and the
    append-only equity and trade logs. It is the single source of truth for
    account state; the broker changes it only through `ProcessFill`, the
    engine only through `UpdatePositionPrices`. */
module Ledger {
  import opened Wrappers
  import opened Types
  import opened Dicts

  /** One entry of the trade log, appended for every fill. */
  datatype TradeRecord = TradeRecord(
    timestamp: Option<Timestamp>,
    symbol: Symbol,
    side: OrderSide,
    quantity: int,
    price: real,
    commission: real,
    cashAfter: real,
    portfolioValueAfter: real)

  /** One sample of the equity curve. */
  datatype EquitySample = EquitySample(timestamp: Timestamp, equity: real)

  datatype Portfolio = Portfolio(
    initialCash: real,
    cash: real,
    positions: Dict<Symbol, Position>,
    equityHistory: seq<EquitySample>,
    realizedPnl: real,
    tradeHistory: seq<TradeRecord>)

  function MarketValueOf(pos: Position): real { pos.MarketValue() }
  function CostBasisOf(pos: Position): real { pos.CostBasis() }
  function UnrealizedPnlOf(pos: Position): real { pos.UnrealizedPnl() }

  /** No flat position is ever kept in the position map. */
  ghost predicate NoFlatPositions(p: Portfolio) {
    forall e :: e in p.positions ==> e.1.quantity != 0
  }

  /** Total commission paid over a trade log. */
  function TotalCommission(trades: seq<TradeRecord>): real {
    if trades == [] then 0.0
    else TotalCommission(trades[..|trades| - 1]) + trades[|trades| - 1].commission
  }

  /** The bookkeeping law: cash plus the cost basis of the open positions is
      what the account started with, plus realized P&L, minus commissions. */
  ghost predicate Books(p: Portfolio) {
    p.cash + SumValues(p.positions, CostBasisOf)
      == p.initialCash + p.realizedPnl - TotalCommission(p.tradeHistory)
  }

  /** The state invariant every ledger operation keeps. */
  ghost predicate Valid(p: Portfolio) {
    Unique(p.positions) && NoFlatPositions(p) && Books(p)
  }

  /** A fresh account holding only cash. */
  function NewPortfolio(initialCash: real): (p: Portfolio)
    ensures Valid(p)
    ensures p.cash == initialCash && p.positions == [] && p.realizedPnl == 0.0
    ensures p.equityHistory == [] && p.tradeHistory == []
    ensures PortfolioValue(p) == initialCash
  {
    Portfolio(initialCash, initialCash, [], [], 0.0, [])
  }

  /** The market value of the positions: what they cost plus what they
      have gained unrealized; nothing without positions. */
  function PositionsValue(p: Portfolio): (r: real)
    ensures r == SumValues(p.positions, CostBasisOf) + UnrealizedPnl(p)
    ensures p.positions == [] ==> r == 0.0
  {
    SumUnrealized(p.positions);
    SumValues(p.positions, MarketValueOf)
  }

  /** Cash plus the market value of every position; the cash alone without
      positions. */
  function PortfolioValue(p: Portfolio): (r: real)
    ensures p.positions == [] ==> r == p.cash
  {
    p.cash + PositionsValue(p)
  }

  /** On a ledger that keeps its books, the portfolio value is the initial
      cash plus realized and unrealized P&L, less the commissions paid. */
  lemma ValueOnBooks(p: Portfolio)
    requires Books(p)
    ensures PortfolioValue(p) == p.initialCash + p.realizedPnl + UnrealizedPnl(p) - TotalCommission(p.tradeHistory)
  {
    SumUnrealized(p.positions);
  }

  function UnrealizedPnl(p: Portfolio): real {
    SumValues(p.positions, UnrealizedPnlOf)
  }

  /** Realized plus unrealized P&L. On a valid ledger this is the gain in
      portfolio value over the initial cash, before commissions. */
  function TotalPnl(p: Portfolio): (r: real)
    ensures Books(p) ==> r == PortfolioValue(p) - p.initialCash + TotalCommission(p.tradeHistory)
  {
    SumUnrealized(p.positions);
    p.realizedPnl + UnrealizedPnl(p)
  }

  /** Total P&L as a percentage of the initial cash; 0 without initial cash. */
  function TotalPnlPercent(p: Portfolio): (r: real)
    ensures p.initialCash == 0.0 ==> r == 0.0
    ensures p.initialCash != 0.0 ==> r * p.initialCash == TotalPnl(p) * 100.0
  {
    if p.initialCash == 0.0 then 0.0 else (TotalPnl(p) / p.initialCash) * 100.0
  }

  lemma {:induction false} SumUnrealized(ps: Dict<Symbol, Position>)
    ensures SumValues(ps, UnrealizedPnlOf) == SumValues(ps, MarketValueOf) - SumValues(ps, CostBasisOf)
  {
    if ps != [] {
      SumUnrealized(ps[1..]);
    }
  }

  /** The position stored under `symbol`, or None when the symbol is not a
      key. */
  function GetPosition(p: Portfolio, symbol: Symbol): (r: Option<Position>)
    ensures r.Some? <==> HasKey(p.positions, symbol)
    ensures r.Some? ==> (symbol, r.value) in p.positions
  {
    Get(p.positions, symbol)
  }

  /** True iff a position with non-zero quantity is held; since flat
      positions are never kept, that is iff the symbol is a key. */
  function HasPosition(p: Portfolio, symbol: Symbol): (r: bool)
    ensures r ==> HasKey(p.positions, symbol)
    ensures NoFlatPositions(p) ==> (r <==> HasKey(p.positions, symbol))
  {
    HasKey(p.positions, symbol) && Get(p.positions, symbol).value.quantity != 0
  }

  /** The signed size held, 0 when there is none. */
  function GetPositionSize(p: Portfolio, symbol: Symbol): (r: int)
    ensures r != 0 ==> HasKey(p.positions, symbol)
    ensures NoFlatPositions(p) ==> (r != 0 <==> HasPosition(p, symbol))
    ensures HasKey(p.positions, symbol) ==> r == Get(p.positions, symbol).value.quantity
  {
    match Get(p.positions, symbol)
    case Some(pos) => pos.quantity
    case None => 0
  }

  /** The non-flat positions in map order; on a valid ledger, all of them. */
  function GetAllPositions(p: Portfolio): (r: seq<Position>)
    ensures forall pos :: pos in r ==> pos.quantity != 0
    ensures forall e :: e in p.positions && e.1.quantity != 0 ==> e.1 in r
    ensures forall pos :: pos in r ==> exists e :: e in p.positions && e.1 == pos
    ensures NoFlatPositions(p) ==> |r| == |p.positions|
  {
    NonFlat(p.positions)
  }

  function NonFlat(ps: Dict<Symbol, Position>): (r: seq<Position>)
    ensures forall pos :: pos in r ==> pos.quantity != 0
    ensures forall e :: e in ps && e.1.quantity != 0 ==> e.1 in r
    ensures forall pos :: pos in r ==> exists e :: e in ps && e.1 == pos
    ensures (forall e :: e in ps ==> e.1.quantity != 0) ==> |r| == |ps|
  {
    if ps == [] then []
    else
      var rest := NonFlat(ps[1..]);
      assert forall e :: e in ps[1..] ==> e in ps;
      if ps[0].1.quantity != 0 then [ps[0].1] + rest else rest
  }

  /** The buying power is the cash alone (no margin): the portfolio value
      less what the positions are worth, and, on a ledger that keeps its
      books, what the account started with and realized, less commissions
      and less what the open positions cost. */
  function GetBuyingPower(p: Portfolio): (r: real)
    ensures r == PortfolioValue(p) - PositionsValue(p)
    ensures Books(p) ==> r == p.initialCash + p.realizedPnl - TotalCommission(p.tradeHistory) - SumValues(p.positions, CostBasisOf)
  {
    p.cash
  }

  /** A purchase is affordable iff its cost does not exceed the cash (no
      margin). */
  function CanAfford(p: Portfolio, symbol: Symbol, quantity: int, price: real): (r: bool)
    ensures r <==> p.cash - quantity as real * price >= 0.0
  {
    p.cash >= quantity as real * price
  }

  /** Each position's current price replaced by the quoted one, if any. */
  function Reprice(ps: Dict<Symbol, Position>, prices: map<Symbol, real>): (r: Dict<Symbol, Position>)
    ensures Keys(r) == Keys(ps)
    ensures forall i :: 0 <= i < |ps| ==>
      && r[i].1.quantity == ps[i].1.quantity
      && r[i].1.avgEntryPrice == ps[i].1.avgEntryPrice
      && r[i].1.symbol == ps[i].1.symbol
  {
    seq(|ps|, i requires 0 <= i < |ps| =>
      (ps[i].0, if ps[i].0 in prices then ps[i].1.(currentPrice := prices[ps[i].0]) else ps[i].1))
  }

  lemma {:induction false} RepriceKeepsCostBasis(ps: Dict<Symbol, Position>, prices: map<Symbol, real>)
    ensures SumValues(Reprice(ps, prices), CostBasisOf) == SumValues(ps, CostBasisOf)
  {
    if ps != [] {
      assert Reprice(ps, prices)[1..] == Reprice(ps[1..], prices);
      RepriceKeepsCostBasis(ps[1..], prices);
    }
  }

  /** Marks positions to market. Only the current prices of quoted symbols
      change; cash, quantities, entry prices, realized P&L and the trade log
      are untouched. With a timestamp, one equity sample holding the
      repriced portfolio value is appended. */
  function UpdatePositionPrices(p: Portfolio, prices: map<Symbol, real>, timestamp: Option<Timestamp>): (r: Portfolio)
    ensures r.initialCash == p.initialCash && r.cash == p.cash && r.realizedPnl == p.realizedPnl
    ensures r.tradeHistory == p.tradeHistory
    ensures Keys(r.positions) == Keys(p.positions)
    ensures Unique(p.positions) ==> Unique(r.positions)
    ensures forall s :: HasKey(p.positions, s) ==>
      var before := Get(p.positions, s).value;
      var after := Get(r.positions, s).value;
      && after.quantity == before.quantity
      && after.avgEntryPrice == before.avgEntryPrice
      && after.currentPrice == (if s in prices then prices[s] else before.currentPrice)
    ensures timestamp.None? ==> r.equityHistory == p.equityHistory
    ensures timestamp.Some? ==>
      r.equityHistory == p.equityHistory + [EquitySample(timestamp.value, PortfolioValue(r))]
    ensures Valid(p) ==> Valid(r)
  {
    var positions := Reprice(p.positions, prices);
    forall s | HasKey(p.positions, s)
      ensures Find(positions, s) == Find(p.positions, s)
    {
      SameKeysFind(positions, p.positions, s);
    }
    RepriceKeepsCostBasis(p.positions, prices);
    var q := p.(positions := positions);
    if timestamp.Some? then
      Repriced(q, p.equityHistory + [EquitySample(timestamp.value, PortfolioValue(q))])
    else q
  }

  /** `p` with the equity history `h`; the portfolio value is unchanged. */
  function Repriced(p: Portfolio, h: seq<EquitySample>): (r: Portfolio)
    ensures r.equityHistory == h
    ensures r.initialCash == p.initialCash && r.cash == p.cash && r.realizedPnl == p.realizedPnl
    ensures r.positions == p.positions && r.tradeHistory == p.tradeHistory
    ensures PortfolioValue(r) == PortfolioValue(p)
  {
    p.(equityHistory := h)
  }

  function Abs(x: int): nat {
    if x < 0 then -x else x
  }

  /** +quantity for a buy, -quantity for a sell. */
  function SignedQuantity(order: Order): int {
    if order.side == Buy then order.quantity else -order.quantity
  }

  /** Both amounts are non-zero and of the same sign: the fill adds to the
      holding rather than closing part of it. */
  predicate SameDirection(held: int, delta: int) {
    (held > 0 && delta > 0) || (held < 0 && delta < 0)
  }

  /** P&L realized by closing `n` units of `pos` at `price`: the price move
      times `n`, sign-flipped when the position is short. */
  function RealizedOnClose(pos: Position, price: real, n: nat): real {
    var realized := (price - pos.avgEntryPrice) * n as real;
    if pos.quantity < 0 then -realized else realized
  }

  /** The entry price after adding `delta` units at `price` to `held` units
      entered at `avg`: the total cost of both lots over the new size. */
  function AddedAverage(held: int, delta: int, avg: real, price: real): real
    requires SameDirection(held, delta)
  {
    (avg * Abs(held) as real + price * Abs(delta) as real) / Abs(held + delta) as real
  }

  /** The position held in a symbol after a signed fill of `delta` units at
      `price` (None when there is none), and the P&L the fill realizes: the
      five-way case split of the ledger. */
  function FillPosition(held: Option<Position>, symbol: Symbol, delta: int, price: real): (r: (Option<Position>, real))
    ensures delta != 0 && (held.None? || held.value.quantity != 0) ==> (r.0.None? || r.0.value.quantity != 0)
  {
    match held
    case None => (Some(Position(symbol, delta, price, price)), 0.0)
    case Some(pos) =>
      var was := pos.quantity;
      if SameDirection(was, delta) then
        (Some(pos.(quantity := was + delta, avgEntryPrice := AddedAverage(was, delta, pos.avgEntryPrice, price),
                   currentPrice := price)),
         0.0)
      else if was + delta == 0 then
        (None, RealizedOnClose(pos, price, Abs(delta)))
      else if Abs(delta) < Abs(was) then
        (Some(pos.(quantity := was + delta, currentPrice := price)), RealizedOnClose(pos, price, Abs(delta)))
      else
        (Some(pos.(quantity := was + delta, avgEntryPrice := price, currentPrice := price)),
         RealizedOnClose(pos, price, Abs(was)))
  }

  /** Writes the symbol's new position into the map, deleting it when none
      is left. */
  function Store(ps: Dict<Symbol, Position>, symbol: Symbol, pos: Option<Position>): (r: Dict<Symbol, Position>)
    requires Unique(ps)
    ensures Unique(r)
    ensures Get(r, symbol) == pos
    ensures forall s :: s != symbol ==> Get(r, s) == Get(ps, s)
    ensures SumValues(r, CostBasisOf) == SumValues(ps, CostBasisOf) + HeldCost(pos) - HeldCost(Get(ps, symbol))
  {
    match pos
    case Some(np) =>
      SumPut(ps, symbol, np, CostBasisOf);
      Put(ps, symbol, np)
    case None =>
      SumRemove(ps, symbol, CostBasisOf);
      Remove(ps, symbol)
  }

  /** The cash after a fill: a buy pays the absolute size times the price
      plus commission, a sell receives the size times the price less
      commission. For a non-negative size both are one law: cash drops by
      the signed traded amount and by the commission. */
  function CashAfterFill(cash: real, order: Order, fillPrice: real, commission: real): (r: real)
    ensures order.quantity >= 0 ==> r == cash - SignedQuantity(order) as real * fillPrice - commission
  {
    SignedCost(order, fillPrice);
    if order.side == Buy then cash - (fillPrice * Abs(order.quantity) as real + commission)
    else cash + (fillPrice * order.quantity as real - commission)
  }

  /** A purchase is affordable exactly when paying for it, before
      commission, would leave the cash non-negative. */
  lemma AffordableLeavesCash(p: Portfolio, order: Order, price: real)
    requires order.side == Buy && order.quantity >= 0
    ensures CanAfford(p, order.symbol, order.quantity, price) <==> CashAfterFill(p.cash, order, price, 0.0) >= 0.0
  {
  }

  /** Storing a non-flat position (or deleting one) keeps every stored
      position non-flat. */
  lemma StoreKeepsNonFlat(ps: Dict<Symbol, Position>, symbol: Symbol, pos: Option<Position>)
    requires Unique(ps)
    requires forall e :: e in ps ==> e.1.quantity != 0
    requires pos.None? || pos.value.quantity != 0
    ensures forall e :: e in Store(ps, symbol, pos) ==> e.1.quantity != 0
  {
  }

  /** Books a fill of `order` at `fillPrice`: updates the position and
      realized P&L, moves cash by the traded amount and the commission, and
      appends one trade record that carries the new cash and portfolio
      value. */
  function ProcessFill(p: Portfolio, order: Order, fillPrice: real, commission: real, timestamp: Option<Timestamp>): (r: Portfolio)
    requires Unique(p.positions)
    ensures Unique(r.positions)
    ensures r.initialCash == p.initialCash && r.equityHistory == p.equityHistory
    ensures forall s :: s != order.symbol ==> Get(r.positions, s) == Get(p.positions, s)
    ensures var booked := FillPosition(Get(p.positions, order.symbol), order.symbol, SignedQuantity(order), fillPrice);
      Get(r.positions, order.symbol) == booked.0 && r.realizedPnl == p.realizedPnl + booked.1
    ensures r.cash == CashAfterFill(p.cash, order, fillPrice, commission)
    ensures r.tradeHistory == p.tradeHistory + [TradeRecord(timestamp, order.symbol, order.side, order.quantity,
                                                             fillPrice, commission, r.cash, PortfolioValue(r))]
    ensures var held := Get(p.positions, order.symbol);
      SumValues(r.positions, CostBasisOf) == SumValues(p.positions, CostBasisOf)
        + HeldCost(FillPosition(held, order.symbol, SignedQuantity(order), fillPrice).0) - HeldCost(held)
  {
    var booked := FillPosition(Get(p.positions, order.symbol), order.symbol, SignedQuantity(order), fillPrice);
    var cash := CashAfterFill(p.cash, order, fillPrice, commission);
    var q := p.(cash := cash, positions := Store(p.positions, order.symbol, booked.0),
                realizedPnl := p.realizedPnl + booked.1);
    q.(tradeHistory := p.tradeHistory + [TradeRecord(timestamp, order.symbol, order.side, order.quantity,
                                                     fillPrice, commission, cash, PortfolioValue(q))])
  }

  /** The weighted average entry price keeps the total cost: the cost basis
      after adding is the old cost basis plus the cost of the added units. */
  lemma AddingKeepsTotalCost(held: int, delta: int, avg: real, price: real)
    requires SameDirection(held, delta)
    ensures (held + delta) as real * AddedAverage(held, delta, avg, price) == held as real * avg + delta as real * price
  {
    var total := avg * Abs(held) as real + price * Abs(delta) as real;
    var n := Abs(held + delta) as real;
    assert n * (total / n) == total;
    if held < 0 {
      assert (held + delta) as real == -n;
      assert total == -(held as real * avg + delta as real * price);
    }
  }

  /** Multiplying by a positive factor keeps the sign. */
  lemma PositiveFactorSign(x: real, n: real)
    requires n > 0.0
    ensures x * n >= 0.0 <==> x >= 0.0
  {
    if x < 0.0 {
      assert (-x) * n > 0.0;
    }
  }

  /** A weighted mean of two prices with positive weights lies between
      them. */
  lemma WeightedMeanBetween(x: real, y: real, a: real, b: real, n: real)
    requires a > 0.0 && b > 0.0 && n == a + b
    ensures x <= y ==> x <= (x * a + y * b) / n <= y
    ensures y <= x ==> y <= (x * a + y * b) / n <= x
  {
    var m := (x * a + y * b) / n;
    assert m * n == x * a + y * b;
    assert (m - x) * n == (y - x) * b;
    assert (y - m) * n == (y - x) * a;
    if x <= y {
      PositiveFactorSign(y - x, a);
      PositiveFactorSign(y - x, b);
      PositiveFactorSign(m - x, n);
      PositiveFactorSign(y - m, n);
    } else {
      PositiveFactorSign(x - y, a);
      PositiveFactorSign(x - y, b);
      PositiveFactorSign(x - m, n);
      PositiveFactorSign(m - y, n);
    }
  }

  /** The weighted average lies between the old entry price and the fill
      price. */
  lemma AverageBetween(held: int, delta: int, avg: real, price: real)
    requires SameDirection(held, delta)
    ensures var newAvg := AddedAverage(held, delta, avg, price);
      (avg <= price ==> avg <= newAvg <= price) && (price <= avg ==> price <= newAvg <= avg)
  {
    var a, b, n := Abs(held) as real, Abs(delta) as real, Abs(held + delta) as real;
    WeightedMeanBetween(avg, price, a, b, n);
    var m := (avg * a + price * b) / n;
    assert avg <= price ==> avg <= m <= price;
    assert AddedAverage(held, delta, avg, price) == m;
  }

  /** A buy's signed cost is the traded amount, a sell's its negation. */
  lemma SignedCost(order: Order, price: real)
    ensures order.side == Buy ==> SignedQuantity(order) as real * price == price * order.quantity as real
    ensures order.side == Sell ==> SignedQuantity(order) as real * price == -(price * order.quantity as real)
  {
    var q := order.quantity as real;
    if order.side == Sell {
      assert SignedQuantity(order) as real == -q;
      assert (-q) * price == -(price * q);
    }
  }

  /** With no position in the symbol, one is opened with the signed fill
      quantity, entered and marked at the fill price; nothing is realized. */
  lemma FillOpens(symbol: Symbol, delta: int, price: real)
    ensures FillPosition(None, symbol, delta, price) == (Some(Position(symbol, delta, price, price)), 0.0)
  {
  }

  /** Adding in the same direction accumulates the quantity; the new
      average entry price keeps the total cost (the cost basis grows by the
      cost of the added units) and lies between the old entry price and the
      fill price. Nothing is realized. */
  lemma FillAdds(pos: Position, symbol: Symbol, delta: int, price: real)
    requires SameDirection(pos.quantity, delta)
    ensures
      var booked := FillPosition(Some(pos), symbol, delta, price);
      && booked.0.Some?
      && var after := booked.0.value;
      && after.quantity == pos.quantity + delta
      && after.CostBasis() == pos.CostBasis() + delta as real * price
      && (pos.avgEntryPrice <= price ==> pos.avgEntryPrice <= after.avgEntryPrice <= price)
      && (price <= pos.avgEntryPrice ==> price <= after.avgEntryPrice <= pos.avgEntryPrice)
      && after.currentPrice == price
      && booked.1 == 0.0
  {
    var held := pos.quantity;
    AddingKeepsTotalCost(held, delta, pos.avgEntryPrice, price);
    AverageBetween(held, delta, pos.avgEntryPrice, price);
  }

  /** A fill that exactly offsets the holding deletes the position and
      realizes the held quantity times the price move since entry (a gain
      for a long when the price rose, for a short when it fell). */
  lemma FillCloses(pos: Position, symbol: Symbol, delta: int, price: real)
    requires pos.quantity + delta == 0
    ensures FillPosition(Some(pos), symbol, delta, price).0 == None
    ensures FillPosition(Some(pos), symbol, delta, price).1 == pos.quantity as real * (price - pos.avgEntryPrice)
  {
    var move := price - pos.avgEntryPrice;
    var q := pos.quantity as real;
    assert !SameDirection(pos.quantity, delta);
    assert FillPosition(Some(pos), symbol, delta, price) == (None, RealizedOnClose(pos, price, Abs(delta)));
    if pos.quantity < 0 {
      assert Abs(delta) as real == -q;
      assert RealizedOnClose(pos, price, Abs(delta)) == -(move * -q);
      assert -(move * -q) == q * move;
    } else {
      assert Abs(delta) as real == q;
      assert RealizedOnClose(pos, price, Abs(delta)) == move * q;
      assert move * q == q * move;
    }
  }

  /** A smaller opposite fill keeps the position on its side at the same
      entry price with `held + delta` units; only the `-delta` closed units
      realize their price move. */
  lemma FillReducesPartially(pos: Position, symbol: Symbol, delta: int, price: real)
    requires pos.quantity != 0 && !SameDirection(pos.quantity, delta)
    requires Abs(delta) < Abs(pos.quantity)
    ensures
      var booked := FillPosition(Some(pos), symbol, delta, price);
      && booked.0 == Some(pos.(quantity := pos.quantity + delta, currentPrice := price))
      && (pos.quantity + delta) * pos.quantity > 0
      && booked.1 == -delta as real * (price - pos.avgEntryPrice)
  {
    var held := pos.quantity;
    var move := price - pos.avgEntryPrice;
    if held > 0 {
      assert held + delta > 0;
      assert Abs(delta) as real == -(delta as real);
    } else {
      assert held + delta < 0;
      assert Abs(delta) as real == delta as real;
      assert -(move * delta as real) == -delta as real * move;
    }
  }

  /** A larger opposite fill realizes the price move on the whole holding
      and leaves `held + delta` units on the other side, entered at the
      fill price. */
  lemma FillReverses(pos: Position, symbol: Symbol, delta: int, price: real)
    requires pos.quantity != 0 && !SameDirection(pos.quantity, delta)
    requires Abs(delta) > Abs(pos.quantity)
    ensures
      var booked := FillPosition(Some(pos), symbol, delta, price);
      && booked.0 == Some(Position(pos.symbol, pos.quantity + delta, price, price))
      && (pos.quantity + delta) * pos.quantity < 0
      && booked.1 == pos.quantity as real * (price - pos.avgEntryPrice)
  {
    var held := pos.quantity;
    var move := price - pos.avgEntryPrice;
    if held > 0 {
      assert held + delta < 0;
      assert Abs(held) as real == held as real;
    } else {
      assert held + delta > 0;
      assert Abs(held) as real == -(held as real);
      assert -(move * -(held as real)) == held as real * move;
    }
  }

  /** The cost basis of a possibly absent position. */
  function HeldCost(held: Option<Position>): real {
    if held.Some? then held.value.CostBasis() else 0.0
  }

  /** The accounting identity of a single fill, in every one of the five
      cases: the change in the symbol's cost basis equals the realized P&L
      plus the signed traded amount. */
  lemma FillBalances(held: Option<Position>, symbol: Symbol, delta: int, price: real)
    ensures Balances(held, symbol, delta, price)
  {
    match held
    case None =>
    case Some(pos) =>
      var was := pos.quantity;
      if SameDirection(was, delta) {
        FillAdds(pos, symbol, delta, price);
      } else if was + delta == 0 {
        ClosingBalances(pos, symbol, delta, price);
      } else if Abs(delta) < Abs(was) {
        ReducingBalances(pos, symbol, delta, price);
      } else if was == 0 {
        assert RealizedOnClose(pos, price, Abs(was)) == 0.0;
      } else {
        ReversingBalances(pos, symbol, delta, price);
      }
  }

  /** The accounting identity of one fill: the change in the symbol's cost
      basis is the realized P&L plus the signed traded amount. */
  ghost predicate Balances(held: Option<Position>, symbol: Symbol, delta: int, price: real) {
    var booked := FillPosition(held, symbol, delta, price);
    HeldCost(booked.0) - HeldCost(held) == booked.1 + delta as real * price
  }

  lemma ClosingBalances(pos: Position, symbol: Symbol, delta: int, price: real)
    requires pos.quantity + delta == 0
    ensures Balances(Some(pos), symbol, delta, price)
  {
    FillCloses(pos, symbol, delta, price);
    assert delta as real == -(pos.quantity as real);
  }

  lemma ReducingBalances(pos: Position, symbol: Symbol, delta: int, price: real)
    requires pos.quantity != 0 && !SameDirection(pos.quantity, delta)
    requires Abs(delta) < Abs(pos.quantity)
    ensures Balances(Some(pos), symbol, delta, price)
  {
    FillReducesPartially(pos, symbol, delta, price);
    var avg := pos.avgEntryPrice;
    assert (pos.quantity + delta) as real * avg - pos.quantity as real * avg == delta as real * avg;
  }

  lemma ReversingBalances(pos: Position, symbol: Symbol, delta: int, price: real)
    requires pos.quantity != 0 && !SameDirection(pos.quantity, delta)
    requires Abs(delta) > Abs(pos.quantity)
    ensures Balances(Some(pos), symbol, delta, price)
  {
    FillReverses(pos, symbol, delta, price);
    assert (pos.quantity + delta) as real * price == pos.quantity as real * price + delta as real * price;
  }

  /** Booking a fill keeps the ledger valid: positions stay unique and
      non-flat, and the bookkeeping law still balances once the new
      commission is counted. */
  lemma ProcessFillKeepsValid(p: Portfolio, order: Order, fillPrice: real, commission: real, timestamp: Option<Timestamp>)
    requires order.quantity > 0
    requires Valid(p)
    ensures Valid(ProcessFill(p, order, fillPrice, commission, timestamp))
  {
    ProcessFillKeepsBooks(p, order, fillPrice, commission, timestamp);
    var held := Get(p.positions, order.symbol);
    StoreKeepsNonFlat(p.positions, order.symbol, FillPosition(held, order.symbol, SignedQuantity(order), fillPrice).0);
  }

  lemma ProcessFillKeepsBooks(p: Portfolio, order: Order, fillPrice: real, commission: real, timestamp: Option<Timestamp>)
    requires order.quantity > 0
    requires Unique(p.positions) && Books(p)
    ensures Books(ProcessFill(p, order, fillPrice, commission, timestamp))
  {
    FillCash(p, order, fillPrice, commission, timestamp);
    FillCostBasis(p, order, fillPrice, commission, timestamp);
    FillCommission(p, order, fillPrice, commission, timestamp);
  }

  /** A fill changes the total cost basis by the P&L it realizes plus the
      signed traded amount. */
  lemma FillCostBasis(p: Portfolio, order: Order, fillPrice: real, commission: real, timestamp: Option<Timestamp>)
    requires Unique(p.positions)
    ensures var r := ProcessFill(p, order, fillPrice, commission, timestamp);
      SumValues(r.positions, CostBasisOf)
        == SumValues(p.positions, CostBasisOf) + (r.realizedPnl - p.realizedPnl) + SignedQuantity(order) as real * fillPrice
  {
    FillBalances(Get(p.positions, order.symbol), order.symbol, SignedQuantity(order), fillPrice);
  }

  /** A fill adds its commission to the commissions of the trade log. */
  lemma FillCommission(p: Portfolio, order: Order, fillPrice: real, commission: real, timestamp: Option<Timestamp>)
    requires Unique(p.positions)
    ensures var r := ProcessFill(p, order, fillPrice, commission, timestamp);
      TotalCommission(r.tradeHistory) == TotalCommission(p.tradeHistory) + commission
  {
    var r := ProcessFill(p, order, fillPrice, commission, timestamp);
    AppendedCommission(p.tradeHistory, TradeRecord(timestamp, order.symbol, order.side, order.quantity,
                                                   fillPrice, commission, r.cash, PortfolioValue(r)));
  }

  /** For a non-negative order size both sides obey one cash law: cash
      drops by the signed traded amount and by the commission. */
  lemma FillCash(p: Portfolio, order: Order, fillPrice: real, commission: real, timestamp: Option<Timestamp>)
    requires Unique(p.positions) && order.quantity >= 0
    ensures ProcessFill(p, order, fillPrice, commission, timestamp).cash
            == p.cash - SignedQuantity(order) as real * fillPrice - commission
  {
    var r := ProcessFill(p, order, fillPrice, commission, timestamp);
    assert r.cash == CashAfterFill(p.cash, order, fillPrice, commission);
  }

  /** Appending a trade adds its commission to the total. */
  lemma AppendedCommission(trades: seq<TradeRecord>, t: TradeRecord)
    ensures TotalCommission(trades + [t]) == TotalCommission(trades) + t.commission
  {
    assert (trades + [t])[..|trades|] == trades;
  }

  /** A buy in a symbol without a position opens a long lot at the fill
      price and pays for it; nothing is realized. */
  lemma BuyOpens(p: Portfolio, buy: Order, price: real, commission: real, t: Option<Timestamp>)
    requires Unique(p.positions) && !HasKey(p.positions, buy.symbol)
    requires buy.side == Buy && buy.quantity > 0
    ensures var r := ProcessFill(p, buy, price, commission, t);
      && Get(r.positions, buy.symbol) == Some(Position(buy.symbol, buy.quantity, price, price))
      && r.realizedPnl == p.realizedPnl
      && r.cash == p.cash - buy.quantity as real * price - commission
  {
    FillOpens(buy.symbol, buy.quantity, price);
    FillCash(p, buy, price, commission, t);
  }

  /** A sell of the whole long lot deletes it, realizes its price move and
      collects the proceeds less commission. */
  lemma SellCloses(p: Portfolio, sell: Order, entry: real, mark: real, price: real, commission: real, t: Option<Timestamp>)
    requires Unique(p.positions)
    requires Get(p.positions, sell.symbol) == Some(Position(sell.symbol, sell.quantity, entry, mark))
    requires sell.side == Sell && sell.quantity > 0
    ensures var r := ProcessFill(p, sell, price, commission, t);
      && Get(r.positions, sell.symbol) == None
      && r.realizedPnl == p.realizedPnl + sell.quantity as real * (price - entry)
      && r.cash == p.cash + sell.quantity as real * price - commission
  {
    FillCloses(Position(sell.symbol, sell.quantity, entry, mark), sell.symbol, -sell.quantity, price);
    FillCash(p, sell, price, commission, t);
    SignedCost(sell, price);
  }

  /** Multiplication distributes over a price difference. */
  lemma Distribute(q: real, a: real, b: real)
    ensures q * (a - b) == q * a - q * b
  {
  }

  /** Opening a position with a buy and closing it with a sell of the same
      size realizes the price difference on that size, moves cash by the
      same amount less both commissions, and leaves no position behind. */
  lemma RoundTrip(p: Portfolio, buy: Order, sell: Order, buyPrice: real, sellPrice: real,
                  c1: real, c2: real, t1: Option<Timestamp>, t2: Option<Timestamp>)
    requires Unique(p.positions) && !HasKey(p.positions, buy.symbol)
    requires buy.side == Buy && sell.side == Sell
    requires sell.symbol == buy.symbol && sell.quantity == buy.quantity && buy.quantity > 0
    ensures var r := ProcessFill(ProcessFill(p, buy, buyPrice, c1, t1), sell, sellPrice, c2, t2);
      && Get(r.positions, sell.symbol) == None
      && r.realizedPnl == p.realizedPnl + sell.quantity as real * (sellPrice - buyPrice)
      && r.cash == p.cash + sell.quantity as real * (sellPrice - buyPrice) - c1 - c2
  {
    var mid := ProcessFill(p, buy, buyPrice, c1, t1);
    BuyOpens(p, buy, buyPrice, c1, t1);
    SellCloses(mid, sell, buyPrice, buyPrice, sellPrice, c2, t2);
    Distribute(sell.quantity as real, sellPrice, buyPrice);
  }
}

=== FILE: numeric.dfy ===
/** The two-argument minimum and maximum of reals, shared by the broker's
    fill prices and the analytics' running extremes. */
module Numeric {

  /** Python's `min(x, y)` on floats. */
  function Min(x: real, y: real): (r: real)
    ensures r <= x && r <= y && (r == x || r == y)
  {
    if x <= y then x else y
  }

  /** Python's `max(x, y)` on floats. */
  function Max(x: real, y: real): (r: real)
    ensures r >= x && r >= y && (r == x || r == y)
  {
    if x >= y then x else y
  }
}

=== FILE: types.dfy ===
/** The domain records of the trading framework: bars, orders, positions and
    fill events, with their derived read-only quantities. */
module Types {
  import opened Wrappers

  type Symbol = string

  /** An abstract instant; only its order matters to the simulation. */
  type Timestamp = int

  /** Broker-assigned order identifier (a fresh counter value). */
  type OrderId = nat

  datatype AssetType = Stock | OptionContract | Crypto

  datatype OrderType = Market | Limit | Stop | StopLimit

  datatype OrderSide = Buy | Sell

  datatype OrderStatus = Pending | Submitted | PartiallyFilled | Filled | Canceled | Rejected

  datatype TimeInForce = Day | GoodTillCanceled | ImmediateOrCancel | FillOrKill

  /** One OHLCV price bar. */
  datatype Bar = Bar(
    timestamp: Timestamp,
    symbol: Symbol,
    open: real,
    high: real,
    low: real,
    close: real,
    volume: int)
  {
    /** The extremes enclose the open and the close. */
    ghost predicate Consistent() {
      low <= open <= high && low <= close <= high
    }

    /** (high + low + close) / 3: the typical price lies within the bar and
        is the mean of its three terms. */
    function TypicalPrice(): (r: real)
      ensures low <= close <= high ==> low <= r <= high
      ensures (r - high) + (r - low) + (r - close) == 0.0
    {
      (high + low + close) / 3.0
    }

    /** high - low: never negative on a consistent bar, and it bounds how far
        any two in-bar prices can be apart. */
    function Range(): (r: real)
      ensures r + low == high
      ensures r >= 0.0 <==> low <= high
      ensures Consistent() ==> open - low <= r && high - close <= r
    {
      high - low
    }
  }

  /** The prices an order of a given type must carry: a limit price for limit
      and stop-limit orders, a stop price for stop and stop-limit orders. */
  predicate RequiredPricesPresent(orderType: OrderType, limitPrice: Option<real>, stopPrice: Option<real>) {
    && (orderType == Limit || orderType == StopLimit ==> limitPrice.Some?)
    && (orderType == Stop || orderType == StopLimit ==> stopPrice.Some?)
  }

  /** A trading order. The fields after `stopPrice` are set by the broker. */
  datatype Order = Order(
    symbol: Symbol,
    side: OrderSide,
    quantity: int,
    orderType: OrderType,
    timeInForce: TimeInForce,
    limitPrice: Option<real>,
    stopPrice: Option<real>,
    orderId: Option<OrderId>,
    status: OrderStatus,
    submittedAt: Option<Timestamp>,
    filledAt: Option<Timestamp>,
    filledQuantity: int,
    filledAvgPrice: Option<real>)
  {
    /** What construction guarantees of every order that exists. */
    predicate WellFormed() {
      RequiredPricesPresent(orderType, limitPrice, stopPrice)
    }

    predicate IsFilled() {
      status == Filled
    }

    /** Pending, submitted and partially filled orders are active. An active
        order is never filled, and an order is inactive exactly when it is
        filled, canceled or rejected. */
    function IsActive(): (r: bool)
      ensures r ==> !IsFilled()
      ensures !r <==> IsFilled() || status == Canceled || status == Rejected
    {
      status in {Pending, Submitted, PartiallyFilled}
    }
  }

  /** Why the constructor refuses an order. */
  datatype OrderError =
    | LimitOrderWithoutLimitPrice
    | StopOrderWithoutStopPrice
    | StopLimitOrderWithoutBothPrices

  /** Builds an order the way the dataclass constructor does, refusing it when
      a price its type needs is missing. A fresh order is pending, has nothing
      filled and is therefore not filled but active. */
  function NewOrder(
    symbol: Symbol,
    side: OrderSide,
    quantity: int,
    orderType: OrderType,
    timeInForce: TimeInForce,
    limitPrice: Option<real>,
    stopPrice: Option<real>): (r: Result<Order, OrderError>)
    ensures r.Success? <==> RequiredPricesPresent(orderType, limitPrice, stopPrice)
    ensures r.Failure? && orderType == Limit ==> r.error == LimitOrderWithoutLimitPrice
    ensures r.Failure? && orderType == Stop ==> r.error == StopOrderWithoutStopPrice
    ensures r.Failure? && orderType == StopLimit ==> r.error == StopLimitOrderWithoutBothPrices
    ensures r.Failure? ==> orderType != Market
    ensures r.Success? ==>
      && r.value.WellFormed()
      && r.value.symbol == symbol && r.value.side == side && r.value.quantity == quantity
      && r.value.orderType == orderType && r.value.timeInForce == timeInForce
      && r.value.limitPrice == limitPrice && r.value.stopPrice == stopPrice
      && r.value.orderId.None? && r.value.status == Pending
      && r.value.filledQuantity == 0 && r.value.filledAvgPrice.None? && r.value.filledAt.None?
      && !r.value.IsFilled() && r.value.IsActive()
  {
    if orderType == Limit && limitPrice.None? then Failure(LimitOrderWithoutLimitPrice)
    else if orderType == Stop && stopPrice.None? then Failure(StopOrderWithoutStopPrice)
    else if orderType == StopLimit && (limitPrice.None? || stopPrice.None?) then
      Failure(StopLimitOrderWithoutBothPrices)
    else
      Success(Order(symbol, side, quantity, orderType, timeInForce, limitPrice, stopPrice,
                    None, Pending, None, None, 0, None))
  }

  /** A holding in one security; a negative quantity is a short. */
  datatype Position = Position(
    symbol: Symbol,
    quantity: int,
    avgEntryPrice: real,
    currentPrice: real)
  {
    function MarketValue(): real {
      quantity as real * currentPrice
    }

    function CostBasis(): real {
      quantity as real * avgEntryPrice
    }

    /** Market value minus cost basis: the quantity times the price move
        since entry. 100 shares bought at 450 and marked at 460 cost 45000,
        are worth 46000 and so show 1000 unrealized. */
    function UnrealizedPnl(): (r: real)
      ensures r == quantity as real * (currentPrice - avgEntryPrice)
      ensures quantity > 0 ==> (r > 0.0 <==> currentPrice > avgEntryPrice)
      ensures quantity < 0 ==> (r > 0.0 <==> currentPrice < avgEntryPrice)
    {
      MarketValue() - CostBasis()
    }

    /** Unrealized P&L as a percentage of cost basis, 0 when the cost basis
        is 0. Otherwise it is the relative price move since entry, whatever
        the size or direction of the position. */
    function UnrealizedPnlPercent(): (r: real)
      ensures CostBasis() == 0.0 ==> r == 0.0
      ensures CostBasis() != 0.0 ==> r == (currentPrice - avgEntryPrice) / avgEntryPrice * 100.0
    {
      if CostBasis() == 0.0 then 0.0
      else
        var q := quantity as real;
        assert UnrealizedPnl() / CostBasis() == (currentPrice - avgEntryPrice) / avgEntryPrice by {
          assert UnrealizedPnl() == q * (currentPrice - avgEntryPrice);
          assert q != 0.0 && avgEntryPrice != 0.0;
        }
        (UnrealizedPnl() / CostBasis()) * 100.0
    }

    predicate IsLong() {
      quantity > 0
    }

    /** A short is never long, and a position is neither exactly when it is
        flat. */
    function IsShort(): (r: bool)
      ensures r ==> !IsLong()
      ensures !r && !IsLong() <==> quantity == 0
    {
      quantity < 0
    }
  }

  /** A fill notification: the filled order, its price, quantity, time and
      commission. */
  datatype FillEvent = FillEvent(
    order: Order,
    fillPrice: real,
    fillQuantity: int,
    timestamp: Timestamp,
    commission: real)
}

=== FILE: wrappers.dfy ===
/** Optional values and results with an error channel, used wherever the
    source returns `None` or raises. */
module Wrappers {

  /** A value that may be absent (Python's `Optional[T]`). */
  datatype Option<+T> = None | Some(value: T) {

    /** The wrapped value, or `default` when absent. */
    function GetOr(default: T): T {
      match this
      case Some(v) => v
      case None => default
    }
  }

  /** The outcome of an operation that can be refused: either a value or the
      error the source would raise. */
  datatype Result<+T, +E> = Success(value: T) | Failure(error: E)
}
